=== FILE: README.md ===
# snapluks-backend core, modelled in Dafny

This project models the sequential logic of the snapluks-backend API. The
API is a Go service where providers of appointment services register, list
their staff, categories, services and opening hours, and authenticate with
bearer tokens. The model covers these parts:

- **The validator** (`internal/validator`). It records the first error per
  field. It also provides `In`, `Unique`, `HasDuplicates` and `Dedupe`,
  and the phone and category patterns, which are stated against a small
  regular-expression language (`Regexp`).
- **The per-entity validators.** These cover services, staff, categories,
  business hours, providers, users, passwords, token plaintexts and
  pagination filters.
- **The small codecs.**
  - `LocalTime` (`HH:MM:SS`), with its JSON and SQL forms.
  - Token generation, using base32 without padding (RFC 4648, section 6).
  - Pagination arithmetic.
  - The request helpers of `cmd/api/helpers.go`.
  - The bearer header rule of the `authenticate` middleware.
- **The write paths over an abstract relational store.**
  - Service, staff and provider-image inserts. Each runs in one transaction
    and maps constraint violations to domain errors.
  - The handler that creates a service. It inserts the service, then runs
    an image phase and cleans up after any failure.

The store is a value (`Store.Db`) holding one sequence of rows per table.
Every operation returns the new store, the statements it sent in order
(the *trace*) and its result. Whether the database accepts a statement is
decided by an `Engine`, a function parameter. It may reject any statement
with a driver error or a PostgreSQL error code. What an accepted statement
does to the rows is defined (`Store.Apply`).

The collaborators are parameters, not definitions:

- SHA-256, `crypto/rand`, the email pattern, and `time.ParseDuration`.
- `strconv.ParseFloat`, `data.ParseIntSlice` and the clock.
- The storage service (upload and delete) and the provider lookup.

## Model

| member | source | states |
|---|---|---|
| Validation.New | internal/validator/validator.go:19-21 | a fresh validator has no error and is valid |
| Validation.ValidIffNoErrors | internal/validator/validator.go:23-25 | `Valid` holds exactly when no key carries an error |
| Validation.AddError | internal/validator/validator.go:27-31 | the key set grows by the key; the message is stored only when the key had none; earlier messages are kept |
| Validation.Check | internal/validator/validator.go:33-37 | a passing check changes nothing; a failing one adds the key with the message unless the key already has one |
| Validation.CheckBoth | internal/validator/validator.go:33-37 | two checks on one key: the key is in error when either fails, with the message of the first that fails |
| Validation.FirstErrorWins | internal/validator/validator.go:27-31 | a second `AddError` on the same key leaves the validator unchanged and keeps the first message |
| Validation.InvalidStaysInvalid | internal/validator/validator.go:27-37 | a validator that extends an invalid one is invalid, so later checks never make it valid again |
| Validation.In | internal/validator/validator.go:39-41 | the scan is true exactly when the value is an element of the list |
| Validation.PhoneRXIff | internal/validator/validator.go:11 | `MatchesPhone` holds exactly when the whole text is in the language of `^[0-9]{10}$` |
| Validation.CategoryRXIff | internal/validator/validator.go:12 | `MatchesCategory` holds exactly when the whole text is in the language of `^[a-zA-Z0-9 ]+$` |
| Validation.HasDuplicates | internal/validator/validator.go:62-71 | the left-to-right scan reports a duplicate exactly when two positions hold equal values |
| Validation.Unique | internal/validator/validator.go:52-60 | comparing the length with the number of distinct values is the negation of `HasDuplicates` |
| Validation.Dedupe | internal/validator/validator.go:73-83 | the result has no repeats, holds exactly the values of the input, and lists them in the order of their first occurrence |
| Validation.DedupeDistinct | internal/validator/validator.go:73-83 | a sequence without repeats is returned unchanged |
| Validation.DedupeIdempotent | internal/validator/validator.go:73-83 | deduplicating twice gives the same as once |
| Filters.CalculateMetadata | internal/data/filters.go:27-39 | no records give the zero metadata; otherwise page, size and total are copied, the first page is 1, and the last page is the ceiling of total over size, as bounds for either sign of the page size |
| Filters.PageCount | internal/data/filters.go:36 | for a positive page size, the ceiling of total over size: the smallest page count whose pages hold every record, at least 1 when there are records |
| Filters.LastPageUnique | internal/data/filters.go:36 | any page number meeting the ceiling bounds is the last page reported, so the bounds pin it down |
| Filters.Offset | internal/data/filters.go:45-47 | the offset is non-negative for a page of at least 1 and a non-negative size, and zero on page 1 |
| Filters.PagesContiguous | internal/data/filters.go:41-47 | the next page starts exactly `limit()` records, the page size, after this page's offset |
| Filters.RecordOnOnePage | internal/data/filters.go:27-47 | every record of a non-empty result lies on a page between 1 and the last page, inside that page's offset window |
| Filters.SortColumn | internal/data/filters.go:49-54 | a key outside the safe list fails with the panic message; a safe key gives the column, with exactly one leading `-` removed |
| Filters.SortDirection | internal/data/filters.go:56-61 | `DESC` exactly when the key starts with `-`, `ASC` otherwise |
| Filters.SortKeyRoundTrip | internal/data/filters.go:49-61 | direction and column together give back the sort key |
| Filters.ValidateFilters | internal/data/filters.go:63-68 | `page` is in error exactly when it is outside 1..10,000,000, and `page_size` outside 1..100; each carries the message of the bound it breaks |
| Filters.ValidFiltersIff | internal/data/filters.go:63-68 | filters are valid exactly when both ranges hold |
| Services.BlankIffTrimmedEmpty | internal/data/services.go:49-50 | `strings.TrimSpace` gives the empty string exactly when every character is white space |
| Services.ValidateDuration | internal/data/services.go:38-46 | an empty duration gets only "must be provided"; a non-empty one that does not parse gets the format message; one that parses gets nothing |
| Services.HasNonPositive | internal/data/services.go:65-70 | the scan that stops at the first id `<= 0` finds one exactly when not every id is positive |
| Services.ValidateIdSlice | internal/data/services.go:60-71 | the field is in error exactly when the list is empty, repeats an id or holds an id `<= 0`; the empty-list message wins, then the duplicate message |
| Services.ValidateService | internal/data/services.go:48-58 | the keys put in error are exactly those of the fields that fail their rule; earlier errors are kept |
| Services.ServiceMessages | internal/data/services.go:49-52 | the messages recorded for name, description, price and type id |
| Services.ValidServiceIff | internal/data/services.go:48-58 | a service is valid exactly when every field meets its rule |
| Services.PriceKey | internal/data/services.go:51 | the price is in error exactly when it is `<= 0`, so zero is refused and any positive price is accepted |
| Services.ApplyInsertBody | internal/data/services.go:93-142 | the statements of the insert, once applied, add the service row, then one category link per category, then one staff link per staff id, in input order |
| Services.Insert | internal/data/services.go:73-159 | all or nothing: a failure leaves the store unchanged; success returns the next id and adds the row and every link; the first rejected statement decides the error; the statements sent are a prefix of the transaction |
| Services.InsertErrorMapping | internal/data/services.go:108-141 | `ErrDuplicateRecord` exactly when the service row hits a unique violation; `ErrCategoryNotFound` exactly when a category link hits a foreign-key violation; `ErrStaffNotFound` likewise for a staff link |
| Services.InsertLinkOrder | internal/data/services.go:116-142 | no category link is sent after a staff link |
| Services.MissingCategoryStopsStaff | internal/data/services.go:120-128 | after `ErrCategoryNotFound` no staff link has been sent |
| Services.InsertOtherFailures | internal/data/services.go:77-91 | unless a body statement is rejected, the insert succeeds or fails at begin or commit |
| Services.InsertImage | internal/data/services.go:161-171 | one image row is added exactly when the database accepts it; a failure changes nothing |
| Services.Delete | internal/data/services.go:173-196 | succeeds exactly when the database accepts the delete and some row has that id and provider; success leaves no such row and keeps every other; `ErrRecordNotFound` exactly when the database accepts and no row matches; a rejected delete returns the driver error; every failure leaves the store unchanged |
| Services.NothingDeleted | internal/data/services.go:185-193 | the delete affects no row exactly when no row has that id and provider, and then the rows are unchanged |
| StaffMembers.ServiceKeyInjective | internal/data/staff.go:49-51 | different positions of the service list report under different keys |
| StaffMembers.ServiceKeyFresh | internal/data/staff.go:36-51 | no position key is one of the field keys |
| StaffMembers.CheckServiceIds | internal/data/staff.go:49-51 | the loop adds exactly the keys of the positions holding an id `<= 0` |
| StaffMembers.ServiceIdMessages | internal/data/staff.go:50 | each such position carries "must be a valid service ID" |
| StaffMembers.BadIdKeyIff | internal/data/staff.go:49-51 | `services[i]` is in error exactly when position `i` exists and holds an id `<= 0` |
| StaffMembers.ValidateStaff | internal/data/staff.go:34-52 | the keys put in error are exactly those of the failing fields and positions |
| StaffMembers.ValidStaffIff | internal/data/staff.go:34-52 | staff is valid exactly when the name has 1 to 100 bytes, the phone is 10 digits, the email is present and matches, and the service list is non-empty with positive ids |
| StaffMembers.ServiceKeyIff | internal/data/staff.go:48-51 | in a full validation, `services[i]` is in error exactly when position `i` holds an id `<= 0` |
| StaffMembers.StaffFieldMessages | internal/data/staff.go:36-45 | the messages recorded for name, phone and email |
| StaffMembers.StaffServiceMessages | internal/data/staff.go:48-51 | the messages recorded for an empty service list and for each bad position |
| StaffMembers.PlaceholderTextInjective | internal/data/staff.go:101 | different positions get different tuple texts |
| StaffMembers.PlaceholdersResolve | internal/data/staff.go:94-108 | every parameter a tuple names is within the arguments; every service argument is named by some tuple; tuple `i` resolves to the link of the `i`-th service |
| StaffMembers.ApplyInsertBody | internal/data/staff.go:74-117 | the statements of the insert, once applied, add the staff row and one link per service, in order |
| StaffMembers.Insert | internal/data/staff.go:54-120 | all or nothing, with the commit error returned: success returns the next id and the whole insert; `ErrServiceNotFound` exactly when the links hit a foreign-key violation |
| StaffMembers.InsertAsWritten | internal/data/staff.go:54-120 | as written: success is reported whenever every statement is accepted, even when the commit then fails and nothing is stored |
| StaffMembers.AsWrittenAgrees | internal/data/staff.go:63-72 | the two versions differ exactly when every statement is accepted and the commit fails |
| StaffMembers.CommitFailureReportedAsSuccess | internal/data/staff.go:63-72 | with a database that rejects only the commit, the code as written reports success and stores nothing, while the corrected version reports the error |
| StaffMembers.StaffRowFirst | internal/data/staff.go:89-94 | the staff row is the first statement after begin, and an empty service list sends no link statement |
| StaffMembers.Listing | internal/data/staff.go:122-128 | the listing is a sorted permutation of the provider's rows; it is empty exactly when the provider has no staff |
| StaffMembers.GetAllByProviderID | internal/data/staff.go:122-162 | a query error is returned as is; otherwise the provider's staff ordered by name, and a `nil` slice when there are none |
| Categories.ValidateCategory | internal/data/categories.go:25-29 | `category` is in error exactly when the name breaks the pattern or the length bounds, with the message of the first failing check |
| Categories.ValidCategoryIff | internal/data/categories.go:25-29 | a name is valid exactly when it has 3 to 50 characters, each a letter, a digit or a space |
| Categories.EmptyCategoryMessage | internal/data/categories.go:26 | an empty name records exactly one error, "must be provided" |
| Categories.Insert | internal/data/categories.go:31-51 | success adds the row with the next id; a unique violation is `ErrDuplicateCategory` exactly; other errors pass through; a failure changes nothing |
| Categories.DuplicateIsNotRecordDuplicate | internal/data/categories.go:40-47 | the insert never reports `ErrDuplicateRecord` |
| Categories.Listing | internal/data/categories.go:53-59 | a sorted permutation of the provider's categories; empty exactly when the provider has none |
| Categories.GetAllByProviderID | internal/data/categories.go:53-85 | a query error is returned as is; otherwise the provider's categories by name, `nil` when there are none |
| BusinessHours.ValidateBusinessHour | internal/data/provider_business_hours.go:24-39 | the keys put in error are exactly those of the broken id, day and time rules |
| BusinessHours.ValidBusinessHourIff | internal/data/provider_business_hours.go:24-39 | valid exactly when the provider id is positive, the day is 0..6, a closed day has no times, and an open day has both times with opening strictly before closing |
| BusinessHours.TimeKeyIff | internal/data/provider_business_hours.go:35-37 | the ordering error arises exactly for an open day with both times where opening is not before closing |
| BusinessHours.EqualTimesRejected | internal/data/provider_business_hours.go:36 | equal opening and closing times are refused |
| BusinessHours.IdMessages | internal/data/provider_business_hours.go:25-26 | the messages of the provider id and day checks |
| BusinessHours.TimeMessages | internal/data/provider_business_hours.go:28-37 | the messages of the closed, missing-time and ordering checks |
| BusinessHours.Written | internal/data/localtime.go:32-37 | a time is stored as what its `Value()` text reads back as, so it writes the same text as the given time |
| BusinessHours.WrittenWholeSecond | internal/data/localtime.go:32-37 | writing leaves a time unchanged exactly when it is on the parse date with no fraction of a second |
| BusinessHours.Insert | internal/data/provider_business_hours.go:41-60 | success adds the row with the next id, the given provider, day and flag, and times that write the same `Value()` text as the given ones; any error is returned and changes nothing |
| BusinessHours.HoursOf | internal/data/provider_business_hours.go:62-68 | the provider's entries as a sorted permutation by day; empty exactly when the provider has none |
| BusinessHours.GetAllForProvider | internal/data/provider_business_hours.go:62-102 | a query error is returned as is; otherwise the provider's entries ordered by day, `nil` when there are none |
| BusinessHours.Update | internal/data/provider_business_hours.go:104-123 | only the closed flag and both times of the entries with that id change, the times as `Value()` writes them; provider, day and every other entry are untouched |
| BusinessHours.InsertThenList | internal/data/provider_business_hours.go:41-102 | an inserted entry is listed for its provider with its times as written; whole-second times come back exactly as given |
| BusinessHours.SubSecondOrderLost | internal/data/provider_business_hours.go:24-60 | an open day with 09:00:00.2 to 09:00:00.7 passes validation and is stored with equal opening and closing times |
| BusinessHours.UpdateMissingId | internal/data/provider_business_hours.go:104-123 | updating an id no entry has leaves the store as it was |
| LocalTimes.Before | internal/data/localtime.go:28-30 | `Before` holds exactly when the first instant's nanosecond count from day 0 is smaller |
| LocalTimes.BeforeStrictOrder | internal/data/localtime.go:28-30 | `Before` is irreflexive, transitive, asymmetric and total on distinct times |
| LocalTimes.Parse | internal/data/localtime.go:16 | a parsed time is on the date `time.Parse` assigns |
| LocalTimes.Format | internal/data/localtime.go:25 | the text is eight characters, colons at positions 2 and 5, and the three digit pairs read back as the hour, minute and second |
| LocalTimes.ParseFormat | internal/data/localtime.go:14-26 | parsing the formatted time gives the same clock reading back |
| LocalTimes.FormatParse | internal/data/localtime.go:14-26 | an eight-character text that parses is formatted back to itself |
| LocalTimes.UnmarshalJSON | internal/data/localtime.go:14-22 | the quotes are stripped; a text that does not parse is an error and keeps the old value; success yields exactly the parsed time, on the parse date |
| LocalTimes.UnmarshalKeepsFraction | internal/data/localtime.go:14-22 | `"09:00:00.5"` unmarshals to half past nine and half a second: the fraction is kept until the time is formatted |
| LocalTimes.MarshalJSON | internal/data/localtime.go:24-26 | the result is a quote, `DD:DD:DD` and a quote |
| LocalTimes.UnmarshalMarshal | internal/data/localtime.go:14-26 | unmarshalling the marshalled time succeeds with the same clock reading |
| LocalTimes.Value | internal/data/localtime.go:32-37 | a missing time (Go `nil`) is NULL; otherwise eight characters that parse back to the time |
| LocalTimes.Scan | internal/data/localtime.go:39-65 | NULL is a no-op success; a time is taken as is; text and bytes succeed exactly when they parse and then yield the parsed time; any other type is an error; an error keeps the old value |
| LocalTimes.ScanBytesAsText | internal/data/localtime.go:48-61 | bytes and a string with the same characters scan to the same outcome, with the same layout |
| LocalTimes.ScanValue | internal/data/localtime.go:32-61 | scanning back the text written for a time restores its clock reading |
| Providers.ValidateProvider | internal/data/providers.go:13-32 | the keys put in error are exactly those of an empty name or address, and of a missing or out-of-range coordinate |
| Providers.ValidProviderIff | internal/data/providers.go:13-32 | valid exactly when name and address are non-empty, the latitude is present within -90..90 and the longitude within -180..180 |
| Providers.ProviderMessages | internal/data/providers.go:18-31 | a missing coordinate records "must be provided" and skips the range check |
| Users.ValidateEmail | internal/data/users.go:77-80 | `email` is in error exactly when the address is empty or does not match; an empty one gets "must be provided" |
| Users.ValidatePasswordPlaintext | internal/data/users.go:82-86 | `password` is in error exactly when its length is outside 8..72 bytes, with the message of the first failing check |
| Users.ValidateUser | internal/data/users.go:88-113 | the keys put in error are exactly those of the failing names, email, set password and role |
| Users.ValidUserIff | internal/data/users.go:88-113 | valid exactly when both names have 1 to 500 bytes, the email is present and matches, a set password has 8 to 72 bytes, and the role is client or provider |
| Users.PasswordCheckedOnlyWhenSet | internal/data/users.go:97-99 | `password` is in error exactly when a plaintext was set and its length is out of range |
| Users.NameMessages | internal/data/users.go:89-93 | the messages recorded for the two names |
| Users.PasswordMessage | internal/data/users.go:82-86 | the message recorded for a set password |
| Users.RoleMessage | internal/data/users.go:107-108 | a missing role records "must be provided" and another unknown role "invalid role value" |
| Users.Insert | internal/data/users.go:115-148 | success adds the row with the next id; `ErrDuplicateEmail` exactly for a unique violation on `users_email_key`; other errors are wrapped; a failure changes nothing |
| Users.GetForToken | internal/data/users.go:150-189 | a query error is returned as is; an accepted query succeeds exactly when some user holds a token with the plaintext's hash, the scope and an expiry after now, and then returns such a user's columns; otherwise `ErrRecordNotFound` |
| Users.NewTokenAuthenticates | internal/data/users.go:150-189 | round trip: a token stored by `TokenModel.New` for an existing user finds that user until it expires |
| Users.GetByEmail | internal/data/users.go:191-221 | a query error is returned as is; an accepted query succeeds exactly when some user has that email, and then returns that user's columns; otherwise `ErrRecordNotFound` |
| Users.InsertThenGetByEmail | internal/data/users.go:115-221 | round trip: a user inserted with a fresh email is found by it, with the id the insert returned |
| Base32.SymbolIsAlphabet | internal/data/tokens.go:60 | the symbol of each 5-bit value is the character at that position of the 32-character alphabet `A`-`Z`, `2`-`7` |
| Base32.Encode | internal/data/tokens.go:60 | without padding, `n` bytes give the ceiling of `8n/5` characters, all from the alphabet |
| Base32.DecodeEncode | internal/data/tokens.go:60 | decoding the encoding gives back the bytes |
| Base32.EncodedLengths | internal/data/tokens.go:47-66 | 16 bytes encode to 26 characters and 4 bytes to 7 |
| Tokens.GenerateToken | internal/data/tokens.go:34-73 | a failed read is an error; otherwise an authentication token is the 26-character encoding of 16 bytes, any other scope the first 6 characters of the encoding of 4; the hash is of the plaintext and the expiry is now plus the time to live |
| Tokens.AuthenticationTokenDecodes | internal/data/tokens.go:47-63 | an authentication token decodes to the random bytes it was made from |
| Tokens.ValidateTokenPlaintext | internal/data/tokens.go:76-79 | `token` is in error exactly when the plaintext does not have 26 characters; an empty one gets "must be provided" |
| Tokens.GeneratedTokenValidity | internal/data/tokens.go:34-79 | a generated token passes the format check exactly when it is an authentication token |
| Tokens.Insert | internal/data/tokens.go:94-107 | one row added exactly when the database accepts it; a failure changes nothing |
| Tokens.NewToken | internal/data/tokens.go:83-91 | no token exactly when the random read fails; otherwise the generated token, with the insert's error when there is one |
| Tokens.DeleteAllForUser | internal/data/tokens.go:110-120 | success removes exactly the tokens of that scope and user and keeps every other |
| EmailVerifications.Generate | internal/data/email_verifications.go:54-72 | a 26-character code from the alphabet that decodes to the 16 random bytes, with its hash, the address and the expiry |
| EmailVerifications.Insert | internal/data/email_verifications.go:40-52 | one row added exactly when the database accepts it; a failure changes nothing |
| EmailVerifications.NewVerification | internal/data/email_verifications.go:30-38 | no code exactly when the random read fails; otherwise the generated code, stored when the insert is accepted |
| EmailVerifications.Lookup | internal/data/email_verifications.go:77-92 | `ErrRecordNotFound` exactly when no row has the hash and an expiry after now; otherwise the address of a row that does |
| EmailVerifications.VerifyAsWritten | internal/data/email_verifications.go:74-97 | as written: a failing query gives the empty address and no error |
| EmailVerifications.Verify | internal/data/email_verifications.go:74-97 | corrected: a failing query returns its error; an address is returned only from a row that redeems the code |
| EmailVerifications.VerifyAgrees | internal/data/email_verifications.go:89-93 | the two versions differ exactly when the query fails |
| EmailVerifications.SwallowedFailureAcceptsAnyCode | internal/data/email_verifications.go:93 | with no code stored and a failing database, the code as written accepts any plaintext for the empty address |
| EmailVerifications.NewThenVerify | internal/data/email_verifications.go:30-97 | round trip: a stored code whose hash is new is redeemed for its address before it expires |
| EmailVerifications.DeleteAllForEmail | internal/data/email_verifications.go:99-110 | success removes every code of the address and keeps all others |
| EmailVerifications.ValidateEmailTokenPlaintext | internal/data/email_verifications.go:112-115 | `token` is in error exactly when the code does not have 26 characters |
| EmailVerifications.GeneratedCodeValid | internal/data/email_verifications.go:112-115 | every generated code passes the format check |
| ProviderImages.Insert | internal/data/provider_images.go:20-39 | success adds the image with the next id and the current time; a failure changes nothing |
| ProviderImages.ApplyImageStmts | internal/data/provider_images.go:62-70 | the batch's inserts, once applied, append the images with consecutive ids and one time |
| ProviderImages.BatchInsert | internal/data/provider_images.go:41-73 | an empty list does nothing; otherwise all or nothing in one transaction, with consecutive ids in list order on success |
| ProviderImages.BatchOrder | internal/data/provider_images.go:62-70 | image `k` of a committed batch gets the `k`-th id after the counter, its own URL and provider, and the shared time |
| ProviderImages.GetAllForProvider | internal/data/provider_images.go:75-113 | a query error is returned; otherwise a non-nil list of exactly the provider's images, newest first |
| Helpers.Ext | cmd/api/helpers.go:189 | the extension is empty when the last path element has no dot, and otherwise the suffix from its last dot |
| Helpers.ExtToLower | cmd/api/helpers.go:202 | lower-casing a name lower-cases its extension and nothing more |
| Helpers.IsValidImageType | cmd/api/helpers.go:201-204 | true exactly when the lower-cased extension is one of the five image extensions |
| Helpers.ImageTypeIgnoresCase | cmd/api/helpers.go:201-204 | a name passes exactly when its lower-cased form does |
| Helpers.ReadIDParam | cmd/api/helpers.go:27-36 | success exactly for a 64-bit integer of at least 1, returned; anything else is "invalid id parameter" |
| Helpers.ReadIDParamFormat | cmd/api/helpers.go:27-36 | every positive 64-bit id written in decimal is read back |
| Helpers.ReadString | cmd/api/helpers.go:38-46 | the value, or the default when it is empty or missing |
| Helpers.ReadCSV | cmd/api/helpers.go:48-56 | the default for an empty value; otherwise comma-free pieces that join back to the value |
| Helpers.ReadCSVJoin | cmd/api/helpers.go:48-56 | comma-free pieces joined into a query value are read back |
| Helpers.ReadInt | cmd/api/helpers.go:58-72 | the default for an empty value; the integer when it parses; otherwise the default with "must be an integer value" under the key |
| Helpers.ReadIntFormat | cmd/api/helpers.go:58-72 | a 64-bit integer written in decimal is read back without an error |
| Helpers.StorageKey | cmd/api/helpers.go:189-191 | the key starts with `services/`, ends with the file's extension, and has no space in the stem part |
| Helpers.StorageKeyExt | cmd/api/helpers.go:189-191 | the key's extension is the file's extension |
| Helpers.UploadImage | cmd/api/helpers.go:174-199 | the checks run in order (open, type, 5 MiB size) before the upload; success returns the key, which is an image name |
| Helpers.CleanupFailedServiceCreation | cmd/api/helpers.go:206-223 | always sends the service delete; once the database accepts it no row with that id and provider remains, and a rejected delete leaves the store as it was; asks storage to delete the keys only when there are some; returns nothing |
| Helpers.GetFormValue | cmd/api/helpers.go:225-231 | `nil` exactly when the key is missing or has no value; otherwise the trimmed first value |
| Helpers.FormValueTrimmed | cmd/api/helpers.go:225-231 | a value read this way neither starts nor ends with white space, and it is empty exactly when the first value is all white space |
| Helpers.GetFormValueOptional | cmd/api/helpers.go:493-499 | `nil` exactly when the key is missing, has no value or an empty first value; otherwise the untrimmed first value |
| Helpers.FormValueTrimming | cmd/api/helpers.go:225-231 | a blank value is empty to one reader and kept by the other |
| Helpers.GetFormValueRequired | cmd/api/helpers.go:501-512 | a missing key is "is missing", an empty value "cannot be empty", otherwise the first value |
| Helpers.RequiredAgreesWithOptional | cmd/api/helpers.go:493-512 | the required reader succeeds exactly when the optional one finds a value, with the same value |
| Decimal.ParseFormatInt | cmd/api/helpers.go:58-72 | a 64-bit integer written in decimal is parsed back |
| Decimal.ToInt32 | cmd/api/services.go:87 | the conversion to `int32` keeps the value modulo 2^32 within the 32-bit range |
| Decimal.ToInt32Fits | cmd/api/services.go:87 | a value in the 32-bit range is kept unchanged |
| Store.Transaction | internal/data/services.go:77-91 | the store changes only when begin, every statement and the commit are accepted, and then by the whole body; the first rejected statement stops the run and is reported |
| Store.TxShape | internal/data/services.go:77-91 | what a transaction sends is a prefix of begin, body and commit, ending at the first rejected statement |
| Sorting.Query | internal/data/staff.go:123-128 | an `ORDER BY` answer: the matching rows, each as often as it occurs, sorted |
| Sorting.QueryEmptyIff | internal/data/staff.go:123-128 | the answer is empty exactly when no row matches |
| Sorting.Sort | internal/data/staff.go:127 | the ordering of an `ORDER BY`: a sorted permutation of the rows |
| Strs.ReplaceChar | cmd/api/helpers.go:191 | each occurrence of the character is replaced and every other character kept, in place |
| Strs.JoinSplit | cmd/api/middleware.go:54 | joining the pieces of a split gives back the string |
| Strs.SplitJoin | cmd/api/middleware.go:54 | splitting a join of separator-free pieces gives back the pieces |
| Middleware.BearerToken | cmd/api/middleware.go:54-60 | a token exactly when the split on spaces has two pieces and the first is `Bearer`; the header is then `Bearer`, a space and the token |
| Middleware.BearerHeaderAccepted | cmd/api/middleware.go:54-60 | round trip: `Bearer`, a space and `t` gives back `t` exactly when `t` has no space |
| Middleware.BearerTokenIff | cmd/api/middleware.go:54-60 | a header is accepted with token `t` exactly when it is `Bearer`, one space and `t`, and `t` has no space |
| Middleware.MalformedHeadersRefused | cmd/api/middleware.go:54-58 | an empty header, and one with a second space, are refused |
| Middleware.Authenticate | cmd/api/middleware.go:41-88 | a header or token of the wrong form is refused without a lookup; otherwise not-found refuses the token, another error is a server error, and a found user goes on |
| Middleware.WellFormedIff | cmd/api/middleware.go:62-68 | the form check is the 26-character length |
| Middleware.AuthenticatesIff | cmd/api/middleware.go:41-88 | a request passes exactly when its token has no space and 26 characters and the lookup finds a user |
| Middleware.GeneratedTokenPresented | cmd/api/middleware.go:54-71 | round trip: a generated authentication token sent as a bearer header passes both checks and reaches the lookup |
| Middleware.RequireRole | cmd/api/middleware.go:28-39 | the next handler runs exactly when the user has the role; anyone else gets "insufficient permissions" |
| ServiceHandler.ReadFields | cmd/api/services.go:16-63 | an unreadable body and unconvertible id lists are bad requests; a bad price or type id, or more than five files, give a one-error validation response; success holds the trimmed fields |
| ServiceHandler.Authorize | cmd/api/services.go:65-83 | only a provider with a profile passes; a missing profile is refused with a message; a lookup error is a server error |
| ServiceHandler.Prepare | cmd/api/services.go:16-98 | the form is read, then the gate, then validation; any refusal is an error response |
| ServiceHandler.InsertResponse | cmd/api/services.go:101-116 | each of the three domain errors of the insert gives its own one-error response; any other error is a server error |
| ServiceHandler.Images | cmd/api/services.go:118-140 | one storage slot per file, in form order, and each row sent belongs to an attempted file's slot, tagged with that file's index |
| ServiceHandler.ImagesFailures | cmd/api/services.go:118-145 | the image phase reports no failure exactly when every file uploaded and every image row was accepted |
| ServiceHandler.ImagesStored | cmd/api/services.go:118-145 | when nothing failed, every file has its row in file order, and only the first is primary |
| ServiceHandler.ImagesOnlyImages | cmd/api/services.go:118-140 | the image phase writes image rows and nothing else |
| ServiceHandler.FinishCreate | cmd/api/services.go:118-164 | the service is created exactly when nothing failed; otherwise the cleanup runs and the answer is a server error |
| ServiceHandler.CreateService | cmd/api/services.go:15-164 | a refusal before the insert writes nothing; an insert error is answered from the error; after the commit, the image phase and its cleanup |
| ServiceHandler.RejectedBeforeStore | cmd/api/services.go:16-98 | a request refused before validation passes leaves the store, the trace and the storage service untouched |
| ServiceHandler.FormCheckedBeforeGate | cmd/api/services.go:16-67 | a form that does not convert is answered the same whatever the provider lookup gives |
| ServiceHandler.InsertedBeforeUploads | cmd/api/services.go:100-122 | nothing is uploaded before the insert commits; the committed insert's statements come first |
| ServiceHandler.CreatedIff | cmd/api/services.go:100-164 | a service is created exactly when the insert commits, every file uploads and every image row is accepted |
| ServiceHandler.CreatedStored | cmd/api/services.go:118-164 | a created service is the requested one with the database's id and the keys of its files in form order, each stored with the first primary |
| ServiceHandler.PrimaryIsFirstFile | cmd/api/services.go:132-134 | the `k`-th image row sent after the insert belongs to the `k`-th file that uploaded, and it is primary exactly when that is the form's first file |
| ServiceHandler.FailureCleansUp | cmd/api/services.go:145-149 | a failure after the commit is a server error, ends with the service delete, and asks storage to delete the slots when the form had files; when the database accepts that delete the new service is gone from the store, and otherwise the store is as the image phase left it |
| ServiceHandler.InsertErrorsAnswered | cmd/api/services.go:100-116 | the response is one of the three one-error responses exactly when the insert fails with the matching domain error |
| ServiceHandler.InsertRejections | cmd/api/services.go:100-116 | each one-error response comes from the matching violation on the matching statement |
| ServiceHandler.Listing | cmd/api/services.go:166-196 | the gate's refusals, a server error for a failed listing, and otherwise the provider's services with the given status |
| ServiceHandler.ListServicesAsWritten | cmd/api/services.go:166-196 | as written: a listing is answered with status 201 |
| ServiceHandler.ListServices | cmd/api/services.go:166-196 | corrected: a listing is answered with status 200, and anything else is an error response |
| ServiceHandler.ListingStatusDiffers | cmd/api/services.go:192 | the two versions differ exactly on successful listings, and only in the status |
| ServiceHandler.ProviderListingAnsweredCreated | cmd/api/services.go:192 | a provider with a profile whose listing succeeds is answered "201 Created" by the code as written |

## Left out

- I/O is not modelled: HTTP writing, JSON encoding, multipart parsing, logging, `fmt.Println`, request contexts and their timeouts.
- The database, storage service, clock, random source, hash, email pattern, `time.ParseDuration`, `strconv.ParseFloat` and `data.ParseIntSlice` are parameters, not definitions.
- PostgreSQL is reduced to an engine that accepts or rejects each statement. Whatever the schema does on delete, collation and the row order of an unordered scan are not modelled.
- Ids come from one counter in the store that a rejected statement or a rollback leaves unchanged, and no other session interleaves. A PostgreSQL sequence is not rolled back and is shared by concurrent sessions. So the promises that a success returns `db.nextId` and that `ProviderImages.BatchOrder` gives consecutive ids hold for the model's counter only.
- Sorting is a parameter: listings are stated for any total preorder on names.
- Go strings are sequences of characters, one per byte. Lengths and `strings.ToLower` agree with the source only for ASCII text.
- Floating-point numbers are `real`. NaN and infinities are not represented.
- Filters.CalculateMetadata: a page size of zero with records present is excluded, because the source converts an infinite quotient to an integer. The record count is a natural number, as a `count(*)` is.
- Users.ValidateUser: the source panics when the password hash is missing; here that is a precondition.
- ServiceHandler.CreateService: the image uploads run in goroutines in the source. Here they run one after another in file order; the slots, the primary flag and the cleanup depend only on the file index.
- ServiceHandler.FinishCreate: when several uploads fail, the source reports whichever error reaches the channel first. The model reports a server error without saying which error it carries.
- ServiceHandler.ReadFields: `r.FormValue` also reads the URL query; the model reads only the form's values.
- ServiceHandler.CreateService: a failure to write the `201` response after success is not modelled.
- Middleware.Authenticate: the source calls a three-argument `ValidateTokenPlaintext` with the scope, which the data package does not define. The model uses the two-argument version the data package does define.
- The type id is converted to `int32` by truncation (`Decimal.ToInt32`), as the source does.
- Not modelled: the services listing query `Services.GetAllForProvider` and the provider lookup `Providers.GetByUserID`, because the data package does not define them. The handlers receive them as parameters.
- Process start-up, routing, the mailer, the storage client, the other handlers and the panic recovery are outside this model.

## Findings

| source | as written | input that shows it | evidently intended | confidence | as-written member | corrected member |
|---|---|---|---|---|---|---|
| internal/data/email_verifications.go:89-93 | a query error other than "no rows" returns an empty address and no error | any plaintext, no code stored, and a database that fails the query: the result is success with the address `""` | return the query error | high; not executed | EmailVerifications.VerifyAsWritten, EmailVerifications.SwallowedFailureAcceptsAnyCode | EmailVerifications.Verify |
| internal/data/staff.go:58-72 | `err` is a local variable, so the commit error the deferred function assigns is never returned | any staff member, with a database that accepts every statement but the commit: `nil` is returned and nothing is stored | declare a named result so the commit error is returned, as `ServiceModel.Insert` does | high; not executed | StaffMembers.InsertAsWritten, StaffMembers.CommitFailureReportedAsSuccess | StaffMembers.Insert |
| cmd/api/services.go:192 | the services listing is answered with `201 Created` | a provider with a profile whose listing succeeds | `200 OK`, as the category listing (cmd/api/categories.go:85) and the provider image and business-hour listings (cmd/api/providers.go:240 and 344) answer; the staff listing (cmd/api/staff.go:109) has the same `201` | low; not executed | ServiceHandler.ListServicesAsWritten, ServiceHandler.ProviderListingAnsweredCreated | ServiceHandler.ListServices |

=== FILE: base32.dfy ===
/** Base32 without padding, with the alphabet of section 6 of RFC 4648
    ("A".."Z" then "2".."7"), as `base32.StdEncoding.WithPadding(base32.NoPadding)`
    encodes the random bytes of a token.  The bytes are read as one bit
    string, most significant bit first, and cut into 5-bit groups; the last
    group is completed with zero bits.  `Decode` is the inverse used to
    state the round trip. */
module Base32 {
  import opened Wrappers

  type byte = x: int | 0 <= x < 256

  const Alphabet: string := "ABCDEFGHIJKLMNOPQRSTUVWXYZ234567"

  predicate IsBase32Char(c: char) {
    ('A' <= c <= 'Z') || ('2' <= c <= '7')
  }

  /** The character encoding the 5-bit value `k`. */
  function Symbol(k: nat): (c: char)
    requires k < 32
    ensures IsBase32Char(c)
  {
    if k < 26 then (k + 'A' as int) as char else (k - 26 + '2' as int) as char
  }

  /** The 5-bit value a base32 character stands for. */
  function SymbolValue(c: char): (k: nat)
    requires IsBase32Char(c)
    ensures k < 32 && Symbol(k) == c
  {
    if 'A' <= c <= 'Z' then c as int - 'A' as int else c as int - '2' as int + 26
  }

  /** `Symbol` is the table of section 6 of RFC 4648. */
  lemma SymbolIsAlphabet()
    ensures |Alphabet| == 32
    ensures forall k :: 0 <= k < 32 ==> Symbol(k) == Alphabet[k]
  {
  }

  function Pow2(n: nat): (p: nat)
    ensures p >= 1
  {
    if n == 0 then 1 else 2 * Pow2(n - 1)
  }

  /** The `n` low bits of `x`, most significant first. */
  function BitsOf(x: nat, n: nat): (bits: seq<bool>)
    ensures |bits| == n
  {
    if n == 0 then [] else BitsOf(x / 2, n - 1) + [x % 2 == 1]
  }

  /** The number a bit string denotes, most significant bit first. */
  function FromBits(bits: seq<bool>): (x: nat)
    ensures x < Pow2(|bits|)
  {
    if |bits| == 0 then 0
    else 2 * FromBits(bits[..|bits| - 1]) + (if bits[|bits| - 1] then 1 else 0)
  }

  lemma {:induction false} FromBitsOf(x: nat, n: nat)
    requires x < Pow2(n)
    ensures FromBits(BitsOf(x, n)) == x
  {
    if n > 0 {
      FromBitsOf(x / 2, n - 1);
      var b := BitsOf(x, n);
      assert b[..n - 1] == BitsOf(x / 2, n - 1);
    }
  }

  lemma {:induction false} BitsOfFrom(bits: seq<bool>)
    ensures BitsOf(FromBits(bits), |bits|) == bits
  {
    if |bits| > 0 {
      var init := bits[..|bits| - 1];
      BitsOfFrom(init);
      var x := FromBits(bits);
      assert x / 2 == FromBits(init);
      assert bits == init + [bits[|bits| - 1]];
    }
  }

  function Falses(n: nat): (bits: seq<bool>)
    ensures |bits| == n
    ensures forall i :: 0 <= i < n ==> !bits[i]
  {
    if n == 0 then [] else [false] + Falses(n - 1)
  }

  /** The bits of a byte string, eight per byte. */
  function BytesToBits(bs: seq<byte>): (bits: seq<bool>)
    ensures |bits| == 8 * |bs|
  {
    if |bs| == 0 then [] else BitsOf(bs[0], 8) + BytesToBits(bs[1..])
  }

  /** Encodes a bit string five bits per character, completing the last
      group with zero bits. */
  function EncodeBits(bits: seq<bool>): (s: string)
    ensures |s| == (|bits| + 4) / 5
    ensures forall i :: 0 <= i < |s| ==> IsBase32Char(s[i])
    decreases |bits|
  {
    if |bits| == 0 then ""
    else if |bits| <= 5 then [Symbol(FromBits(bits + Falses(5 - |bits|)))]
    else [Symbol(FromBits(bits[..5]))] + EncodeBits(bits[5..])
  }

  /** `EncodeToString` of the unpadded standard encoding. */
  function Encode(bs: seq<byte>): (s: string)
    ensures |s| == (8 * |bs| + 4) / 5
    ensures forall i :: 0 <= i < |s| ==> IsBase32Char(s[i])
  {
    EncodeBits(BytesToBits(bs))
  }

  /** The bits a string of base32 characters carries, five per character. */
  function CharsToBits(s: string): (bits: seq<bool>)
    requires forall i :: 0 <= i < |s| ==> IsBase32Char(s[i])
    ensures |bits| == 5 * |s|
  {
    if |s| == 0 then [] else BitsOf(SymbolValue(s[0]), 5) + CharsToBits(s[1..])
  }

  function BitsToBytes(bits: seq<bool>): (bs: seq<byte>)
    requires |bits| % 8 == 0
    ensures |bs| == |bits| / 8
  {
    if |bits| == 0 then []
    else
      var b := FromBits(bits[..8]);
      assert Pow2(8) == 256;
      [b] + BitsToBytes(bits[8..])
  }

  /** Decoding of unpadded base32: the whole bytes the characters carry;
      the trailing bits that do not fill a byte are dropped. */
  function Decode(s: string): seq<byte>
    requires forall i :: 0 <= i < |s| ==> IsBase32Char(s[i])
  {
    var bits := CharsToBits(s);
    var n := |bits| / 8;
    BitsToBytes(bits[..8 * n])
  }

  /** The number of zero bits that complete the last 5-bit group. */
  function PadBits(n: nat): (p: nat)
    ensures p < 5 && (n + p) % 5 == 0
  {
    if n % 5 == 0 then 0 else 5 - n % 5
  }

  lemma PadBitsShift(n: nat)
    ensures PadBits(n + 5) == PadBits(n)
  {
    assert (n + 5) % 5 == n % 5;
  }

  lemma SymbolValueOfSymbol(k: nat)
    requires k < 32
    ensures SymbolValue(Symbol(k)) == k
  {
  }

  /** The bits carried by one group's character are the group itself. */
  lemma GroupBits(g: seq<bool>)
    requires |g| == 5
    ensures BitsOf(SymbolValue(Symbol(FromBits(g))), 5) == g
  {
    SymbolValueOfSymbol(FromBits(g));
    BitsOfFrom(g);
  }

  lemma CharsToBitsCons(c: char, rest: string)
    requires IsBase32Char(c)
    requires forall i :: 0 <= i < |rest| ==> IsBase32Char(rest[i])
    ensures CharsToBits([c] + rest) == BitsOf(SymbolValue(c), 5) + CharsToBits(rest)
  {
    assert ([c] + rest)[1..] == rest;
  }

  /** The padding of a last group of `n` bits fills it up to five. */
  lemma PadLastGroup(n: nat)
    requires 0 < n <= 5
    ensures PadBits(n) == 5 - n
  {
    assert n % 5 == (if n == 5 then 0 else n);
  }

  /** A single character carries the five bits it encodes. */
  lemma SingleGroup(g: seq<bool>)
    requires |g| == 5
    ensures CharsToBits([Symbol(FromBits(g))]) == g
  {
    var c := Symbol(FromBits(g));
    GroupBits(g);
    CharsToBitsCons(c, "");
  }

  /** A last, partial group: its character carries the bits and the
      padding zeros. */
  lemma LastGroup(bits: seq<bool>)
    requires 0 < |bits| <= 5
    ensures CharsToBits(EncodeBits(bits)) == bits + Falses(PadBits(|bits|))
  {
    PadLastGroup(|bits|);
    SingleGroup(bits + Falses(5 - |bits|));
  }

  /** A full leading group: its character carries the first five bits. */
  lemma LeadingGroup(bits: seq<bool>)
    requires |bits| > 5
    ensures CharsToBits(EncodeBits(bits)) == bits[..5] + CharsToBits(EncodeBits(bits[5..]))
  {
    var g := bits[..5];
    var c := Symbol(FromBits(g));
    var rest := EncodeBits(bits[5..]);
    assert EncodeBits(bits) == [c] + rest;
    GroupBits(g);
    CharsToBitsCons(c, rest);
  }

  /** The characters of an encoding carry the input bits followed by the
      padding zeros. */
  lemma {:induction false} CharsToBitsEncodeBits(bits: seq<bool>)
    ensures CharsToBits(EncodeBits(bits)) == bits + Falses(PadBits(|bits|))
    decreases |bits|
  {
    if |bits| == 0 {
    } else if |bits| <= 5 {
      LastGroup(bits);
    } else {
      LeadingGroup(bits);
      CharsToBitsEncodeBits(bits[5..]);
      PadBitsShift(|bits| - 5);
      var z := Falses(PadBits(|bits|));
      assert bits == bits[..5] + bits[5..];
      assert bits[..5] + (bits[5..] + z) == (bits[..5] + bits[5..]) + z;
    }
  }

  lemma {:induction false} BitsToBytesOfBits(bs: seq<byte>)
    ensures BitsToBytes(BytesToBits(bs)) == bs
  {
    if |bs| > 0 {
      var bits := BytesToBits(bs);
      FromBitsOf(bs[0], 8);
      assert Pow2(8) == 256;
      assert bits[..8] == BitsOf(bs[0], 8);
      assert bits[8..] == BytesToBits(bs[1..]);
      BitsToBytesOfBits(bs[1..]);
    }
  }

  /** Round trip: decoding an encoding gives back the bytes. */
  lemma DecodeEncode(bs: seq<byte>)
    ensures Decode(Encode(bs)) == bs
  {
    var bits := BytesToBits(bs);
    var s := Encode(bs);
    CharsToBitsEncodeBits(bits);
    var carried := CharsToBits(s);
    assert |carried| == 8 * |bs| + PadBits(8 * |bs|);
    assert |carried| / 8 == |bs|;
    assert carried[..8 * |bs|] == bits;
    BitsToBytesOfBits(bs);
  }

  /** The lengths the token code relies on: 16 bytes encode to 26
      characters and 4 bytes to 7. */
  lemma EncodedLengths(bs: seq<byte>)
    ensures |bs| == 16 ==> |Encode(bs)| == 26
    ensures |bs| == 4 ==> |Encode(bs)| == 7
  {
  }
}

=== FILE: business_hours.dfy ===
/** Opening hours of a provider (`internal/data/provider_business_hours.go`):
    validation of one day's entry, its insert, the listing by provider and
    the update of an entry. */
module BusinessHours {
  import opened Wrappers
  import opened Validation
  import opened Store
  import opened LocalTimes
  import Sorting

  /** An entry has exactly the columns of its table row. */
  type BusinessHour = BusinessHourRow

  ghost function IdErrors(h: BusinessHour): set<string> {
    (if h.providerId > 0 then {} else {"provider_id"}) + (if 0 <= h.dayOfWeek <= 6 then {} else {"day_of_week"})
  }

  /** The errors of the time checks: when closed both times must be absent;
      when open both must be present, and then the opening must come first. */
  ghost function TimeErrors(h: BusinessHour): set<string> {
    if h.isClosed then
      (if h.openTime.None? then {} else {"open_time"}) + (if h.closeTime.None? then {} else {"close_time"})
    else
      (if h.openTime.Some? then {} else {"open_time"}) + (if h.closeTime.Some? then {} else {"close_time"})
      + (if h.openTime.Some? && h.closeTime.Some? && !Before(h.openTime.value, h.closeTime.value) then {"time"} else {})
  }

  function ValidateIds(v: Validator, h: BusinessHour): (r: Validator)
    ensures Extends(v, r)
    ensures r.errors.Keys == v.errors.Keys + IdErrors(h)
  {
    var v1 := Check(v, h.providerId > 0, "provider_id", "must be provided and greater than zero");
    var r := Check(v1, 0 <= h.dayOfWeek <= 6, "day_of_week", "must be between 0 (Sunday) and 6 (Saturday)");
    ExtendsTransitive(v, v1, r);
    r
  }

  function CheckClosed(v: Validator, h: BusinessHour): (r: Validator)
    ensures Extends(v, r)
    ensures r.errors.Keys == v.errors.Keys
      + (if h.openTime.None? then {} else {"open_time"}) + (if h.closeTime.None? then {} else {"close_time"})
  {
    var v1 := Check(v, h.openTime.None?, "open_time", "must be null when is_closed is true");
    var r := Check(v1, h.closeTime.None?, "close_time", "must be null when is_closed is true");
    ExtendsTransitive(v, v1, r);
    r
  }

  function CheckPresent(v: Validator, h: BusinessHour): (r: Validator)
    ensures Extends(v, r)
    ensures r.errors.Keys == v.errors.Keys
      + (if h.openTime.Some? then {} else {"open_time"}) + (if h.closeTime.Some? then {} else {"close_time"})
  {
    var v1 := Check(v, h.openTime.Some?, "open_time", "must be provided when is_closed is false");
    var r := Check(v1, h.closeTime.Some?, "close_time", "must be provided when is_closed is false");
    ExtendsTransitive(v, v1, r);
    r
  }

  function CheckOpen(v: Validator, h: BusinessHour): (r: Validator)
    ensures Extends(v, r)
    ensures r.errors.Keys == v.errors.Keys
      + (if h.openTime.Some? then {} else {"open_time"}) + (if h.closeTime.Some? then {} else {"close_time"})
      + (if h.openTime.Some? && h.closeTime.Some? && !Before(h.openTime.value, h.closeTime.value) then {"time"} else {})
  {
    var v1 := CheckPresent(v, h);
    if h.openTime.Some? && h.closeTime.Some? then
      var r := Check(v1, Before(h.openTime.value, h.closeTime.value), "time", "open_time must be before close_time");
      ExtendsTransitive(v, v1, r);
      r
    else v1
  }

  function ValidateTimes(v: Validator, h: BusinessHour): (r: Validator)
    ensures Extends(v, r)
    ensures r.errors.Keys == v.errors.Keys + TimeErrors(h)
  {
    if h.isClosed then CheckClosed(v, h) else CheckOpen(v, h)
  }

  /** `ValidateProviderBusinessHour`. */
  function ValidateBusinessHour(v: Validator, h: BusinessHour): (r: Validator)
    ensures Extends(v, r)
    ensures r.errors.Keys == v.errors.Keys + IdErrors(h) + TimeErrors(h)
  {
    var v1 := ValidateIds(v, h);
    var r := ValidateTimes(v1, h);
    ExtendsTransitive(v, v1, r);
    r
  }

  ghost predicate HourOk(h: BusinessHour) {
    && h.providerId > 0
    && 0 <= h.dayOfWeek <= 6
    && (h.isClosed ==> h.openTime.None? && h.closeTime.None?)
    && (!h.isClosed ==> h.openTime.Some? && h.closeTime.Some? && Before(h.openTime.value, h.closeTime.value))
  }

  /** An entry passes validation exactly when it is well formed. */
  lemma ValidBusinessHourIff(h: BusinessHour)
    ensures Valid(ValidateBusinessHour(New(), h)) <==> HourOk(h)
  {
    var errs := IdErrors(h) + TimeErrors(h);
    assert Valid(ValidateBusinessHour(New(), h)) <==> errs == {};
    if !HourOk(h) {
      if h.providerId <= 0 { assert "provider_id" in errs; }
      else if !(0 <= h.dayOfWeek <= 6) { assert "day_of_week" in errs; }
      else if h.openTime.Some? == h.isClosed { assert "open_time" in errs; }
      else if h.closeTime.Some? == h.isClosed { assert "close_time" in errs; }
      else { assert "time" in errs; }
    }
  }

  /** The ordering error arises only for an open day with both times, and
      then exactly when the opening is not before the closing. */
  lemma TimeKeyIff(h: BusinessHour)
    ensures "time" in ValidateBusinessHour(New(), h).errors <==>
      !h.isClosed && h.openTime.Some? && h.closeTime.Some? && !Before(h.openTime.value, h.closeTime.value)
  {
    TimeKeyDistinct();
    assert "time" !in IdErrors(h);
    assert "time" in TimeErrors(h) <==>
      !h.isClosed && h.openTime.Some? && h.closeTime.Some? && !Before(h.openTime.value, h.closeTime.value);
  }

  /** The ordering key is none of the other keys. */
  lemma TimeKeyDistinct()
    ensures "time" != "provider_id" && "time" != "day_of_week"
    ensures "time" != "open_time" && "time" != "close_time"
  {
    assert "time"[0] != "provider_id"[0] && "time"[0] != "day_of_week"[0];
    assert |"time"| != |"open_time"| && |"time"| != |"close_time"|;
  }

  /** Equal opening and closing times are rejected. */
  lemma EqualTimesRejected(h: BusinessHour)
    requires !h.isClosed && h.openTime.Some? && h.openTime == h.closeTime
    ensures !Valid(ValidateBusinessHour(New(), h))
    ensures "time" in ValidateBusinessHour(New(), h).errors
  {
    BeforeStrictOrder(h.openTime.value, h.openTime.value, h.openTime.value);
    TimeKeyIff(h);
  }

  /** The messages of the id checks. */
  lemma IdMessages(v: Validator, h: BusinessHour)
    ensures var r := ValidateBusinessHour(v, h);
      && ("provider_id" !in v.errors && h.providerId <= 0 ==>
            r.errors["provider_id"] == "must be provided and greater than zero")
      && ("day_of_week" !in v.errors && !(0 <= h.dayOfWeek <= 6) ==>
            r.errors["day_of_week"] == "must be between 0 (Sunday) and 6 (Saturday)")
  {
    var v1 := Check(v, h.providerId > 0, "provider_id", "must be provided and greater than zero");
    var v2 := ValidateIds(v, h);
    assert "day_of_week" !in v.errors && !(0 <= h.dayOfWeek <= 6) ==> "day_of_week" !in v1.errors;
  }

  /** The messages of the time checks. */
  lemma TimeMessages(v: Validator, h: BusinessHour)
    ensures var r := ValidateTimes(v, h);
      && ("open_time" !in v.errors && h.openTime.Some? == h.isClosed ==>
            r.errors["open_time"] ==
              (if h.isClosed then "must be null when is_closed is true" else "must be provided when is_closed is false"))
      && ("close_time" !in v.errors && h.closeTime.Some? == h.isClosed ==>
            r.errors["close_time"] ==
              (if h.isClosed then "must be null when is_closed is true" else "must be provided when is_closed is false"))
      && ("time" !in v.errors && "time" in TimeErrors(h) ==> r.errors["time"] == "open_time must be before close_time")
  {
    if h.isClosed {
      var v1 := Check(v, h.openTime.None?, "open_time", "must be null when is_closed is true");
    } else {
      var v1 := Check(v, h.openTime.Some?, "open_time", "must be provided when is_closed is false");
      var v2 := CheckPresent(v, h);
      assert "time" !in v.errors ==> "time" !in v2.errors;
    }
  }

  /** The time the table keeps for a `*LocalTime` argument: `database/sql`
      writes it through `Value()`, the `15:04:05` text, so what is stored
      is what that text reads back as; the date and the fraction of a
      second are not kept. */
  function Written(t: Option<LocalTime>): (w: Option<LocalTime>)
    ensures w.None? <==> t.None?
    ensures t.Some? ==> Parse(Value(t).value) == w
    ensures Value(w) == Value(t)
  {
    match t
    case None => None
    case Some(x) => Some(Truncated(x))
  }

  /** A time already on the parse date and without a fraction of a second. */
  predicate WholeSecond(t: Option<LocalTime>) {
    t.None? || t.value == Truncated(t.value)
  }

  /** Writing a time leaves it as it is exactly when it is a whole second. */
  lemma WrittenWholeSecond(t: Option<LocalTime>)
    ensures Written(t) == t <==> WholeSecond(t)
  {
  }

  /** The row an entry becomes once written. */
  function Stored(h: BusinessHour): BusinessHour {
    h.(openTime := Written(h.openTime), closeTime := Written(h.closeTime))
  }

  function HourStmt(h: BusinessHour): Stmt {
    InsertBusinessHour(Stored(h).(id := 0))
  }

  /** `Insert`: one row with the database's next id and the times as
      `Value()` writes them; any error is returned as reported and leaves
      the state as it was. */
  function Insert(db: Db, eng: Engine, h: BusinessHour): (o: Outcome<int>)
    ensures o.trace == [HourStmt(h)]
    ensures o.result.Success? <==> eng(db, HourStmt(h)).None?
    ensures o.result.Success? ==>
      o.result.value == db.nextId && o.db == db.(businessHours := db.businessHours + [Stored(h).(id := db.nextId)], nextId := db.nextId + 1)
    ensures o.result.Success? ==>
      var row := o.db.businessHours[|o.db.businessHours| - 1];
      && row.providerId == h.providerId && row.dayOfWeek == h.dayOfWeek && row.isClosed == h.isClosed
      && Value(row.openTime) == Value(h.openTime) && Value(row.closeTime) == Value(h.closeTime)
    ensures o.result.Failure? ==> o.db == db && o.result.error == DbFailure(eng(db, HourStmt(h)).value)
  {
    var st := HourStmt(h);
    var (db', err) := Single(db, eng, st);
    match err
    case None => Outcome(db', [st], Success(db.nextId))
    case Some(e) => Outcome(db, [st], Failure(DbFailure(e)))
  }

  function OfProvider(providerId: int): BusinessHour -> bool {
    (h: BusinessHour) => h.providerId == providerId
  }

  function ByDay(): (BusinessHour, BusinessHour) -> bool {
    (a: BusinessHour, b: BusinessHour) => a.dayOfWeek <= b.dayOfWeek
  }

  /** `GetAllForProvider`: the provider's entries ordered by day of the
      week (0 is Sunday); `nil` when there is none. */
  function GetAllForProvider(db: Db, eng: Engine, providerId: int): (o: Outcome<GoSlice<BusinessHour>>)
    ensures o.db == db && o.trace == [SelectBusinessHours(providerId)]
    ensures o.result.Failure? <==> eng(db, SelectBusinessHours(providerId)).Some?
    ensures o.result.Failure? ==> o.result.error == DbFailure(eng(db, SelectBusinessHours(providerId)).value)
    ensures o.result.Success? ==> Sorting.IsQueryResult(Elems(o.result.value), db.businessHours, OfProvider(providerId), ByDay())
    ensures o.result.Success? ==> forall i, j :: 0 <= i < j < |Elems(o.result.value)| ==>
      Elems(o.result.value)[i].dayOfWeek <= Elems(o.result.value)[j].dayOfWeek
    ensures o.result.Success? ==>
      (o.result.value.Nil? <==> forall k :: 0 <= k < |db.businessHours| ==> db.businessHours[k].providerId != providerId)
  {
    var st := SelectBusinessHours(providerId);
    match eng(db, st)
    case Some(e) => Outcome(db, [st], Failure(DbFailure(e)))
    case None => Outcome(db, [st], Success(Appended(HoursOf(db.businessHours, providerId))))
  }

  /** The rows the query reads: the provider's entries, by day. */
  function HoursOf(hours: seq<BusinessHour>, providerId: int): (rows: seq<BusinessHour>)
    ensures Sorting.IsQueryResult(rows, hours, OfProvider(providerId), ByDay())
    ensures forall i, j :: 0 <= i < j < |rows| ==> rows[i].dayOfWeek <= rows[j].dayOfWeek
    ensures |rows| == 0 <==> forall k :: 0 <= k < |hours| ==> hours[k].providerId != providerId
  {
    var rows := Sorting.Query(hours, OfProvider(providerId), ByDay());
    Sorting.QueryEmptyIff(rows, hours, OfProvider(providerId), ByDay());
    assert forall i, j :: 0 <= i < j < |rows| ==> ByDay()(rows[i], rows[j]);
    rows
  }

  function UpdateStmt(h: BusinessHour): Stmt {
    UpdateBusinessHour(h.id, h.isClosed, Written(h.openTime), Written(h.closeTime))
  }

  /** `Update`: sets the closed flag and both times, as `Value()` writes
      them, of the entries with the id of `h`; their id, provider and day stay, every other entry and
      table is untouched, and an id that matches nothing is not an error. */
  function Update(db: Db, eng: Engine, h: BusinessHour): (o: Outcome<()>)
    ensures o.trace == [UpdateStmt(h)]
    ensures o.result.Success? <==> eng(db, UpdateStmt(h)).None?
    ensures o.result.Failure? ==> o.db == db && o.result.error == DbFailure(eng(db, UpdateStmt(h)).value)
    ensures o.db == db.(businessHours := o.db.businessHours)
    ensures |o.db.businessHours| == |db.businessHours|
    ensures forall k :: 0 <= k < |db.businessHours| ==>
      var before := db.businessHours[k];
      var after := o.db.businessHours[k];
      && after.id == before.id && after.providerId == before.providerId && after.dayOfWeek == before.dayOfWeek
      && (o.result.Success? && before.id == h.id ==>
            && after.isClosed == h.isClosed
            && after.openTime == Written(h.openTime) && after.closeTime == Written(h.closeTime)
            && Value(after.openTime) == Value(h.openTime) && Value(after.closeTime) == Value(h.closeTime))
      && (o.result.Failure? || before.id != h.id ==> after == before)
  {
    var st := UpdateStmt(h);
    var (db', err) := Single(db, eng, st);
    match err
    case None => Outcome(db', [st], Success(()))
    case Some(e) => Outcome(db, [st], Failure(DbFailure(e)))
  }

  /** Updating an id no entry has succeeds (when the database accepts the
      statement) and changes nothing. */
  lemma UpdateMissingId(db: Db, eng: Engine, h: BusinessHour)
    requires forall k :: 0 <= k < |db.businessHours| ==> db.businessHours[k].id != h.id
    ensures Update(db, eng, h).db == db
  {
    var o := Update(db, eng, h);
    assert o.db.businessHours == db.businessHours;
  }

  /** Round trip: an inserted entry is listed for its provider, with its
      times as written; an entry of whole-second times comes back as it was
      given, with its new id. */
  lemma InsertThenList(db: Db, eng: Engine, h: BusinessHour, eng2: Engine)
    requires Insert(db, eng, h).result.Success?
    requires eng2(Insert(db, eng, h).db, SelectBusinessHours(h.providerId)).None?
    ensures var l := GetAllForProvider(Insert(db, eng, h).db, eng2, h.providerId);
      && l.result.Success?
      && Stored(h).(id := db.nextId) in Elems(l.result.value)
      && (WholeSecond(h.openTime) && WholeSecond(h.closeTime) ==> h.(id := db.nextId) in Elems(l.result.value))
  {
    var o := Insert(db, eng, h);
    var row := Stored(h).(id := db.nextId);
    var l := GetAllForProvider(o.db, eng2, h.providerId);
    var rows := Elems(l.result.value);
    assert o.db.businessHours[|db.businessHours|] == row;
    Sorting.FilterMultiset(o.db.businessHours, OfProvider(h.providerId), row);
    assert multiset(rows)[row] > 0;
    WrittenWholeSecond(h.openTime);
    WrittenWholeSecond(h.closeTime);
  }

  /** The ordering check compares the times before they are written, so an
      open day whose times differ only below the second passes validation
      and is stored with equal opening and closing times. */
  lemma SubSecondOrderLost()
    ensures var h := BusinessHourRow(0, 1, 1, false,
                                     Some(Instant(ParseDay, 9, 0, 0, 200_000_000)),
                                     Some(Instant(ParseDay, 9, 0, 0, 700_000_000)));
      && Valid(ValidateBusinessHour(New(), h))
      && Stored(h).openTime == Stored(h).closeTime
  {
    var h := BusinessHourRow(0, 1, 1, false,
                             Some(Instant(ParseDay, 9, 0, 0, 200_000_000)),
                             Some(Instant(ParseDay, 9, 0, 0, 700_000_000)));
    ValidBusinessHourIff(h);
  }
}

=== FILE: categories.dfy ===
/** Service categories of a provider (`internal/data/categories.go`):
    validation of a category name, its insert and the listing by provider. */
module Categories {
  import opened Wrappers
  import opened Validation
  import opened Store
  import Sorting

  datatype Category = Category(id: int, providerId: int, name: string)

  predicate LengthOk(name: string) {
    3 <= |name| <= 50
  }

  /** `ValidateCategory`: three checks on the key "category"; the first
      failing one supplies the message. */
  function ValidateCategory(v: Validator, name: string): (r: Validator)
    ensures Extends(v, r)
    ensures r.errors.Keys == v.errors.Keys + (if MatchesCategory(name) && LengthOk(name) then {} else {"category"})
    ensures "category" !in v.errors && !(MatchesCategory(name) && LengthOk(name)) ==>
      r.errors["category"] ==
        (if name == "" then "must be provided"
         else if !MatchesCategory(name) then "must only contain letters, numbers, and spaces"
         else "must be between 3 and 50 bytes")
  {
    var v1 := Check(v, name != "", "category", "must be provided");
    var r := CheckBoth(v1, MatchesCategory(name), LengthOk(name), "category",
                       "must only contain letters, numbers, and spaces", "must be between 3 and 50 bytes");
    ExtendsTransitive(v, v1, r);
    r
  }

  /** A name passes exactly when it has 3 to 50 characters, each a letter,
      a digit or a space. */
  lemma ValidCategoryIff(name: string)
    ensures Valid(ValidateCategory(New(), name)) <==>
      3 <= |name| <= 50 && forall i :: 0 <= i < |name| ==> IsCategoryChar(name[i])
  {
    var r := ValidateCategory(New(), name);
    if !Valid(r) {
      assert "category" in r.errors;
    }
  }

  /** An empty name records exactly one error, "must be provided": the
      later checks on the same key fail too but cannot replace it. */
  lemma EmptyCategoryMessage()
    ensures ValidateCategory(New(), "").errors == map["category" := "must be provided"]
  {
    var r := ValidateCategory(New(), "");
    assert r.errors.Keys == {"category"};
  }

  function CategoryStmt(c: Category): Stmt {
    InsertCategory(CategoryRow(0, c.providerId, c.name))
  }

  /** `CategoryModel.Insert`: a unique violation is a duplicate category,
      any other error is returned as reported; the new id is the database's
      next id and exists only on success. */
  function Insert(db: Db, eng: Engine, c: Category): (o: Outcome<int>)
    ensures o.trace == [CategoryStmt(c)]
    ensures o.result.Success? <==> eng(db, CategoryStmt(c)).None?
    ensures o.result.Success? ==>
      && o.result.value == db.nextId
      && o.db == db.(categories := db.categories + [CategoryRow(db.nextId, c.providerId, c.name)], nextId := db.nextId + 1)
    ensures o.result.Failure? ==> o.db == db
    ensures o.result == Failure(DuplicateCategory) <==> IsPgCode(eng(db, CategoryStmt(c)).GetOr(DriverError("")), UniqueViolation)
    ensures o.result.Failure? && o.result != Failure(DuplicateCategory) ==>
      o.result == Failure(DbFailure(eng(db, CategoryStmt(c)).value))
  {
    var st := CategoryStmt(c);
    var (db', err) := Single(db, eng, st);
    match err
    case None => Outcome(db', [st], Success(db.nextId))
    case Some(e) => Outcome(db, [st], Failure(if IsPgCode(e, UniqueViolation) then DuplicateCategory else DbFailure(e)))
  }

  /** The duplicate-category error is not the generic duplicate-record
      error, whatever the database reports. */
  lemma DuplicateIsNotRecordDuplicate(db: Db, eng: Engine, c: Category)
    ensures Insert(db, eng, c).result != Failure(DuplicateRecord)
  {
  }

  /** A category as listed: the query reads only the id and the name. */
  function Listed(row: CategoryRow): Category {
    Category(row.id, 0, row.name)
  }

  function ListedAll(rows: seq<CategoryRow>): (r: seq<Category>)
    ensures |r| == |rows|
  {
    seq(|rows|, i requires 0 <= i < |rows| => Listed(rows[i]))
  }

  function OfProvider(providerId: int): CategoryRow -> bool {
    (row: CategoryRow) => row.providerId == providerId
  }

  function ByName(nameLe: (string, string) -> bool): (CategoryRow, CategoryRow) -> bool {
    Sorting.ByKey((row: CategoryRow) => row.name, nameLe)
  }

  /** The listing of a provider's categories: a sorted permutation of its
      rows, read back, empty exactly when the provider has none. */
  function Listing(db: Db, providerId: int, nameLe: (string, string) -> bool): (items: seq<Category>)
    requires Sorting.TotalPreorder(nameLe)
    ensures exists rows ::
      Sorting.IsQueryResult(rows, db.categories, OfProvider(providerId), ByName(nameLe)) && items == ListedAll(rows)
    ensures |items| == 0 <==> forall k :: 0 <= k < |db.categories| ==> db.categories[k].providerId != providerId
    ensures forall i, j :: 0 <= i < j < |items| ==> nameLe(items[i].name, items[j].name)
  {
    Sorting.ByKeyPreorder((row: CategoryRow) => row.name, nameLe);
    var rows := Sorting.Query(db.categories, OfProvider(providerId), ByName(nameLe));
    Sorting.QueryEmptyIff(rows, db.categories, OfProvider(providerId), ByName(nameLe));
    var items := ListedAll(rows);
    assert forall i, j :: 0 <= i < j < |items| ==> ByName(nameLe)(rows[i], rows[j]);
    items
  }

  /** `GetAllByProviderID`: the provider's categories ordered by name;
      `nil` when there is none. */
  function GetAllByProviderID(db: Db, eng: Engine, providerId: int, nameLe: (string, string) -> bool)
    : (o: Outcome<GoSlice<Category>>)
    requires Sorting.TotalPreorder(nameLe)
    ensures o.db == db && o.trace == [SelectCategories(providerId)]
    ensures o.result.Failure? <==> eng(db, SelectCategories(providerId)).Some?
    ensures o.result.Failure? ==> o.result.error == DbFailure(eng(db, SelectCategories(providerId)).value)
    ensures o.result.Success? ==> Elems(o.result.value) == Listing(db, providerId, nameLe)
    ensures o.result.Success? ==>
      (o.result.value.Nil? <==> forall k :: 0 <= k < |db.categories| ==> db.categories[k].providerId != providerId)
  {
    var st := SelectCategories(providerId);
    match eng(db, st)
    case Some(e) => Outcome(db, [st], Failure(DbFailure(e)))
    case None => Outcome(db, [st], Success(Appended(Listing(db, providerId, nameLe))))
  }
}

=== FILE: decimal.dfy ===
/** Decimal integers as Go's `strconv` reads and writes them: `Atoi` and
    `ParseInt(s, 10, 64)` (optional sign, at least one decimal digit, value
    within the 64-bit range) and `Itoa` / `%d` formatting. */
module Decimal {
  import opened Wrappers

  const MinInt64: int := -0x8000_0000_0000_0000
  const MaxInt64: int := 0x7fff_ffff_ffff_ffff

  predicate InInt64(n: int) {
    MinInt64 <= n <= MaxInt64
  }

  const MinInt32: int := -0x8000_0000
  const MaxInt32: int := 0x7fff_ffff

  /** Go's conversion `int32(n)`: the value modulo 2^32, read as a signed
      32-bit number. */
  function ToInt32(n: int): (r: int)
    ensures MinInt32 <= r <= MaxInt32
    ensures (n - r) % 0x1_0000_0000 == 0
  {
    var m := n % 0x1_0000_0000;
    if m > MaxInt32 then m - 0x1_0000_0000 else m
  }

  /** A value that fits is kept; the conversion only changes values that do
      not. */
  lemma ToInt32Fits(n: int)
    ensures ToInt32(n) == n <==> MinInt32 <= n <= MaxInt32
  {
  }

  predicate IsDigit(c: char) {
    '0' <= c <= '9'
  }

  function DigitChar(d: nat): (c: char)
    requires d < 10
    ensures IsDigit(c)
  {
    (d + '0' as int) as char
  }

  function DigitValue(c: char): (d: nat)
    requires IsDigit(c)
    ensures d < 10
  {
    c as int - '0' as int
  }

  predicate AllDigits(s: string) {
    forall i :: 0 <= i < |s| ==> IsDigit(s[i])
  }

  /** The value of a string of decimal digits, most significant first. */
  function DigitsValue(s: string): nat
    requires AllDigits(s)
  {
    if |s| == 0 then 0 else DigitsValue(s[..|s| - 1]) * 10 + DigitValue(s[|s| - 1])
  }

  /** The shortest decimal representation of `n` (`strconv.Itoa` on a non-negative value). */
  function FormatNat(n: nat): (s: string)
    ensures |s| >= 1 && AllDigits(s)
    ensures |s| > 1 ==> s[0] != '0'
  {
    if n < 10 then [DigitChar(n)] else FormatNat(n / 10) + [DigitChar(n % 10)]
  }

  /** `strconv.Itoa` / `fmt.Sprintf("%d", n)`. */
  function FormatInt(n: int): string {
    if n < 0 then "-" + FormatNat(-n) else FormatNat(n)
  }

  /** `strconv.Atoi`, equivalently `strconv.ParseInt(s, 10, 64)`: a sign
      character is optional, the digits must be non-empty, and a value outside
      the 64-bit range is an error. */
  function ParseInt(s: string): (r: Option<int>)
    ensures r.Some? ==> InInt64(r.value)
  {
    var neg := |s| > 0 && s[0] == '-';
    var digits := if |s| > 0 && (s[0] == '+' || s[0] == '-') then s[1..] else s;
    if |digits| == 0 || !AllDigits(digits) then None
    else
      var magnitude: int := DigitsValue(digits);
      var n: int := if neg then -magnitude else magnitude;
      if InInt64(n) then Some(n) else None
  }

  /** Reading the digits back yields the number that was written. */
  lemma {:induction false} DigitsValueFormatNat(n: nat)
    ensures DigitsValue(FormatNat(n)) == n
  {
    if n >= 10 {
      DigitsValueFormatNat(n / 10);
      var s := FormatNat(n);
      assert s[..|s| - 1] == FormatNat(n / 10);
    }
  }

  /** Round trip: `ParseInt(FormatInt(n)) == n` for every 64-bit value. */
  lemma ParseFormatInt(n: int)
    requires InInt64(n)
    ensures ParseInt(FormatInt(n)) == Some(n)
  {
    if n < 0 {
      DigitsValueFormatNat(-n);
      assert FormatInt(n)[1..] == FormatNat(-n);
    } else {
      DigitsValueFormatNat(n);
    }
  }

  /** Distinct numbers are written differently. */
  lemma FormatNatInjective(a: nat, b: nat)
    ensures FormatNat(a) == FormatNat(b) ==> a == b
  {
    DigitsValueFormatNat(a);
    DigitsValueFormatNat(b);
  }

  /** What `ParseInt` accepts: an optional sign followed by at least one digit. */
  lemma ParseIntSyntax(s: string)
    requires ParseInt(s).Some?
    ensures |s| >= 1
    ensures IsDigit(s[0]) || ((s[0] == '+' || s[0] == '-') && |s| >= 2)
    ensures forall i :: 0 < i < |s| ==> IsDigit(s[i])
  {
  }
}

=== FILE: email_verifications.dfy ===
/** Email verification codes (`internal/data/email_verifications.go`): a
    random code is mailed to an address, its hash is stored with an expiry,
    and presenting the code before it expires proves the address. */
module EmailVerifications {
  import opened Wrappers
  import opened Validation
  import opened Store
  import Base32
  import Sorting
  import Tokens

  datatype EmailVerificationToken = EmailVerificationToken(plaintext: string, email: string, hash: Bytes, expiry: int)

  /** `generateEmailVerificationToken`: 16 random bytes, encoded in full. */
  function Generate(email: string, ttl: int, now: int, random: Tokens.RandomSource, sha: Tokens.Hasher)
    : (r: Result<EmailVerificationToken, Error>)
    requires Tokens.FillsBuffer(random)
    ensures r.Failure? <==> random(16).None?
    ensures r.Failure? ==> r.error == RandomFailure
    ensures r.Success? ==>
      && |r.value.plaintext| == 26
      && (forall i :: 0 <= i < 26 ==> Base32.IsBase32Char(r.value.plaintext[i]))
      && Base32.Decode(r.value.plaintext) == random(16).value
      && r.value.hash == sha(r.value.plaintext)
      && r.value.email == email
      && r.value.expiry == now + ttl
  {
    match random(16)
    case None => Failure(RandomFailure)
    case Some(bytes) =>
      var plaintext := Base32.Encode(bytes);
      Base32.EncodedLengths(bytes);
      Base32.DecodeEncode(bytes);
      Success(EmailVerificationToken(plaintext, email, sha(plaintext), now + ttl))
  }

  function RowOf(t: EmailVerificationToken): EmailVerificationRow {
    EmailVerificationRow(t.hash, t.email, t.expiry)
  }

  /** `EmailVerificationTokenModel.Insert`: one row; a database error is
      returned as is. */
  function Insert(db: Db, eng: Engine, t: EmailVerificationToken): (o: Outcome<()>)
    ensures o.trace == [InsertEmailVerification(RowOf(t))]
    ensures o.result.Success? <==> eng(db, InsertEmailVerification(RowOf(t))).None?
    ensures o.result.Success? ==> o.db == db.(emailVerifications := db.emailVerifications + [RowOf(t)])
    ensures o.result.Failure? ==>
      o.db == db && o.result.error == DbFailure(eng(db, InsertEmailVerification(RowOf(t))).value)
  {
    var st := InsertEmailVerification(RowOf(t));
    var (db', err) := Single(db, eng, st);
    if err.None? then Outcome(db', [st], Success(())) else Outcome(db, [st], Failure(DbFailure(err.value)))
  }

  /** What `New` hands back: the code, when one was generated, and the
      error, separately. */
  datatype Issued = Issued(db: Db, trace: seq<Stmt>, token: Option<EmailVerificationToken>, err: Option<Error>)

  /** `EmailVerificationTokenModel.New`: generate, then insert; a generated
      code is returned even when its insert fails. */
  function NewVerification(db: Db, eng: Engine, email: string, ttl: int, now: int,
                           random: Tokens.RandomSource, sha: Tokens.Hasher): (o: Issued)
    requires Tokens.FillsBuffer(random)
    ensures o.token.None? <==> random(16).None?
    ensures o.token.None? ==> o.db == db && o.trace == [] && o.err == Some(RandomFailure)
    ensures o.token.Some? ==>
      && Success(o.token.value) == Generate(email, ttl, now, random, sha)
      && o.trace == [InsertEmailVerification(RowOf(o.token.value))]
      && (o.err.None? <==> eng(db, InsertEmailVerification(RowOf(o.token.value))).None?)
    ensures o.token.Some? && o.err.None? ==>
      o.db == db.(emailVerifications := db.emailVerifications + [RowOf(o.token.value)])
    ensures o.err.Some? ==> o.db == db
  {
    match Generate(email, ttl, now, random, sha)
    case Failure(e) => Issued(db, [], None, Some(e))
    case Success(t) =>
      var ins := Insert(db, eng, t);
      Issued(ins.db, ins.trace, Some(t), if ins.result.Success? then None else Some(ins.result.error))
  }

  /** A stored code that `hash` redeems at time `now`. */
  predicate Redeems(row: EmailVerificationRow, hash: Bytes, now: int) {
    row.hash == hash && row.expiry > now
  }

  /** The address the query reads when the database answers: the first
      matching row's, or `ErrRecordNotFound` when no row matches. */
  function Lookup(db: Db, hash: Bytes, now: int): (r: Result<string, Error>)
    ensures r == Failure(RecordNotFound) <==>
      forall i :: 0 <= i < |db.emailVerifications| ==> !Redeems(db.emailVerifications[i], hash, now)
    ensures r.Failure? ==> r.error == RecordNotFound
    ensures r.Success? ==>
      exists i :: 0 <= i < |db.emailVerifications| && Redeems(db.emailVerifications[i], hash, now) && r.value == db.emailVerifications[i].email
  {
    match Sorting.FirstWhere(db.emailVerifications, (row: EmailVerificationRow) => Redeems(row, hash, now))
    case None => Failure(RecordNotFound)
    case Some(i) => Success(db.emailVerifications[i].email)
  }

  /** `Verify` as written: when the database fails the query for any
      reason other than finding no row, the code returns an empty address
      and no error. */
  function VerifyAsWritten(db: Db, eng: Engine, plaintext: string, sha: Tokens.Hasher, now: int): (o: Outcome<string>)
    ensures o.db == db && o.trace == [SelectEmailVerification(sha(plaintext), now)]
    ensures eng(db, SelectEmailVerification(sha(plaintext), now)).Some? ==> o.result == Success("")
    ensures eng(db, SelectEmailVerification(sha(plaintext), now)).None? ==>
      o.result == Lookup(db, sha(plaintext), now)
  {
    var st := SelectEmailVerification(sha(plaintext), now);
    match eng(db, st)
    case Some(_) => Outcome(db, [st], Success(""))
    case None => Outcome(db, [st], Lookup(db, sha(plaintext), now))
  }

  /** `Verify` with the database error returned: a code is accepted only
      when a stored row vouches for it. */
  function Verify(db: Db, eng: Engine, plaintext: string, sha: Tokens.Hasher, now: int): (o: Outcome<string>)
    ensures o.db == db && o.trace == [SelectEmailVerification(sha(plaintext), now)]
    ensures eng(db, SelectEmailVerification(sha(plaintext), now)).Some? ==>
      o.result == Failure(DbFailure(eng(db, SelectEmailVerification(sha(plaintext), now)).value))
    ensures o.result.Success? ==>
      exists i :: 0 <= i < |db.emailVerifications| && Redeems(db.emailVerifications[i], sha(plaintext), now) && o.result.value == db.emailVerifications[i].email
    ensures o.result == Failure(RecordNotFound) <==>
      eng(db, SelectEmailVerification(sha(plaintext), now)).None? &&
      forall i :: 0 <= i < |db.emailVerifications| ==> !Redeems(db.emailVerifications[i], sha(plaintext), now)
  {
    var st := SelectEmailVerification(sha(plaintext), now);
    match eng(db, st)
    case Some(e) => Outcome(db, [st], Failure(DbFailure(e)))
    case None => Outcome(db, [st], Lookup(db, sha(plaintext), now))
  }

  /** The two definitions differ exactly when the database fails the query. */
  lemma VerifyAgrees(db: Db, eng: Engine, plaintext: string, sha: Tokens.Hasher, now: int)
    ensures VerifyAsWritten(db, eng, plaintext, sha, now) == Verify(db, eng, plaintext, sha, now) <==>
      eng(db, SelectEmailVerification(sha(plaintext), now)).None?
  {
  }

  /** An engine that fails every statement with `e`. */
  function FailAll(e: DbError): Engine {
    (db: Db, st: Stmt) => Some(e)
  }

  /** The discrepancy on an input: with no code stored at all, a database
      that fails the query makes the code as written accept any plaintext
      for the empty address, while the corrected one reports the failure. */
  lemma SwallowedFailureAcceptsAnyCode(db: Db, plaintext: string, sha: Tokens.Hasher, now: int, e: DbError)
    requires db.emailVerifications == []
    ensures VerifyAsWritten(db, FailAll(e), plaintext, sha, now).result == Success("")
    ensures Verify(db, FailAll(e), plaintext, sha, now).result == Failure(DbFailure(e))
    ensures Verify(db, (d: Db, st: Stmt) => None, plaintext, sha, now).result == Failure(RecordNotFound)
  {
  }

  /** Round trip: a code stored by `New` whose hash no earlier row carries
      is redeemed for its address until it expires. */
  lemma NewThenVerify(db: Db, eng: Engine, email: string, ttl: int, now: int,
                      random: Tokens.RandomSource, sha: Tokens.Hasher, eng2: Engine, later: int)
    requires Tokens.FillsBuffer(random)
    requires var o := NewVerification(db, eng, email, ttl, now, random, sha);
      && o.token.Some? && o.err.None? && later < now + ttl
      && (forall i :: 0 <= i < |db.emailVerifications| ==> db.emailVerifications[i].hash != o.token.value.hash)
      && eng2(o.db, SelectEmailVerification(o.token.value.hash, later)).None?
    ensures var o := NewVerification(db, eng, email, ttl, now, random, sha);
      Verify(o.db, eng2, o.token.value.plaintext, sha, later).result == Success(email)
  {
    var o := NewVerification(db, eng, email, ttl, now, random, sha);
    var t := o.token.value;
    var rows := o.db.emailVerifications;
    var n := |db.emailVerifications|;
    assert rows[n] == RowOf(t);
    assert forall i :: 0 <= i < n ==> rows[i] == db.emailVerifications[i];
    assert forall i :: 0 <= i < |rows| && Redeems(rows[i], sha(t.plaintext), later) ==> i == n;
  }

  /** `DeleteAllForEmail`: every code of the address goes and nothing else. */
  function DeleteAllForEmail(db: Db, eng: Engine, email: string): (o: Outcome<()>)
    ensures o.trace == [DeleteEmailVerifications(email)]
    ensures o.result.Success? <==> eng(db, DeleteEmailVerifications(email)).None?
    ensures o.result.Failure? ==>
      o.db == db && o.result.error == DbFailure(eng(db, DeleteEmailVerifications(email)).value)
    ensures o.result.Success? ==> o.db == db.(emailVerifications := o.db.emailVerifications)
    ensures o.result.Success? ==>
      forall row :: row in o.db.emailVerifications <==> row in db.emailVerifications && row.email != email
  {
    var st := DeleteEmailVerifications(email);
    var (db', err) := Single(db, eng, st);
    if err.None? then Outcome(db', [st], Success(())) else Outcome(db, [st], Failure(DbFailure(err.value)))
  }

  /** `ValidateEmailTokenPlaintext`: the same rule as an authentication
      token's plaintext, 26 characters with an empty code reported
      as missing. */
  function ValidateEmailTokenPlaintext(v: Validator, plaintext: string): (r: Validator)
    ensures Extends(v, r)
    ensures r.errors.Keys == v.errors.Keys + (if |plaintext| == 26 then {} else {"token"})
    ensures "token" !in v.errors && |plaintext| != 26 ==>
      r.errors["token"] == (if plaintext == "" then "must be provided" else "must be 26 bytes long")
  {
    Tokens.ValidateTokenPlaintext(v, plaintext)
  }

  /** Every generated code passes the format check. */
  lemma GeneratedCodeValid(email: string, ttl: int, now: int, random: Tokens.RandomSource, sha: Tokens.Hasher)
    requires Tokens.FillsBuffer(random)
    requires Generate(email, ttl, now, random, sha).Success?
    ensures Valid(ValidateEmailTokenPlaintext(New(), Generate(email, ttl, now, random, sha).value.plaintext))
  {
  }
}

=== FILE: filters.dfy ===
/** Pagination and sorting of list queries (`internal/data/filters.go`). */
module Filters {
  import opened Wrappers
  import opened Strs
  import opened Validation

  datatype Metadata = Metadata(
    currentPage: int, pageSize: int, firstPage: int, lastPage: int, totalRecords: int)

  datatype Filters = Filters(page: int, pageSize: int, sort: string, sortSafeList: seq<string>)

  /** The number of pages needed for `total` records, `pageSize` per page:
      `math.Ceil` of the quotient, computed exactly. */
  function PageCount(total: nat, pageSize: int): (n: nat)
    requires pageSize > 0
    ensures (n - 1) * pageSize < total || n == 0
    ensures total <= n * pageSize
    ensures total > 0 ==> n >= 1
  {
    (total + pageSize - 1) / pageSize
  }

  /** The page count for a negative page size: the ceiling of the negative
      quotient, which is minus the floor of `total / -pageSize`. */
  function NegativePageCount(total: nat, pageSize: int): (n: int)
    requires pageSize < 0
    ensures n * pageSize <= total < (n - 1) * pageSize
  {
    var q := -pageSize;
    var d := total / q;
    assert d * q <= total < d * q + q;
    -d
  }

  /** `CalculateMetadata`: no records give the zero value; otherwise the
      last page is the ceiling of the quotient.  The source divides
      floating-point numbers, so a page size of zero with records present
      (an infinite quotient converted to an integer) has no meaningful
      result and is excluded. */
  function CalculateMetadata(totalRecords: nat, page: int, pageSize: int): (m: Metadata)
    requires totalRecords == 0 || pageSize != 0
    ensures totalRecords == 0 ==> m == Metadata(0, 0, 0, 0, 0)
    ensures totalRecords > 0 ==>
      && m.currentPage == page && m.pageSize == pageSize
      && m.firstPage == 1 && m.totalRecords == totalRecords
    ensures totalRecords > 0 && pageSize > 0 ==>
      (m.lastPage - 1) * pageSize < totalRecords <= m.lastPage * pageSize
    ensures totalRecords > 0 && pageSize < 0 ==>
      m.lastPage * pageSize <= totalRecords < (m.lastPage - 1) * pageSize
  {
    if totalRecords == 0 then Metadata(0, 0, 0, 0, 0)
    else if pageSize > 0 then Metadata(page, pageSize, 1, PageCount(totalRecords, pageSize), totalRecords)
    else Metadata(page, pageSize, 1, NegativePageCount(totalRecords, pageSize), totalRecords)
  }

  /** A product with a positive factor has the sign of the other factor. */
  lemma {:induction false} MulSign(d: int, p: int)
    requires p > 0
    ensures d > 0 ==> d * p > 0
    ensures d <= 0 ==> d * p <= 0
    decreases if d < 0 then -d else d
  {
    if d > 1 {
      MulSign(d - 1, p);
      assert d * p == (d - 1) * p + p;
    } else if d < 0 {
      MulSign(d + 1, p);
      assert d * p == (d + 1) * p - p;
    }
  }

  /** Multiplying by a positive page size preserves strict order, both ways. */
  lemma MulLtIff(a: int, b: int, p: int)
    requires p > 0
    ensures a * p < b * p <==> a < b
  {
    MulSign(b - a, p);
    assert b * p - a * p == (b - a) * p;
  }

  /** The last page is determined by the bounds `CalculateMetadata` states:
      any page number meeting them is the one it reports. */
  lemma LastPageUnique(total: nat, pageSize: int, k: int)
    requires total > 0 && pageSize > 0
    requires (k - 1) * pageSize < total <= k * pageSize
    ensures CalculateMetadata(total, 1, pageSize).lastPage == k
  {
    var n := CalculateMetadata(total, 1, pageSize).lastPage;
    MulLtIff(n - 1, k, pageSize);
    MulLtIff(k - 1, n, pageSize);
  }

  /** The number of records skipped before page `f.page`. */
  function Offset(f: Filters): (n: int)
    ensures f.page >= 1 && f.pageSize >= 0 ==> n >= 0
    ensures f.page == 1 ==> n == 0
  {
    (f.page - 1) * f.pageSize
  }

  /** Consecutive pages are contiguous: page `p + 1` starts where page `p`
      ends, `limit()` (the page size) records later, so the pages tile the
      result without gaps or overlaps. */
  lemma PagesContiguous(f: Filters)
    ensures Offset(f.(page := f.page + 1)) == Offset(f) + f.pageSize
  {
  }

  /** Every record of a non-empty result lies on exactly one page between
      the first and the last page of the metadata. */
  lemma RecordOnOnePage(total: nat, pageSize: int, k: nat)
    requires pageSize > 0 && k < total
    ensures var p := k / pageSize + 1;
      && 1 <= p <= CalculateMetadata(total, p, pageSize).lastPage
      && Offset(Filters(p, pageSize, "", [])) <= k < Offset(Filters(p, pageSize, "", [])) + pageSize
  {
    var p := k / pageSize + 1;
    var last := CalculateMetadata(total, p, pageSize).lastPage;
    assert (p - 1) * pageSize <= k;
    MulLtIff(p - 1, last, pageSize);
  }

  /** `sortColumn`: the column of a sort key from the safe list, without its
      `-` prefix; any other key makes the source panic with the message
      carried by the failure. */
  function SortColumn(f: Filters): (r: Result<string, string>)
    ensures r.Success? <==> f.sort in f.sortSafeList
    ensures r.Success? && HasPrefix(f.sort, "-") ==> "-" + r.value == f.sort
    ensures r.Success? && !HasPrefix(f.sort, "-") ==> r.value == f.sort
    ensures r.Failure? ==> r.error == "unsafe sort paramter: " + f.sort
  {
    if f.sort in f.sortSafeList then Success(TrimPrefix(f.sort, "-"))
    else Failure("unsafe sort paramter: " + f.sort)
  }

  function SortDirection(f: Filters): (r: string)
    ensures r == "DESC" <==> HasPrefix(f.sort, "-")
    ensures r == "ASC" <==> !HasPrefix(f.sort, "-")
  {
    if HasPrefix(f.sort, "-") then "DESC" else "ASC"
  }

  /** Column and direction together give back the sort key. */
  lemma SortKeyRoundTrip(f: Filters)
    requires f.sort in f.sortSafeList
    ensures SortDirection(f) == "DESC" ==> "-" + SortColumn(f).value == f.sort
    ensures SortDirection(f) == "ASC" ==> SortColumn(f).value == f.sort
  {
  }

  predicate PageOk(page: int) {
    1 <= page <= 10_000_000
  }

  predicate PageSizeOk(pageSize: int) {
    1 <= pageSize <= 100
  }

  /** `ValidateFilters`: the page must lie in 1..10,000,000 and the page size
      in 1..100; the lower bound's message wins when both fail (they cannot). */
  function ValidateFilters(v: Validator, f: Filters): (r: Validator)
    ensures Extends(v, r)
    ensures r.errors.Keys == v.errors.Keys
      + (if PageOk(f.page) then {} else {"page"})
      + (if PageSizeOk(f.pageSize) then {} else {"page_size"})
    ensures "page" !in v.errors && !PageOk(f.page) ==>
      r.errors["page"] == (if f.page <= 0 then "must be greater than zero" else "must be a maximum of 10 million")
    ensures "page_size" !in v.errors && !PageSizeOk(f.pageSize) ==>
      r.errors["page_size"] == (if f.pageSize <= 0 then "must be greater than 0" else "must be a maximum of 100")
  {
    var v := Check(v, f.page > 0, "page", "must be greater than zero");
    var v := Check(v, f.page <= 10_000_000, "page", "must be a maximum of 10 million");
    var v := Check(v, f.pageSize > 0, "page_size", "must be greater than 0");
    Check(v, f.pageSize <= 100, "page_size", "must be a maximum of 100")
  }

  /** Filters pass validation exactly when both ranges hold. */
  lemma ValidFiltersIff(f: Filters)
    ensures Valid(ValidateFilters(New(), f)) <==> PageOk(f.page) && PageSizeOk(f.pageSize)
  {
    var r := ValidateFilters(New(), f);
    if !PageOk(f.page) {
      assert "page" in r.errors;
    } else if !PageSizeOk(f.pageSize) {
      assert "page_size" in r.errors;
    }
  }
}

=== FILE: helpers.dfy ===
/** The request helpers of the API (`cmd/api/helpers.go`): reading the
    URL's id parameter and query-string values, form values, the image
    checks and storage key of an upload, and the cleanup after a failed
    service creation.  The storage service and the clock are parameters. */
module Helpers {
  import opened Wrappers
  import opened Strs
  import opened Decimal
  import opened Validation
  import opened Store
  import Services

  /** A character that ends the scan of `filepath.Ext`. */
  predicate Stops(c: char) {
    c == '.' || c == '/'
  }

  /** No dot in the final element of `path`: every dot has a slash after it. */
  predicate NoDotInLastElement(path: string) {
    forall k :: 0 <= k < |path| && path[k] == '.' ==> exists j :: k < j < |path| && path[j] == '/'
  }

  /** What makes `e` the extension of `path`: a suffix that is empty when
      the final element has no dot, and otherwise starts with a dot and
      holds no other dot or slash. */
  predicate IsExtOf(e: string, path: string) {
    && |e| <= |path| && e == path[|path| - |e|..]
    && (e != "" ==> e[0] == '.' && forall k :: 1 <= k < |e| ==> !Stops(e[k]))
    && (e == "" ==> NoDotInLastElement(path))
  }

  /** `filepath.Ext`: the suffix from the last dot of the final path
      element, or empty when that element has no dot. */
  function Ext(path: string): (e: string)
    ensures IsExtOf(e, path)
  {
    if |path| == 0 then ""
    else
      var n := |path| - 1;
      var c := path[n];
      if c == '/' then ""
      else if c == '.' then "."
      else
        var e := Ext(path[..n]);
        assert forall k :: 0 <= k < n ==> path[..n][k] == path[k];
        if e == "" then "" else e + [c]
  }

  /** A non-empty extension starts at a dot after which the path has no
      dot or slash. */
  lemma ExtPosition(path: string, e: string)
    requires IsExtOf(e, path)
    ensures e != "" ==> path[|path| - |e|] == '.'
    ensures e != "" ==> forall k :: |path| - |e| < k < |path| ==> !Stops(path[k])
  {
    var p := |path| - |e|;
    assert forall k :: p <= k < |path| ==> path[k] == e[k - p];
  }

  /** The extension is the only string with those properties. */
  lemma ExtUnique(path: string, e: string)
    requires IsExtOf(e, path)
    ensures Ext(path) == e
  {
    var x := Ext(path);
    ExtPosition(path, x);
    ExtPosition(path, e);
    assert |x| == |e|;
  }

  /** Lower-casing a path lower-cases its extension and nothing more. */
  lemma ExtToLower(s: string)
    ensures Ext(ToLower(s)) == ToLower(Ext(s))
  {
    var e := Ext(s);
    var t := ToLower(s);
    var le := ToLower(e);
    ToLowerSuffix(s, |s| - |e|);
    assert forall k :: 0 <= k < |s| ==> (Stops(t[k]) <==> Stops(s[k])) && (t[k] == '.' <==> s[k] == '.') && (t[k] == '/' <==> s[k] == '/');
    if e == "" {
      forall k | 0 <= k < |t| && t[k] == '.'
        ensures exists j :: k < j < |t| && t[j] == '/'
      {
        var j :| k < j < |s| && s[j] == '/';
        assert t[j] == '/';
      }
    }
    assert IsExtOf(le, t);
    ExtUnique(t, le);
  }

  const ValidImageExts: seq<string> := [".jpg", ".jpeg", ".png", ".gif", ".webp"]

  /** `isValidImageType`. */
  function IsValidImageType(filename: string): (ok: bool)
    ensures ok <==> ToLower(Ext(filename)) in ValidImageExts
    ensures ok ==> 4 <= |Ext(filename)| <= 5 && HasSuffix(filename, Ext(filename))
  {
    In(ToLower(Ext(filename)), ValidImageExts)
  }

  /** The check ignores case: a name passes exactly when its lower-cased
      form does. */
  lemma ImageTypeIgnoresCase(filename: string)
    ensures IsValidImageType(ToLower(filename)) == IsValidImageType(filename)
  {
    ExtToLower(filename);
    ToLowerIdempotent(Ext(filename));
  }

  /** `readIDParam`: the `id` route parameter as a 64-bit integer of at
      least 1, or the "invalid id parameter" error. */
  function ReadIDParam(param: string): (r: Result<int, string>)
    ensures r.Success? <==> ParseInt(param).Some? && ParseInt(param).value >= 1
    ensures r.Success? ==> r.value == ParseInt(param).value && 1 <= r.value <= MaxInt64
    ensures r.Failure? ==> r.error == "invalid id parameter"
  {
    match ParseInt(param)
    case Some(id) => if id < 1 then Failure("invalid id parameter") else Success(id)
    case None => Failure("invalid id parameter")
  }

  /** Every positive 64-bit id written in decimal is read back. */
  lemma ReadIDParamFormat(id: int)
    requires 1 <= id <= MaxInt64
    ensures ReadIDParam(FormatInt(id)) == Success(id)
  {
    ParseFormatInt(id);
  }

  /** URL query values: each key with its values in order. */
  type Values = map<string, seq<string>>

  /** `url.Values.Get`: the first value, or empty. */
  function Get(qs: Values, key: string): string {
    if key in qs && |qs[key]| > 0 then qs[key][0] else ""
  }

  /** `readString`: the value, or the default when it is empty or missing. */
  function ReadString(qs: Values, key: string, defaultValue: string): (r: string)
    ensures Get(qs, key) != "" ==> r == Get(qs, key)
    ensures Get(qs, key) == "" ==> r == defaultValue
    ensures r == "" ==> defaultValue == ""
  {
    var s := Get(qs, key);
    if s == "" then defaultValue else s
  }

  /** `readCSV`: the default for an empty value, otherwise the pieces
      between commas, which join back to the value. */
  function ReadCSV(qs: Values, key: string, defaultValue: seq<string>): (r: seq<string>)
    ensures Get(qs, key) == "" ==> r == defaultValue
    ensures Get(qs, key) != "" ==>
      && |r| >= 1
      && (forall i :: 0 <= i < |r| ==> ',' !in r[i])
      && Join(r, ',') == Get(qs, key)
  {
    var csv := Get(qs, key);
    if csv == "" then defaultValue
    else
      JoinSplit(csv, ',');
      Split(csv, ',')
  }

  /** Comma-free pieces, joined into a query value, are read back. */
  lemma ReadCSVJoin(qs: Values, key: string, defaultValue: seq<string>, parts: seq<string>)
    requires |parts| >= 1 && (forall i :: 0 <= i < |parts| ==> ',' !in parts[i])
    requires key in qs && |qs[key]| > 0 && qs[key][0] == Join(parts, ',') && Join(parts, ',') != ""
    ensures ReadCSV(qs, key, defaultValue) == parts
  {
    SplitJoin(parts, ',');
  }

  /** `readInt`: the value as an integer; the default for an empty value,
      and the default with "must be an integer value" recorded under the key
      for one that does not parse. */
  function ReadInt(qs: Values, key: string, defaultValue: int, v: Validator): (r: (int, Validator))
    ensures Get(qs, key) == "" ==> r.0 == defaultValue && r.1 == v
    ensures Get(qs, key) != "" && ParseInt(Get(qs, key)).Some? ==> r.0 == ParseInt(Get(qs, key)).value && r.1 == v
    ensures Get(qs, key) != "" && ParseInt(Get(qs, key)).None? ==>
      && r.0 == defaultValue
      && r.1.errors.Keys == v.errors.Keys + {key}
      && (key !in v.errors ==> r.1.errors[key] == "must be an integer value")
      && Extends(v, r.1)
  {
    var s := Get(qs, key);
    if s == "" then (defaultValue, v)
    else
      match ParseInt(s)
      case None => (defaultValue, AddError(v, key, "must be an integer value"))
      case Some(i) => (i, v)
  }

  /** A 64-bit integer written in decimal is read back without an error. */
  lemma ReadIntFormat(qs: Values, key: string, defaultValue: int, v: Validator, n: int)
    requires InInt64(n) && key in qs && |qs[key]| > 0 && qs[key][0] == FormatInt(n)
    ensures ReadInt(qs, key, defaultValue, v) == (n, v)
  {
    ParseFormatInt(n);
  }

  /** A multipart file as the handler sees it. */
  datatype FileHeader = FileHeader(filename: string, size: int, contentType: string)

  /** Why an upload failed: the file could not be opened, its type or size
      was refused, or the storage service failed ("failed to upload to
      S3"). */
  datatype UploadError =
    | OpenFailed(reason: string)
    | InvalidImageType
    | SizeLimitExceeded
    | UploadFailed(cause: string)

  const MaxImageSize: int := 5 * 1024 * 1024

  /** The object key of an upload: "services/", the clock in nanoseconds,
      "_", the file name without its extension with every space made "_",
      then the extension. */
  function StorageKey(nanos: int, filename: string): (key: string)
    ensures HasPrefix(key, "services/")
    ensures HasSuffix(key, Ext(filename))
    ensures |key| == |"services/" + FormatInt(nanos) + "_"| + |filename|
    ensures forall k :: |key| - |filename| <= k < |key| - |Ext(filename)| ==> key[k] != ' '
  {
    var ext := Ext(filename);
    var stem := ReplaceChar(filename[..|filename| - |ext|], ' ', '_');
    var key := "services/" + FormatInt(nanos) + "_" + stem + ext;
    assert key == ("services/" + FormatInt(nanos) + "_") + (stem + ext);
    key
  }

  /** The part of a storage key before the file name holds no dot. */
  lemma StampPrefixNoDot(nanos: int)
    ensures forall k :: 0 <= k < |"services/" + FormatInt(nanos) + "_"| ==> ("services/" + FormatInt(nanos) + "_")[k] != '.'
  {
    if nanos < 0 {
      assert FormatInt(nanos) == "-" + FormatNat(-nanos);
    }
  }

  /** A file name without an extension makes a key without one. */
  lemma KeyWithoutExt(nanos: int, filename: string)
    requires Ext(filename) == ""
    ensures NoDotInLastElement(StorageKey(nanos, filename))
  {
    var prefix := "services/" + FormatInt(nanos) + "_";
    var stem := ReplaceChar(filename, ' ', '_');
    var key := StorageKey(nanos, filename);
    assert filename[..|filename|] == filename;
    assert key == prefix + stem;
    StampPrefixNoDot(nanos);
    forall k | 0 <= k < |key| && key[k] == '.'
      ensures exists j :: k < j < |key| && key[j] == '/'
    {
      assert key[k] == stem[k - |prefix|];
      assert filename[k - |prefix|] == '.';
      var j :| k - |prefix| < j < |filename| && filename[j] == '/';
      assert key[j + |prefix|] == '/';
    }
  }

  /** The storage key keeps the file's extension. */
  lemma StorageKeyExt(nanos: int, filename: string)
    ensures Ext(StorageKey(nanos, filename)) == Ext(filename)
  {
    var ext := Ext(filename);
    var key := StorageKey(nanos, filename);
    if ext == "" {
      KeyWithoutExt(nanos, filename);
    } else {
      assert key[|key| - |ext|..] == ext;
    }
    ExtUnique(key, ext);
  }

  /** `uploadImageToS3`: the checks run in order — the file opens, its type
      is an image type, it is at most 5 MiB — before the object is stored
      under its key; the key is returned. */
  function UploadImage(h: FileHeader, openError: Option<string>, nanos: int,
                       upload: (string, string) -> Option<string>): (r: Result<string, UploadError>)
    ensures openError.Some? ==> r == Failure(OpenFailed(openError.value))
    ensures openError.None? && !IsValidImageType(h.filename) ==> r == Failure(InvalidImageType)
    ensures openError.None? && IsValidImageType(h.filename) && h.size > MaxImageSize ==> r == Failure(SizeLimitExceeded)
    ensures r.Success? <==>
      openError.None? && IsValidImageType(h.filename) && h.size <= MaxImageSize &&
      upload(StorageKey(nanos, h.filename), h.contentType).None?
    ensures r.Success? ==> r.value == StorageKey(nanos, h.filename) && IsValidImageType(r.value)
    ensures r.Failure? && r.error.UploadFailed? ==>
      r.error.cause == upload(StorageKey(nanos, h.filename), h.contentType).value
  {
    if openError.Some? then Failure(OpenFailed(openError.value))
    else if !IsValidImageType(h.filename) then Failure(InvalidImageType)
    else if h.size > MaxImageSize then Failure(SizeLimitExceeded)
    else
      var key := StorageKey(nanos, h.filename);
      StorageKeyExt(nanos, h.filename);
      match upload(key, h.contentType)
      case Some(e) => Failure(UploadFailed(e))
      case None => Success(key)
  }

  /** What the cleanup did: the statements of the service delete and the
      storage deletions it asked for.  Failures of either are only logged. */
  datatype Cleanup = Cleanup(db: Db, trace: seq<Stmt>, deletedFiles: seq<seq<string>>)

  /** `cleanupFailedServiceCreation`: always tries to delete the service,
      which is gone afterwards whenever the database accepts the delete;
      asks storage to delete the uploaded keys only when there are some;
      reports nothing back. */
  function CleanupFailedServiceCreation(db: Db, eng: Engine, serviceId: int, providerId: int, uploaded: seq<string>)
    : (c: Cleanup)
    ensures c.trace == [DeleteService(serviceId, providerId)]
    ensures c.db == Services.Delete(db, eng, serviceId, providerId).db
    ensures eng(db, DeleteService(serviceId, providerId)).None? ==>
      forall k :: 0 <= k < |c.db.services| ==> !Services.Matches(c.db.services[k], serviceId, providerId)
    ensures eng(db, DeleteService(serviceId, providerId)).Some? ==> c.db == db
    ensures c.deletedFiles == (if |uploaded| > 0 then [uploaded] else [])
  {
    var d := Services.Delete(db, eng, serviceId, providerId);
    Cleanup(d.db, d.trace, if |uploaded| > 0 then [uploaded] else [])
  }

  /** A multipart form's text values. */
  type Form = map<string, seq<string>>

  /** `getFormValue`: the first value with white space trimmed; `nil` when
      the key is missing or has no value. */
  function GetFormValue(form: Form, key: string): (r: Option<string>)
    ensures key !in form || |form[key]| == 0 ==> r == None
    ensures key in form && |form[key]| > 0 ==> r == Some(TrimSpace(form[key][0]))
  {
    if key in form && |form[key]| > 0 then Some(TrimSpace(form[key][0])) else None
  }

  /** A value read by `getFormValue` neither starts nor ends with white
      space, and it is empty exactly when the first value is all white space. */
  lemma FormValueTrimmed(form: Form, key: string)
    requires key in form && |form[key]| > 0
    ensures var r := GetFormValue(form, key).value;
      && (r != "" ==> !IsSpace(r[0]) && !IsSpace(r[|r| - 1]))
      && (r == "" <==> forall i :: 0 <= i < |form[key][0]| ==> IsSpace(form[key][0][i]))
  {
    var s := form[key][0];
    var i := TrimFuncInfix(s, IsSpace);
    TrimFuncEmptyIffAll(s, IsSpace);
  }

  /** `getFormValueOptional`: the first value untrimmed; `nil` when the key
      is missing, has no value or its first value is empty. */
  function GetFormValueOptional(form: Form, key: string): (r: Option<string>)
    ensures r.None? <==> key !in form || |form[key]| == 0 || form[key][0] == ""
    ensures r.Some? ==> r.value == form[key][0] && r.value != ""
  {
    if key !in form || |form[key]| == 0 || form[key][0] == "" then None else Some(form[key][0])
  }

  /** The two readers differ on white space: a blank first value is an
      empty string to one and kept as is by the other. */
  lemma FormValueTrimming(form: Form, key: string)
    requires key in form && form[key] == [" "]
    ensures GetFormValue(form, key) == Some("")
    ensures GetFormValueOptional(form, key) == Some(" ")
  {
    TrimFuncEmptyIffAll(" ", IsSpace);
  }

  /** `getFormValueRequired`: the first value, or an error naming the key
      that tells a missing key from an empty value. */
  function GetFormValueRequired(form: Form, key: string): (r: Result<string, string>)
    ensures r.Success? <==> key in form && |form[key]| > 0 && form[key][0] != ""
    ensures r.Success? ==> r.value == form[key][0]
    ensures key !in form ==> r == Failure("required field '" + key + "' is missing")
    ensures key in form && !r.Success? ==> r == Failure("field '" + key + "' cannot be empty")
  {
    if key !in form then Failure("required field '" + key + "' is missing")
    else if |form[key]| == 0 || form[key][0] == "" then Failure("field '" + key + "' cannot be empty")
    else Success(form[key][0])
  }

  /** The required reader succeeds exactly when the optional one finds a
      value, and then with the same value. */
  lemma RequiredAgreesWithOptional(form: Form, key: string)
    ensures GetFormValueRequired(form, key).Success? <==> GetFormValueOptional(form, key).Some?
    ensures GetFormValueOptional(form, key).Some? ==>
      GetFormValueRequired(form, key).value == GetFormValueOptional(form, key).value
  {
  }
}

=== FILE: localtime.dfy ===
/** `LocalTime` of `internal/data/localtime.go`: a `time.Time` read and
    written with the Go layout "15:04:05" (24-hour clock, minutes,
    seconds).  Parsing follows Go's `time.Parse` for that layout: the hour
    takes one or two digits and must be below 24, minutes and seconds take
    exactly two digits and must be below 60, a fractional second introduced
    by '.' or ',' is accepted even though the layout has none, and nothing
    may follow.  A parsed time lies on the fixed date `ParseDay`
    (January 1 of year 0). */
module LocalTimes {
  import opened Wrappers
  import opened Strs
  import opened Decimal

  /** A `time.Time` as this code observes it: a calendar day and a time of
      day to the nanosecond.  Time zones are not modelled. */
  datatype Instant = Instant(day: int, hour: nat, minute: nat, second: nat, nanos: nat)

  predicate WellFormed(t: Instant) {
    t.hour < 24 && t.minute < 60 && t.second < 60 && t.nanos < 1_000_000_000
  }

  type LocalTime = t: Instant | WellFormed(t) witness Instant(0, 0, 0, 0, 0)

  /** The date `time.Parse` assigns when the layout has no date elements. */
  const ParseDay: int := 0

  /** The same clock reading as `t` on the date `time.Parse` uses, without
      the fraction of a second: what survives formatting and parsing. */
  function Truncated(t: LocalTime): LocalTime {
    Instant(ParseDay, t.hour, t.minute, t.second, 0)
  }

  /** The instant as a count of nanoseconds from the start of day 0. */
  function Nanos(t: Instant): int {
    (((t.day * 24 + t.hour) * 60 + t.minute) * 60 + t.second) * 1_000_000_000 + t.nanos
  }

  /** `lt.Time.Before(other.Time)`: `a` is a strictly earlier instant,
      compared field by field from the day down to the nanosecond. */
  predicate Before(a: LocalTime, b: LocalTime): (r: bool)
    ensures r <==> Nanos(a) < Nanos(b)
  {
    EarlierIsLexicographic(a, b);
    || a.day < b.day
    || (a.day == b.day && a.hour < b.hour)
    || (a.day == b.day && a.hour == b.hour && a.minute < b.minute)
    || (a.day == b.day && a.hour == b.hour && a.minute == b.minute && a.second < b.second)
    || (a.day == b.day && a.hour == b.hour && a.minute == b.minute && a.second == b.second && a.nanos < b.nanos)
  }

  /** Comparing `q * b + x` with a digit `x` below the base `b` is
      comparing `q` first and then `x`. */
  lemma MixedLess(q1: int, x1: int, q2: int, x2: int, b: int)
    requires b > 0 && 0 <= x1 < b && 0 <= x2 < b
    ensures q1 * b + x1 < q2 * b + x2 <==> q1 < q2 || (q1 == q2 && x1 < x2)
  {
    if q1 < q2 {
      assert (q2 - q1) * b >= b by { MulAtLeast(q2 - q1, b); }
      assert q2 * b - q1 * b == (q2 - q1) * b;
    } else if q2 < q1 {
      assert (q1 - q2) * b >= b by { MulAtLeast(q1 - q2, b); }
      assert q1 * b - q2 * b == (q1 - q2) * b;
    }
  }

  lemma {:induction false} MulAtLeast(k: int, b: int)
    requires k >= 1 && b > 0
    ensures k * b >= b
    decreases k
  {
    if k > 1 {
      MulAtLeast(k - 1, b);
      assert k * b == (k - 1) * b + b;
    }
  }

  /** The field-by-field order of two well-formed instants is the order of
      their nanosecond counts. */
  lemma EarlierIsLexicographic(a: LocalTime, b: LocalTime)
    ensures Nanos(a) < Nanos(b) <==>
      || a.day < b.day
      || (a.day == b.day && a.hour < b.hour)
      || (a.day == b.day && a.hour == b.hour && a.minute < b.minute)
      || (a.day == b.day && a.hour == b.hour && a.minute == b.minute && a.second < b.second)
      || (a.day == b.day && a.hour == b.hour && a.minute == b.minute && a.second == b.second && a.nanos < b.nanos)
  {
    var ha, hb := a.day * 24 + a.hour, b.day * 24 + b.hour;
    var ma, mb := ha * 60 + a.minute, hb * 60 + b.minute;
    var sa, sb := ma * 60 + a.second, mb * 60 + b.second;
    MixedLess(a.day, a.hour, b.day, b.hour, 24);
    MixedLess(ha, a.minute, hb, b.minute, 60);
    MixedLess(ma, a.second, mb, b.second, 60);
    MixedLess(sa, a.nanos, sb, b.nanos, 1_000_000_000);
    assert ha == hb <==> a.day == b.day && a.hour == b.hour by { MixedLess(a.day, a.hour, b.day, b.hour, 24); MixedLess(b.day, b.hour, a.day, a.hour, 24); }
    assert ma == mb <==> ha == hb && a.minute == b.minute by { MixedLess(ha, a.minute, hb, b.minute, 60); MixedLess(hb, b.minute, ha, a.minute, 60); }
    assert sa == sb <==> ma == mb && a.second == b.second by { MixedLess(ma, a.second, mb, b.second, 60); MixedLess(mb, b.second, ma, a.second, 60); }
  }

  /** `Before` is a strict total order: irreflexive, transitive, and any two
      distinct instants are ordered one way. */
  lemma BeforeStrictOrder(a: LocalTime, b: LocalTime, c: LocalTime)
    ensures !Before(a, a)
    ensures Before(a, b) && Before(b, c) ==> Before(a, c)
    ensures Before(a, b) ==> !Before(b, a)
    ensures a != b ==> Before(a, b) || Before(b, a)
  {
  }

  /** Two decimal digits, zero padded, as the layout elements "15", "04", "05" print. */
  function TwoDigits(n: nat): (s: string)
    requires n < 100
    ensures |s| == 2 && IsDigit(s[0]) && IsDigit(s[1])
  {
    [DigitChar(n / 10), DigitChar(n % 10)]
  }

  /** `lt.Format("15:04:05")`: hour, minute and second as two decimal
      digits each, separated by colons; the fraction is dropped. */
  function Format(t: LocalTime): (s: string)
    ensures |s| == 8 && s[2] == ':' && s[5] == ':'
    ensures AllDigits(s[..2]) && AllDigits(s[3..5]) && AllDigits(s[6..])
    ensures DigitsValue(s[..2]) == t.hour && DigitsValue(s[3..5]) == t.minute && DigitsValue(s[6..]) == t.second
  {
    TwoDigitsValue(t.hour);
    TwoDigitsValue(t.minute);
    TwoDigitsValue(t.second);
    var s := TwoDigits(t.hour) + ":" + TwoDigits(t.minute) + ":" + TwoDigits(t.second);
    assert s[..2] == TwoDigits(t.hour) && s[3..5] == TwoDigits(t.minute) && s[6..] == TwoDigits(t.second);
    s
  }

  /** The number of leading decimal digits of `s`. */
  function LeadingDigits(s: string): (n: nat)
    ensures n <= |s|
    ensures AllDigits(s[..n])
    ensures n < |s| ==> !IsDigit(s[n])
  {
    if |s| == 0 || !IsDigit(s[0]) then 0
    else
      var n := LeadingDigits(s[1..]);
      assert s[..n + 1] == [s[0]] + s[1..][..n];
      n + 1
  }

  function Zeros(n: nat): (s: string)
    ensures |s| == n && AllDigits(s)
  {
    if n == 0 then "" else "0" + Zeros(n - 1)
  }

  function Pow10(n: nat): (p: nat)
    ensures p >= 1
  {
    if n == 0 then 1 else 10 * Pow10(n - 1)
  }

  lemma {:induction false} DigitsValueBound(s: string)
    requires AllDigits(s)
    ensures DigitsValue(s) < Pow10(|s|)
  {
    if |s| > 0 {
      DigitsValueBound(s[..|s| - 1]);
    }
  }

  /** The nanoseconds of a fraction: its first nine digits, padded on the
      right with zeros (later digits are dropped). */
  function FractionNanos(digits: string): (ns: nat)
    requires AllDigits(digits)
    ensures ns < 1_000_000_000
  {
    var k := if |digits| < 9 then |digits| else 9;
    var padded := digits[..k] + Zeros(9 - k);
    DigitsValueBound(padded);
    assert Pow10(9) == 1_000_000_000;
    DigitsValue(padded)
  }

  /** What may follow the seconds: nothing, or a fraction. */
  function ParseFraction(rest: string): Option<nat> {
    if |rest| == 0 then Some(0)
    else if |rest| >= 2 && (rest[0] == '.' || rest[0] == ',') && IsDigit(rest[1]) then
      var n := LeadingDigits(rest[1..]);
      assert rest[1..1 + n] == rest[1..][..n];
      if 1 + n == |rest| then Some(FractionNanos(rest[1..1 + n])) else None
    else None
  }

  /** `time.Parse("15:04:05", s)`. */
  function Parse(s: string): (r: Option<LocalTime>)
    ensures r.Some? ==> r.value.day == ParseDay
  {
    if |s| == 0 || !IsDigit(s[0]) then None
    else
      var h := if |s| >= 2 && IsDigit(s[1]) then 2 else 1;
      var hour := DigitsValue(s[..h]);
      var m := s[h..];
      if !(|m| >= 3 && m[0] == ':' && IsDigit(m[1]) && IsDigit(m[2])) then None
      else
        var minute := DigitsValue(m[1..3]);
        var sec := m[3..];
        if !(|sec| >= 3 && sec[0] == ':' && IsDigit(sec[1]) && IsDigit(sec[2])) then None
        else
          var second := DigitsValue(sec[1..3]);
          var frac := ParseFraction(sec[3..]);
          if hour >= 24 || minute >= 60 || second >= 60 || frac.None? then None
          else Some(Instant(ParseDay, hour, minute, second, frac.value))
  }

  lemma DigitsValuePair(s: string)
    requires |s| == 2 && AllDigits(s)
    ensures DigitsValue(s) == DigitValue(s[0]) * 10 + DigitValue(s[1])
  {
    var one := s[..1];
    assert one[..0] == [];
    assert DigitsValue(one) == DigitsValue(one[..0]) * 10 + DigitValue(one[0]);
    assert DigitsValue(s) == DigitsValue(one) * 10 + DigitValue(s[1]);
  }

  lemma TwoDigitsValue(n: nat)
    requires n < 100
    ensures DigitsValue(TwoDigits(n)) == n
  {
    var s := TwoDigits(n);
    DigitsValuePair(s);
    assert DigitValue(s[0]) == n / 10;
    assert DigitValue(s[1]) == n % 10;
  }

  /** Round trip: parsing the formatted time gives back the same time of
      day, on the parse date and without the fraction of a second. */
  lemma ParseFormat(t: LocalTime)
    ensures Parse(Format(t)) == Some(Truncated(t))
  {
    var s := Format(t);
    TwoDigitsValue(t.hour);
    TwoDigitsValue(t.minute);
    TwoDigitsValue(t.second);
    assert s[..2] == TwoDigits(t.hour);
    assert s[2..][1..3] == TwoDigits(t.minute);
    assert s[2..][3..][1..3] == TwoDigits(t.second);
    assert s[2..][3..][3..] == "";
  }

  lemma TwoDigitsOfValue(s: string)
    requires |s| == 2 && AllDigits(s)
    ensures DigitsValue(s) < 100
    ensures TwoDigits(DigitsValue(s)) == s
  {
    DigitsValuePair(s);
    var n := DigitsValue(s);
    assert n / 10 == DigitValue(s[0]) && n % 10 == DigitValue(s[1]);
    assert DigitChar(DigitValue(s[0])) == s[0];
    assert DigitChar(DigitValue(s[1])) == s[1];
  }

  /** An eight-character input that parses is in canonical form, so
      formatting the parsed time reproduces it exactly. */
  lemma FormatParse(s: string)
    requires |s| == 8
    requires Parse(s).Some?
    ensures Format(Parse(s).value) == s
  {
    var t := Parse(s).value;
    assert IsDigit(s[1]);
    TwoDigitsOfValue(s[..2]);
    TwoDigitsOfValue(s[2..][1..3]);
    TwoDigitsOfValue(s[2..][3..][1..3]);
    assert s == s[..2] + [s[2]] + s[2..][1..3] + [s[5]] + s[2..][3..][1..3];
  }

  /** The error-returning methods keep the receiver's previous value when
      they fail. */
  datatype Decoded = Decoded(value: LocalTime, err: Option<string>)

  /** `(*LocalTime).UnmarshalJSON`: strips every leading and trailing '"'
      and parses the rest; on failure the receiver `lt` is unchanged. */
  function UnmarshalJSON(lt: LocalTime, b: string): (r: Decoded)
    ensures r.err.Some? ==> r.value == lt
    ensures r.err.None? <==> Parse(TrimChar(b, '"')).Some?
    ensures r.err.None? ==> r.value.day == ParseDay
    ensures r.err.None? ==> r.value == Parse(TrimChar(b, '"')).value
  {
    match Parse(TrimChar(b, '"'))
    case None => Decoded(lt, Some("cannot parse " + b + " as \"15:04:05\""))
    case Some(t) => Decoded(t, None)
  }

  /** `LocalTime.MarshalJSON`: the formatted time between double quotes. */
  function MarshalJSON(t: LocalTime): (r: string)
    ensures |r| == 10 && r[0] == '"' && r[9] == '"'
    ensures r[3] == ':' && r[6] == ':'
    ensures forall i :: i in {1, 2, 4, 5, 7, 8} ==> IsDigit(r[i])
  {
    "\"" + Format(t) + "\""
  }

  /** Round trip through JSON: unmarshalling the marshalled time succeeds
      and restores its time of day to the second. */
  lemma UnmarshalMarshal(lt: LocalTime, t: LocalTime)
    ensures UnmarshalJSON(lt, MarshalJSON(t)) == Decoded(Truncated(t), None)
  {
    var b := MarshalJSON(t);
    var f := (x: char) => x == '"';
    var l := TrimLeftFunc(b, f);
    assert TrimLeftFunc(b[1..], f) == b[1..];
    assert l == b[1..];
    assert TrimRightFunc(l[..|l| - 1], f) == l[..|l| - 1];
    assert l[..|l| - 1] == Format(t);
    ParseFormat(t);
  }

  /** `(*LocalTime).Value`: a `nil` receiver is SQL NULL, otherwise the text. */
  function Value(lt: Option<LocalTime>): (r: Option<string>)
    ensures r.None? <==> lt.None?
    ensures r.Some? ==> |r.value| == 8 && Parse(r.value) == Some(Truncated(lt.value))
  {
    match lt
    case None => None
    case Some(t) =>
      ParseFormat(t);
      Some(Format(t))
  }

  /** The values a database driver hands to `Scan`. */
  datatype ScanSource = SqlNull | SqlTime(t: LocalTime) | SqlBytes(b: string) | SqlText(s: string) | SqlOther

  /** `(*LocalTime).Scan`: NULL is a no-op success, a `time.Time` is taken
      as is, bytes and strings are parsed with the layout, anything else is
      an error; a failure leaves `lt` unchanged. */
  function Scan(lt: LocalTime, src: ScanSource): (r: Decoded)
    ensures r.err.Some? ==> r.value == lt
    ensures src.SqlNull? ==> r == Decoded(lt, None)
    ensures src.SqlTime? ==> r == Decoded(src.t, None)
    ensures src.SqlOther? ==> r.err.Some?
    ensures src.SqlText? ==> (r.err.None? <==> Parse(src.s).Some?)
    ensures src.SqlBytes? ==> (r.err.None? <==> Parse(src.b).Some?)
    ensures src.SqlText? && r.err.None? ==> r.value == Parse(src.s).value
    ensures src.SqlBytes? && r.err.None? ==> r.value == Parse(src.b).value
  {
    match src
    case SqlNull => Decoded(lt, None)
    case SqlTime(t) => Decoded(t, None)
    case SqlBytes(b) => ScanText(lt, b)
    case SqlText(s) => ScanText(lt, s)
    case SqlOther => Decoded(lt, Some("cannot scan type into LocalTime"))
  }

  function ScanText(lt: LocalTime, s: string): Decoded {
    match Parse(s)
    case None => Decoded(lt, Some("cannot parse " + s + " as \"15:04:05\""))
    case Some(t) => Decoded(t, None)
  }

  /** Bytes and strings are scanned with the same layout: the driver's
      choice of representation never changes the outcome. */
  lemma ScanBytesAsText(lt: LocalTime, x: string)
    ensures Scan(lt, SqlBytes(x)) == Scan(lt, SqlText(x))
  {
  }

  lemma AppendZero(d: string)
    requires AllDigits(d)
    ensures AllDigits(d + "0") && DigitsValue(d + "0") == DigitsValue(d) * 10
  {
    assert (d + "0")[..|d|] == d;
  }

  lemma {:induction false} ZerosSnoc(n: nat)
    ensures Zeros(n) + "0" == Zeros(n + 1)
  {
    if n > 0 {
      ZerosSnoc(n - 1);
    }
  }

  /** ".5" is half a second. */
  lemma HalfSecond()
    ensures ParseFraction(".5") == Some(500_000_000)
  {
    assert ".5"[1..] == "5" && ".5"[1..2] == "5" && "5"[..1] == "5";
    assert LeadingDigits("5") == 1;
    var d := "5";
    var v := 5;
    assert DigitsValue(d) == v by { assert d[..0] == ""; }
    for k := 0 to 8
      invariant AllDigits(d) && d == "5" + Zeros(k) && DigitsValue(d) == v
      invariant v == 5 * Pow10(k)
    {
      AppendZero(d);
      ZerosSnoc(k);
      d, v := d + "0", v * 10;
    }
    assert Pow10(8) == 100_000_000;
    assert "5"[..1] + Zeros(9 - 1) == d;
    assert FractionNanos("5") == 500_000_000;
  }

  /** A JSON string without inner quotes loses exactly its two quotes. */
  lemma TrimQuotes(s: string)
    requires |s| > 0 && s[0] != '"' && s[|s| - 1] != '"'
    ensures TrimChar("\"" + s + "\"", '"') == s
  {
    var b := "\"" + s + "\"";
    var f := (x: char) => x == '"';
    assert TrimLeftFunc(b[1..], f) == b[1..];
    assert TrimLeftFunc(b, f) == b[1..];
    assert b[1..][..|b[1..]| - 1] == s;
    assert TrimRightFunc(s, f) == s;
  }

  /** A fraction of a second in the input survives unmarshalling: only
      formatting drops it. */
  lemma UnmarshalKeepsFraction(lt: LocalTime)
    ensures UnmarshalJSON(lt, "\"09:00:00.5\"") == Decoded(Instant(ParseDay, 9, 0, 0, 500_000_000), None)
  {
    var s := "09:00:00.5";
    assert "\"09:00:00.5\"" == "\"" + s + "\"";
    TrimQuotes(s);
    ParseHalfPastNine();
  }

  lemma ParseHalfPastNine()
    ensures Parse("09:00:00.5") == Some(Instant(ParseDay, 9, 0, 0, 500_000_000))
  {
    var s := "09:00:00.5";
    DigitsValuePair("09");
    DigitsValuePair("00");
    HalfSecond();
    assert IsDigit(s[0]) && IsDigit(s[1]);
    assert s[..2] == "09" && s[2..] == ":00:00.5";
    assert s[2..][1..3] == "00" && s[2..][3..] == ":00.5";
    assert s[2..][3..][1..3] == "00" && s[2..][3..][3..] == ".5";
  }

  /** Writing a time to the database and scanning the text back restores
      its time of day. */
  lemma ScanValue(lt: LocalTime, t: LocalTime)
    ensures Scan(lt, SqlText(Value(Some(t)).value)) == Decoded(Truncated(t), None)
  {
    ParseFormat(t);
  }
}

=== FILE: middleware.dfy ===
/** The request middleware of the API (`cmd/api/middleware.go`): reading
    the bearer token of the `Authorization` header, authenticating it
    against the stored tokens, and the role gate in front of a handler. */
module Middleware {
  import opened Wrappers
  import opened Strs
  import opened Validation
  import opened Store
  import Tokens
  import Base32
  import Users

  const Space: char := ' '
  const BearerScheme: string := "Bearer"
  const InsufficientPermissions: string := "insufficient permissions"

  /** What a middleware does with a request: pass it on to the next handler
      with the user it carries, or answer it. */
  datatype Verdict =
    | Next(user: Users.User)
    | InvalidToken
    | ServerError
    | Forbidden(message: string)

  /** The header that presents `token` as a bearer token. */
  function BearerHeader(token: string): string {
    BearerScheme + [Space] + token
  }

  /** The token of an `Authorization` header: the header is split on single
      spaces, and only exactly two pieces of which the first is `Bearer`
      are accepted; the token is the second piece. */
  function BearerToken(header: string): (r: Option<string>)
    ensures r.Some? <==> |Split(header, Space)| == 2 && Split(header, Space)[0] == BearerScheme
    ensures r.Some? ==> header == BearerHeader(r.value) && Space !in r.value
  {
    var parts := Split(header, Space);
    if |parts| != 2 || parts[0] != BearerScheme then None
    else
      JoinSplit(header, Space);
      assert Join(parts, Space) == parts[0] + [Space] + parts[1];
      Some(parts[1])
  }

  /** Different tokens make different headers. */
  lemma BearerHeaderInjective(a: string, b: string)
    ensures BearerHeader(a) == BearerHeader(b) ==> a == b
  {
    var n := |BearerScheme| + 1;
    assert BearerHeader(a)[n..] == a && BearerHeader(b)[n..] == b;
  }

  /** A header is accepted with token `t` exactly when it is `Bearer`, one
      space, and `t` with no space in it. */
  lemma BearerTokenIff(header: string, t: string)
    ensures BearerToken(header) == Some(t) <==> header == BearerHeader(t) && Space !in t
  {
    if header == BearerHeader(t) && Space !in t {
      assert Space !in BearerScheme;
      SplitJoin([BearerScheme, t], Space);
      assert Join([BearerScheme, t], Space) == header;
    }
  }

  /** The header made of `t` is accepted exactly when `t` has no space,
      and then it gives back `t`. */
  lemma BearerHeaderAccepted(t: string)
    ensures BearerToken(BearerHeader(t)) == (if Space in t then None else Some(t))
  {
    BearerTokenIff(BearerHeader(t), t);
    if BearerToken(BearerHeader(t)).Some? {
      BearerHeaderInjective(BearerToken(BearerHeader(t)).value, t);
    }
  }

  /** An empty header, or one with a second space, is refused. */
  lemma MalformedHeadersRefused(t: string)
    ensures BearerToken("") == None
    ensures BearerToken(BearerHeader([Space] + t)) == None
    ensures BearerToken(BearerHeader(t + [Space])) == None
  {
    assert Split("", Space) == [""];
    BearerHeaderAccepted([Space] + t);
    BearerHeaderAccepted(t + [Space]);
    assert (t + [Space])[|t|] == Space;
  }

  /** What `authenticate` decides, with the statements it sends. */
  datatype Authenticated = Authenticated(trace: seq<Stmt>, verdict: Verdict)

  /** Whether a bearer token has the form of an authentication token. */
  predicate WellFormed(token: string) {
    Valid(Tokens.ValidateTokenPlaintext(New(), token))
  }

  /** `authenticate`: a header that is not a bearer token, or whose token
      does not have the form of one, is refused without a lookup; otherwise
      the user holding the token is looked up, a missing one refusing the
      token and any other error answered as a server error. */
  function Authenticate(db: Db, eng: Engine, header: string, sha: Tokens.Hasher, now: int): (a: Authenticated)
    ensures BearerToken(header).None? ==> a == Authenticated([], InvalidToken)
    ensures BearerToken(header).Some? && !WellFormed(BearerToken(header).value) ==> a == Authenticated([], InvalidToken)
    ensures a.trace != [] <==> BearerToken(header).Some? && WellFormed(BearerToken(header).value)
    ensures a.trace != [] ==>
      var u := Users.GetForToken(db, eng, Tokens.ScopeAuthentication, BearerToken(header).value, sha, now);
      && a.trace == u.trace
      && (u.result.Success? ==> a.verdict == Next(u.result.value))
      && (u.result.Failure? ==> a.verdict == (if u.result.error == RecordNotFound then InvalidToken else ServerError))
  {
    match BearerToken(header)
    case None => Authenticated([], InvalidToken)
    case Some(token) =>
      if !WellFormed(token) then Authenticated([], InvalidToken)
      else
        var u := Users.GetForToken(db, eng, Tokens.ScopeAuthentication, token, sha, now);
        match u.result
        case Success(user) => Authenticated(u.trace, Next(user))
        case Failure(e) => Authenticated(u.trace, if e == RecordNotFound then InvalidToken else ServerError)
  }

  /** The form check is the length of an authentication token. */
  lemma WellFormedIff(token: string)
    ensures WellFormed(token) <==> |token| == 26
  {
    if |token| != 26 {
      assert "token" in Tokens.ValidateTokenPlaintext(New(), token).errors;
    }
  }

  /** A request passes exactly when its header is `Bearer` and a space
      before a 26-character token with no space, and a user holds that
      token in the authentication scope. */
  lemma AuthenticatesIff(db: Db, eng: Engine, t: string, sha: Tokens.Hasher, now: int)
    ensures Authenticate(db, eng, BearerHeader(t), sha, now).verdict.Next? <==>
      && Space !in t && |t| == 26
      && Users.GetForToken(db, eng, Tokens.ScopeAuthentication, t, sha, now).result.Success?
  {
    BearerHeaderAccepted(t);
    WellFormedIff(t);
  }

  /** Round trip: the plaintext of a freshly generated authentication token,
      sent as a bearer token, passes the header and form checks, so the
      verdict is the lookup's. */
  lemma GeneratedTokenPresented(userId: int, ttl: int, now: int, random: Tokens.RandomSource, sha: Tokens.Hasher,
                                db: Db, eng: Engine, later: int)
    requires Tokens.FillsBuffer(random)
    requires Tokens.GenerateToken(userId, ttl, Tokens.ScopeAuthentication, now, random, sha).Success?
    ensures var t := Tokens.GenerateToken(userId, ttl, Tokens.ScopeAuthentication, now, random, sha).value.plaintext;
      && BearerToken(BearerHeader(t)) == Some(t)
      && WellFormed(t)
      && Authenticate(db, eng, BearerHeader(t), sha, later).trace ==
           Users.GetForToken(db, eng, Tokens.ScopeAuthentication, t, sha, later).trace
  {
    var t := Tokens.GenerateToken(userId, ttl, Tokens.ScopeAuthentication, now, random, sha).value.plaintext;
    assert Space !in t by {
      forall i | 0 <= i < |t| ensures t[i] != Space {
        assert Base32.IsBase32Char(t[i]);
      }
    }
    BearerTokenIff(BearerHeader(t), t);
    WellFormedIff(t);
  }

  /** `requireRole`: the next handler runs exactly when the user has the
      role; anyone else is refused with `403` and the same message. */
  function RequireRole(user: Users.User, role: string): (r: Verdict)
    ensures r.Next? <==> user.role == role
    ensures r.Next? ==> r.user == user
    ensures !r.Next? ==> r == Forbidden(InsufficientPermissions)
  {
    if user.role != role then Forbidden(InsufficientPermissions) else Next(user)
  }
}

=== FILE: provider_images.dfy ===
/** Gallery images of a provider (`internal/data/provider_images.go`): one
    insert, a batch insert in one transaction, and the listing, newest
    first.  The id comes from the store's counter, and `uploaded_at`, which
    the statements only read back, is modelled as the transaction's clock
    `db.now`: one instant for every statement of a transaction. */
module ProviderImages {
  import opened Wrappers
  import opened Store
  import Sorting

  type ProviderImage = ProviderImageRow

  function ImageStmt(image: ProviderImage): Stmt {
    InsertProviderImage(image.providerId, image.imageUrl)
  }

  /** `ProviderImageModel.Insert`: the image comes back with the id and
      time the database gave it; an error is returned as is. */
  function Insert(db: Db, eng: Engine, image: ProviderImage): (o: Outcome<ProviderImage>)
    ensures o.trace == [ImageStmt(image)]
    ensures o.result.Success? <==> eng(db, ImageStmt(image)).None?
    ensures o.result.Success? ==>
      && o.result.value == image.(id := db.nextId, uploadedAt := db.now)
      && o.db == db.(providerImages := db.providerImages + [o.result.value], nextId := db.nextId + 1)
    ensures o.result.Failure? ==> o.db == db && o.result.error == DbFailure(eng(db, ImageStmt(image)).value)
  {
    var st := ImageStmt(image);
    var (db', err) := Single(db, eng, st);
    if err.None? then Outcome(db', [st], Success(image.(id := db.nextId, uploadedAt := db.now)))
    else Outcome(db, [st], Failure(DbFailure(err.value)))
  }

  /** The inserts of a batch, in list order. */
  function ImageStmts(images: seq<ProviderImage>): (s: seq<Stmt>)
    ensures |s| == |images|
  {
    seq(|images|, k requires 0 <= k < |images| => ImageStmt(images[k]))
  }

  /** The images of a batch as stored: consecutive ids from `firstId` in
      list order, all stamped `at`. */
  function Stored(images: seq<ProviderImage>, firstId: int, at: int): (s: seq<ProviderImage>)
    ensures |s| == |images|
  {
    seq(|images|, k requires 0 <= k < |images| => images[k].(id := firstId + k, uploadedAt := at))
  }

  /** Applying the inserts of a batch appends its stored images and
      advances the id counter by the batch size. */
  lemma {:induction false} ApplyImageStmts(db: Db, images: seq<ProviderImage>)
    ensures ApplyAll(db, ImageStmts(images)) ==
      db.(providerImages := db.providerImages + Stored(images, db.nextId, db.now), nextId := db.nextId + |images|)
    decreases |images|
  {
    if |images| > 0 {
      var n := |images| - 1;
      var init := images[..n];
      var stmts := ImageStmts(images);
      assert stmts[..n] == ImageStmts(init);
      ApplyImageStmts(db, init);
      var mid := ApplyAll(db, stmts[..n]);
      assert mid.providerImages == db.providerImages + Stored(init, db.nextId, db.now);
      assert mid.nextId == db.nextId + n && mid.now == db.now;
      var row := images[n].(id := db.nextId + n, uploadedAt := db.now);
      assert Apply(mid, stmts[n]).providerImages == mid.providerImages + [row];
      assert Stored(images, db.nextId, db.now) == Stored(init, db.nextId, db.now) + [row];
    } else {
      assert Stored(images, db.nextId, db.now) == [];
    }
  }

  /** The body of the batch transaction: the prepared statement, then one
      insert per image. */
  function BatchBody(images: seq<ProviderImage>): seq<Stmt> {
    [Prepare] + ImageStmts(images)
  }

  lemma ApplyBatchBody(db: Db, images: seq<ProviderImage>)
    ensures ApplyAll(db, BatchBody(images)) ==
      db.(providerImages := db.providerImages + Stored(images, db.nextId, db.now), nextId := db.nextId + |images|)
  {
    ApplyAllAppend(db, [Prepare], ImageStmts(images));
    assert ApplyAll(db, [Prepare]) == db by {
      assert [Prepare][..0] == [];
    }
    ApplyImageStmts(db, images);
  }

  /** The error a batch reports: whichever step of the transaction failed. */
  function TxError(r: TxResult): DbError
    requires !r.Committed?
  {
    match r
    case BeginFailed(e) => e
    case StmtFailed(_, e) => e
    case CommitFailed(e) => e
  }

  /** `BatchInsert`: an empty list touches nothing.  Otherwise every image
      is inserted in one transaction, in list order; the images come back
      with consecutive ids and one upload time only when the commit goes
      through, and any failure, the commit's included, leaves the store as
      it was and is returned. */
  function BatchInsert(db: Db, eng: Engine, images: seq<ProviderImage>): (o: Outcome<seq<ProviderImage>>)
    ensures |images| == 0 ==> o == Outcome(db, [], Success([]))
    ensures |images| > 0 ==>
      var t := Transaction(db, eng, BatchBody(images));
      && o.trace == t.trace
      && (o.result.Success? <==> t.result.Committed?)
      && (o.result.Failure? ==> o.db == db && o.result.error == DbFailure(TxError(t.result)))
    ensures o.result.Success? ==>
      && o.result.value == Stored(images, db.nextId, db.now)
      && o.db == db.(providerImages := db.providerImages + o.result.value, nextId := db.nextId + |images|)
  {
    if |images| == 0 then Outcome(db, [], Success([]))
    else
      var t := Transaction(db, eng, BatchBody(images));
      if t.result.Committed? then
        ApplyBatchBody(db, images);
        Outcome(t.db, t.trace, Success(Stored(images, db.nextId, db.now)))
      else
        Outcome(db, t.trace, Failure(DbFailure(TxError(t.result))))
  }

  /** The images of a committed batch are stored in list order: image `k`
      gets the `k`-th id after the counter, and all share the upload time. */
  lemma BatchOrder(db: Db, eng: Engine, images: seq<ProviderImage>, k: nat)
    requires BatchInsert(db, eng, images).result.Success? && k < |images|
    ensures var stored := BatchInsert(db, eng, images).db.providerImages;
      && stored[|db.providerImages| + k].id == db.nextId + k
      && stored[|db.providerImages| + k].imageUrl == images[k].imageUrl
      && stored[|db.providerImages| + k].providerId == images[k].providerId
      && stored[|db.providerImages| + k].uploadedAt == db.now
  {
  }

  function OfProvider(providerId: int): ProviderImage -> bool {
    (image: ProviderImage) => image.providerId == providerId
  }

  /** `ORDER BY uploaded_at DESC`. */
  function Newest(): (ProviderImage, ProviderImage) -> bool {
    (a: ProviderImage, b: ProviderImage) => a.uploadedAt >= b.uploadedAt
  }

  /** `GetAllForProvider`: the provider's images, newest first.  The list
      is made with `make`, so it is never `nil`, even when empty. */
  function GetAllForProvider(db: Db, eng: Engine, providerId: int): (o: Outcome<GoSlice<ProviderImage>>)
    ensures o.db == db && o.trace == [SelectProviderImages(providerId)]
    ensures o.result.Failure? <==> eng(db, SelectProviderImages(providerId)).Some?
    ensures o.result.Failure? ==> o.result.error == DbFailure(eng(db, SelectProviderImages(providerId)).value)
    ensures o.result.Success? ==> o.result.value.Items?
    ensures o.result.Success? ==>
      Sorting.IsQueryResult(o.result.value.elems, db.providerImages, OfProvider(providerId), Newest())
    ensures o.result.Success? ==> forall i, j :: 0 <= i < j < |o.result.value.elems| ==>
      o.result.value.elems[i].uploadedAt >= o.result.value.elems[j].uploadedAt
    ensures o.result.Success? ==>
      forall x :: x in o.result.value.elems <==> x in db.providerImages && x.providerId == providerId
  {
    var st := SelectProviderImages(providerId);
    match eng(db, st)
    case Some(e) => Outcome(db, [st], Failure(DbFailure(e)))
    case None =>
      var rows := Sorting.Query(db.providerImages, OfProvider(providerId), Newest());
      assert forall i, j :: 0 <= i < j < |rows| ==> Newest()(rows[i], rows[j]);
      Outcome(db, [st], Success(Items(rows)))
  }
}

=== FILE: providers.dfy ===
/** Validation of a provider profile (`internal/data/providers.go`): a
    name, an address and a position whose coordinates are present and in
    range.  Coordinates are `*float64` in the source; only comparisons are
    made, so they are modelled as optional reals. */
module Providers {
  import opened Wrappers
  import opened Validation

  datatype Provider = Provider(
    id: int, name: string, address: string, latitude: Option<real>, longitude: Option<real>)

  predicate InRange(x: Option<real>, bound: real) {
    x.Some? && -bound <= x.value <= bound
  }

  /** The presence check of a coordinate, then its range check when present. */
  function CheckCoordinate(v: Validator, x: Option<real>, bound: real, key: string, rangeMsg: string): (r: Validator)
    ensures Extends(v, r)
    ensures r.errors.Keys == v.errors.Keys + (if InRange(x, bound) then {} else {key})
    ensures key !in v.errors && !InRange(x, bound) ==>
      r.errors[key] == (if x.None? then "must be provided" else rangeMsg)
  {
    var v1 := Check(v, x.Some?, key, "must be provided");
    if x.Some? then Check(v1, -bound <= x.value <= bound, key, rangeMsg) else v1
  }

  ghost function NameErrors(p: Provider): set<string> {
    (if p.name != "" then {} else {"name"}) + (if p.address != "" then {} else {"address"})
  }

  ghost function PositionErrors(p: Provider): set<string> {
    (if InRange(p.latitude, 90.0) then {} else {"latitude"}) + (if InRange(p.longitude, 180.0) then {} else {"longitude"})
  }

  function CheckNames(v: Validator, p: Provider): (r: Validator)
    ensures Extends(v, r)
    ensures r.errors.Keys == v.errors.Keys + NameErrors(p)
    ensures "name" !in v.errors && p.name == "" ==> r.errors["name"] == "must be provided"
    ensures "address" !in v.errors && p.address == "" ==> r.errors["address"] == "must be provided"
  {
    var v1 := Check(v, p.name != "", "name", "must be provided");
    var r := Check(v1, p.address != "", "address", "must be provided");
    ExtendsTransitive(v, v1, r);
    r
  }

  function CheckPosition(v: Validator, p: Provider): (r: Validator)
    ensures Extends(v, r)
    ensures r.errors.Keys == v.errors.Keys + PositionErrors(p)
    ensures "latitude" !in v.errors && !InRange(p.latitude, 90.0) ==>
      r.errors["latitude"] == (if p.latitude.None? then "must be provided" else "must be between -90 and 90")
    ensures "longitude" !in v.errors && !InRange(p.longitude, 180.0) ==>
      r.errors["longitude"] == (if p.longitude.None? then "must be provided" else "must be between -180 and 180")
  {
    var v1 := CheckCoordinate(v, p.latitude, 90.0, "latitude", "must be between -90 and 90");
    var r := CheckCoordinate(v1, p.longitude, 180.0, "longitude", "must be between -180 and 180");
    ExtendsTransitive(v, v1, r);
    r
  }

  /** `ValidateProvider`. */
  function ValidateProvider(v: Validator, p: Provider): (r: Validator)
    ensures Extends(v, r)
    ensures r.errors.Keys == v.errors.Keys + NameErrors(p) + PositionErrors(p)
  {
    var v1 := CheckNames(v, p);
    var r := CheckPosition(v1, p);
    ExtendsTransitive(v, v1, r);
    r
  }

  /** A provider passes validation exactly when the name and address are
      non-empty and both coordinates are present and in range. */
  lemma ValidProviderIff(p: Provider)
    ensures Valid(ValidateProvider(New(), p)) <==>
      && p.name != "" && p.address != ""
      && p.latitude.Some? && -90.0 <= p.latitude.value <= 90.0
      && p.longitude.Some? && -180.0 <= p.longitude.value <= 180.0
  {
    var errs := NameErrors(p) + PositionErrors(p);
    assert Valid(ValidateProvider(New(), p)) <==> errs == {};
    if p.name == "" { assert "name" in errs; }
    else if p.address == "" { assert "address" in errs; }
    else if !InRange(p.latitude, 90.0) { assert "latitude" in errs; }
    else if !InRange(p.longitude, 180.0) { assert "longitude" in errs; }
  }

  /** The messages on a fresh validator: a missing coordinate is reported
      as missing only, without a range error; a present one out of range
      gets the range message. */
  lemma ProviderMessages(p: Provider)
    ensures var r := ValidateProvider(New(), p);
      && (p.name == "" ==> r.errors["name"] == "must be provided")
      && (p.address == "" ==> r.errors["address"] == "must be provided")
      && (p.latitude.None? ==> r.errors["latitude"] == "must be provided")
      && (p.latitude.Some? && !(-90.0 <= p.latitude.value <= 90.0) ==> r.errors["latitude"] == "must be between -90 and 90")
      && (p.longitude.None? ==> r.errors["longitude"] == "must be provided")
      && (p.longitude.Some? && !(-180.0 <= p.longitude.value <= 180.0) ==>
            r.errors["longitude"] == "must be between -180 and 180")
  {
    var v1 := CheckNames(New(), p);
    assert "latitude" !in v1.errors && "longitude" !in v1.errors;
  }
}

=== FILE: regexp.dfy ===
/** A small regular-expression language: enough for the anchored patterns
    of the validator, read as Go's `regexp` reads `^...$`, a match of the
    whole text. */
module Regexp {
  /** An inclusive character range of a class, `a-z`. */
  datatype Range = Range(lo: char, hi: char)

  datatype Re =
    | Empty                          // the empty text only
    | Class(ranges: seq<Range>)      // `[...]`: one character of some range
    | Concat(left: Re, right: Re)    // `left` then `right`
    | Plus(body: Re)                 // `body+`

  predicate InClass(ranges: seq<Range>, c: char) {
    exists i :: 0 <= i < |ranges| && ranges[i].lo <= c <= ranges[i].hi
  }

  /** `re{n}`: exactly `n` copies of `re`. */
  function Times(re: Re, n: nat): Re {
    if n == 0 then Empty else Concat(re, Times(re, n - 1))
  }

  /** The whole of `s` is in the language of `re`. */
  ghost predicate Match(re: Re, s: string)
    decreases re, |s|
  {
    match re
    case Empty => |s| == 0
    case Class(rs) => |s| == 1 && InClass(rs, s[0])
    case Concat(a, b) => exists i :: 0 <= i <= |s| && Match(a, s[..i]) && Match(b, s[i..])
    case Plus(a) => Match(a, s) || exists i :: 0 < i < |s| && Match(a, s[..i]) && Match(Plus(a), s[i..])
  }

  predicate AllInClass(rs: seq<Range>, s: string) {
    forall k :: 0 <= k < |s| ==> InClass(rs, s[k])
  }

  /** `[...]{n}` matches exactly the texts of `n` characters of the class. */
  lemma {:induction false} TimesClass(rs: seq<Range>, n: nat, s: string)
    ensures Match(Times(Class(rs), n), s) <==> |s| == n && AllInClass(rs, s)
  {
    if n > 0 {
      var rest := Times(Class(rs), n - 1);
      if |s| > 0 {
        TimesClass(rs, n - 1, s[1..]);
        if Match(Times(Class(rs), n), s) {
          var i :| 0 <= i <= |s| && Match(Class(rs), s[..i]) && Match(rest, s[i..]);
          assert i == 1;
          assert forall k :: 1 <= k < |s| ==> s[k] == s[1..][k - 1];
        }
        if |s| == n && AllInClass(rs, s) {
          assert Match(Class(rs), s[..1]);
          assert AllInClass(rs, s[1..]) by {
            forall k | 0 <= k < |s[1..]| ensures InClass(rs, s[1..][k]) {
              assert s[1..][k] == s[k + 1];
            }
          }
          assert Match(rest, s[1..]);
        }
      }
    }
  }

  /** `[...]+` matches exactly the non-empty texts of characters of the class. */
  lemma {:induction false} PlusClass(rs: seq<Range>, s: string)
    ensures Match(Plus(Class(rs)), s) <==> |s| >= 1 && AllInClass(rs, s)
    decreases |s|
  {
    if |s| > 1 {
      PlusClass(rs, s[1..]);
      if Match(Plus(Class(rs)), s) {
        assert !Match(Class(rs), s);
        var i :| 0 < i < |s| && Match(Class(rs), s[..i]) && Match(Plus(Class(rs)), s[i..]);
        assert i == 1;
        assert forall k :: 1 <= k < |s| ==> s[k] == s[1..][k - 1];
      }
      if AllInClass(rs, s) {
        assert Match(Class(rs), s[..1]);
        assert AllInClass(rs, s[1..]) by {
          forall k | 0 <= k < |s[1..]| ensures InClass(rs, s[1..][k]) {
            assert s[1..][k] == s[k + 1];
          }
        }
        assert Match(Plus(Class(rs)), s[1..]);
      }
    }
  }
}

=== FILE: service_handler.dfy ===
/** The service handlers of the API (`cmd/api/services.go`): creating a
    service from a multipart form, and listing a provider's services.
    Creation reads and converts the form, checks the caller, validates and
    inserts the service, and then stores its images.  The source stores the
    images in one goroutine per file; here they are handled one after the
    other in file order, which keeps what matters about them: which slot
    holds which key, which image is the primary one, and the cleanup after
    any failure. */
module ServiceHandler {
  import opened Wrappers
  import opened Strs
  import opened Decimal
  import opened Validation
  import opened Store
  import Services
  import Helpers
  import Users

  /** The responses the handlers send. */
  datatype Response =
    | BadRequest
    | FailedValidation(errors: map<string, string>)
    | NotPermitted
    | NotPermittedWithMessage(message: string)
    | ServerError
    | Created(service: Services.Service)
    | ServiceList(status: int, services: seq<Services.Service>)

  /** A file of the form, with what opening it and reading the clock give
      when its upload runs. */
  datatype FileInput = FileInput(header: Helpers.FileHeader, openError: Option<string>, nanos: int)

  /** A request as the handler sees it: whether the multipart body could be
      parsed, the form's text values, its files, and the authenticated user. */
  datatype Request = Request(formError: bool, form: Helpers.Form, files: seq<FileInput>, user: Users.User)

  /** The conversions the model does not define: `strconv.ParseFloat`,
      `data.ParseIntSlice` for the two id lists, and `time.ParseDuration`. */
  datatype Parsers = Parsers(
    parseFloat: string -> Option<real>,
    parseCategoryIds: seq<string> -> Option<seq<int>>,
    parseStaffIds: seq<string> -> Option<seq<int>>,
    parsesDuration: string -> bool)

  /** The collaborators of the handlers: the conversions, the storage
      service, the provider lookup by user id (giving the provider's id),
      and the listing of a provider's services. */
  datatype Env = Env(
    parsers: Parsers,
    upload: (string, string) -> Option<string>,
    providerOf: int -> Result<int, Error>,
    servicesOf: int -> Result<seq<Services.Service>, Error>)

  const MaxImages: int := 5
  /** The HTTP statuses of the successful answers. */
  const StatusOK: int := 200
  const StatusCreated: int := 201
  /** The form fields the handler reads. */
  const PriceField: string := "price"
  const TypeIdField: string := "type_id"
  const CategoriesField: string := "categories"
  const StaffField: string := "staff"
  const NameField: string := "name"
  const DescriptionField: string := "description"
  const DurationField: string := "duration"
  const ImagesField: string := "images"
  const ServiceField: string := "service"
  const CategoryField: string := "category"
  const NoProviderProfile: string := "you must setup a provider profile"
  const PriceFormatMsg: string := "invalid price format"
  const TypeIdFormatMsg: string := "invalid type_id format"
  const TooManyImagesMsg: string := "cannot upload more than 5 images"
  const DuplicateServiceMsg: string := "a service with that name already exists for this provider"
  const MissingCategoryMsg: string := "one or more provided categories were not found"
  const MissingStaffMsg: string := "one or more selected staff members do not exist"

  /** `r.FormValue`, trimmed: the first value of the key, or empty. */
  function FormValue(form: Helpers.Form, key: string): string {
    TrimSpace(Helpers.Get(form, key))
  }

  /** `r.Form[key]`: every value of the key, none when it is missing. */
  function FormValues(form: Helpers.Form, key: string): seq<string> {
    if key in form then form[key] else []
  }

  /** Whether a response reports a failure rather than a result. */
  predicate IsError(r: Response) {
    !r.Created? && !r.ServiceList?
  }

  /** A validation response with the single error `key: msg`, as the
      handler records it in its still empty validator. */
  function OneError(key: string, msg: string): Response {
    FailedValidation(map[key := msg])
  }

  /** The handler's validator is fresh when it records such an error, so
      the error is the whole map. */
  lemma OneErrorIsFirst(key: string, msg: string)
    ensures AddError(New(), key, msg).errors == OneError(key, msg).errors
  {
    var r := AddError(New(), key, msg);
    assert r.errors.Keys == {key};
  }

  /** The form's fields once converted. */
  datatype Fields = Fields(
    name: string, description: string, duration: string, price: real, typeId: int,
    categories: seq<int>, staff: seq<int>)

  /** Whether both id lists convert. */
  predicate IdListsParse(req: Request, ps: Parsers) {
    && ps.parseCategoryIds(FormValues(req.form, CategoriesField)).Some?
    && ps.parseStaffIds(FormValues(req.form, StaffField)).Some?
  }

  /** Whether every conversion of the form succeeds and there are at most
      five files. */
  predicate FormReadable(req: Request, ps: Parsers) {
    && !req.formError
    && ps.parseFloat(FormValue(req.form, PriceField)).Some?
    && ParseInt(FormValue(req.form, TypeIdField)).Some?
    && IdListsParse(req, ps)
    && |req.files| <= MaxImages
  }

  /** The conversions of `createServiceHandler`, in its order: the body,
      the price, the type id (kept as a 32-bit number), the category ids,
      the staff ids, then the number of files.  Each failure ends the
      request before the store is used. */
  function ReadFields(req: Request, ps: Parsers): (r: Result<Fields, Response>)
    ensures r.Success? <==> FormReadable(req, ps)
    ensures r.Failure? ==> r.error.BadRequest? || r.error.FailedValidation?
    ensures req.formError ==> r == Failure(BadRequest)
    ensures (!req.formError && ps.parseFloat(FormValue(req.form, PriceField)).None?) ==>
      r == Failure(OneError(PriceField, PriceFormatMsg))
    ensures (!req.formError && ps.parseFloat(FormValue(req.form, PriceField)).Some?
      && ParseInt(FormValue(req.form, TypeIdField)).None?) ==> r == Failure(OneError(TypeIdField, TypeIdFormatMsg))
    ensures (!req.formError && ps.parseFloat(FormValue(req.form, PriceField)).Some?
      && ParseInt(FormValue(req.form, TypeIdField)).Some? && !IdListsParse(req, ps)) ==> r == Failure(BadRequest)
    ensures (!req.formError && ps.parseFloat(FormValue(req.form, PriceField)).Some?
      && ParseInt(FormValue(req.form, TypeIdField)).Some? && IdListsParse(req, ps) && |req.files| > MaxImages) ==>
      r == Failure(OneError(ImagesField, TooManyImagesMsg))
    ensures r.Success? ==>
      && r.value.name == FormValue(req.form, NameField)
      && r.value.description == FormValue(req.form, DescriptionField)
      && r.value.duration == FormValue(req.form, DurationField)
      && r.value.price == ps.parseFloat(FormValue(req.form, PriceField)).value
      && r.value.typeId == ToInt32(ParseInt(FormValue(req.form, TypeIdField)).value)
      && r.value.categories == ps.parseCategoryIds(FormValues(req.form, CategoriesField)).value
      && r.value.staff == ps.parseStaffIds(FormValues(req.form, StaffField)).value
  {
    var price := FormValue(req.form, PriceField);
    var typeId := FormValue(req.form, TypeIdField);
    if req.formError then Failure(BadRequest)
    else if ps.parseFloat(price).None? then Failure(OneError(PriceField, PriceFormatMsg))
    else if ParseInt(typeId).None? then Failure(OneError(TypeIdField, TypeIdFormatMsg))
    else if !IdListsParse(req, ps) then Failure(BadRequest)
    else if |req.files| > MaxImages then Failure(OneError(ImagesField, TooManyImagesMsg))
    else
      Success(Fields(FormValue(req.form, NameField), FormValue(req.form, DescriptionField),
        FormValue(req.form, DurationField), ps.parseFloat(price).value, ToInt32(ParseInt(typeId).value),
        ps.parseCategoryIds(FormValues(req.form, CategoriesField)).value,
        ps.parseStaffIds(FormValues(req.form, StaffField)).value))
  }

  /** The gate both handlers share: only a provider may go on, and only one
      with a provider profile; the profile's id is the result. */
  function Authorize(user: Users.User, providerOf: int -> Result<int, Error>): (r: Result<int, Response>)
    ensures r.Success? <==> user.role == Users.RoleProvider && providerOf(user.id).Success?
    ensures r.Failure? ==> r.error.NotPermitted? || r.error.NotPermittedWithMessage? || r.error.ServerError?
    ensures r.Success? ==> r.value == providerOf(user.id).value
    ensures user.role != Users.RoleProvider ==> r == Failure(NotPermitted)
    ensures user.role == Users.RoleProvider && providerOf(user.id).Failure? ==>
      r == Failure(if providerOf(user.id).error == RecordNotFound then NotPermittedWithMessage(NoProviderProfile)
                   else ServerError)
  {
    if user.role != Users.RoleProvider then Failure(NotPermitted)
    else
      match providerOf(user.id)
      case Failure(e) => Failure(if e == RecordNotFound then NotPermittedWithMessage(NoProviderProfile) else ServerError)
      case Success(providerId) => Success(providerId)
  }

  /** The service the handler builds from the fields for the provider. */
  function ServiceOf(f: Fields, providerId: int): Services.Service {
    Services.Service(0, providerId, f.typeId, f.categories, f.name, f.description, f.duration, f.price, f.staff, [])
  }

  /** Everything before the store is written: the form, the gate, then
      `ValidateService`, whose whole error map is the response when it
      fails. */
  function Prepare(req: Request, ps: Parsers, providerOf: int -> Result<int, Error>): (r: Result<Services.Service, Response>)
    ensures ReadFields(req, ps).Failure? ==> r == Failure(ReadFields(req, ps).error)
    ensures ReadFields(req, ps).Success? && Authorize(req.user, providerOf).Failure? ==>
      r == Failure(Authorize(req.user, providerOf).error)
    ensures r.Success? <==>
      && ReadFields(req, ps).Success? && Authorize(req.user, providerOf).Success?
      && Valid(Services.ValidateService(New(), ServiceOf(ReadFields(req, ps).value, Authorize(req.user, providerOf).value), ps.parsesDuration))
    ensures r.Success? ==> r.value == ServiceOf(ReadFields(req, ps).value, Authorize(req.user, providerOf).value)
    ensures r.Success? ==> r.value.providerId == providerOf(req.user.id).value && r.value.images == []
    ensures r.Failure? ==> IsError(r.error)
  {
    match ReadFields(req, ps)
    case Failure(resp) => Failure(resp)
    case Success(f) =>
      match Authorize(req.user, providerOf)
      case Failure(resp) => Failure(resp)
      case Success(providerId) =>
        var s := ServiceOf(f, providerId);
        var v := Services.ValidateService(New(), s, ps.parsesDuration);
        if Valid(v) then Success(s) else Failure(FailedValidation(v.errors))
  }

  /** The three validation responses of the insert differ: each names its
      own key. */
  lemma InsertResponsesDiffer()
    ensures OneError(ServiceField, DuplicateServiceMsg) != OneError(CategoryField, MissingCategoryMsg)
    ensures OneError(ServiceField, DuplicateServiceMsg) != OneError(StaffField, MissingStaffMsg)
    ensures OneError(CategoryField, MissingCategoryMsg) != OneError(StaffField, MissingStaffMsg)
  {
    assert ServiceField !in OneError(CategoryField, MissingCategoryMsg).errors;
    assert ServiceField !in OneError(StaffField, MissingStaffMsg).errors;
    assert CategoryField !in OneError(StaffField, MissingStaffMsg).errors;
  }

  /** The response for an error of `Services.Insert`: the three domain
      errors become one validation error each, anything else a server
      error. */
  function InsertResponse(e: Error): (r: Response)
    ensures r == OneError(ServiceField, DuplicateServiceMsg) <==> e == DuplicateRecord
    ensures r == OneError(CategoryField, MissingCategoryMsg) <==> e == CategoryNotFound
    ensures r == OneError(StaffField, MissingStaffMsg) <==> e == StaffNotFound
    ensures r.ServerError? <==> !(e.DuplicateRecord? || e.CategoryNotFound? || e.StaffNotFound?)
    ensures IsError(r)
  {
    InsertResponsesDiffer();
    match e
    case DuplicateRecord => OneError(ServiceField, DuplicateServiceMsg)
    case CategoryNotFound => OneError(CategoryField, MissingCategoryMsg)
    case StaffNotFound => OneError(StaffField, MissingStaffMsg)
    case _ => ServerError
  }

  /** What the upload of one file gave: its key, or why it failed. */
  type Upload = Result<string, Helpers.UploadError>

  /** The uploads of the files, each with its own clock reading. */
  function UploadAll(files: seq<FileInput>, upload: (string, string) -> Option<string>): (u: seq<Upload>)
    ensures |u| == |files|
    ensures forall i :: 0 <= i < |files| ==> u[i] == Helpers.UploadImage(files[i].header, files[i].openError, files[i].nanos, upload)
  {
    seq(|files|, i requires 0 <= i < |files| => Helpers.UploadImage(files[i].header, files[i].openError, files[i].nanos, upload))
  }

  /** What a slot of `uploadedImages` ends up holding: the key once the
      file is uploaded, and the empty string it was made with otherwise. */
  function Slot(u: Upload): string {
    if u.Success? then u.value else ""
  }

  /** The image row of file `i`: the first file is the primary image. */
  function ImageStmt(serviceId: int, providerId: int, key: string, i: nat): Stmt {
    InsertServiceImage(ServiceImageRow(serviceId, providerId, key, i == 0))
  }

  /** The image rows of a service whose every file was stored, in file order. */
  function ImageRows(serviceId: int, providerId: int, keys: seq<string>): (rows: seq<ServiceImageRow>)
    ensures |rows| == |keys|
    ensures forall i :: 0 <= i < |keys| ==>
      rows[i].imageUrl == keys[i] && rows[i].serviceId == serviceId && rows[i].providerId == providerId
    ensures forall i :: 0 <= i < |keys| ==> (rows[i].isPrimary <==> i == 0)
  {
    seq(|keys|, i requires 0 <= i < |keys| => ServiceImageRow(serviceId, providerId, keys[i], i == 0))
  }

  /** The image phase so far: the store, the statements sent, the slots,
      the files whose row was inserted or tried (in order), and how many
      uploads or inserts failed. */
  datatype ImagePhase = ImagePhase(db: Db, trace: seq<Stmt>, slots: seq<string>, attempted: seq<nat>, failures: nat)

  /** One file of the image phase: file `n`, after the files before it. */
  function ImageStep(prev: ImagePhase, eng: Engine, serviceId: int, providerId: int, u: Upload, n: nat): (p: ImagePhase)
    ensures p.slots == prev.slots + [Slot(u)]
    ensures u.Failure? ==>
      p.trace == prev.trace && p.attempted == prev.attempted && p.db == prev.db && p.failures == prev.failures + 1
    ensures u.Success? ==>
      p.trace == prev.trace + [ImageStmt(serviceId, providerId, u.value, n)] && p.attempted == prev.attempted + [n]
  {
    match u
    case Failure(_) =>
      ImagePhase(prev.db, prev.trace, prev.slots + [""], prev.attempted, prev.failures + 1)
    case Success(key) =>
      var ins := Services.InsertImage(prev.db, eng, serviceId, providerId, key, n == 0);
      ImagePhase(ins.db, prev.trace + [ImageStmt(serviceId, providerId, key, n)], prev.slots + [key],
        prev.attempted + [n], prev.failures + (if ins.result.Success? then 0 else 1))
  }

  /** The store and the failure count after a file that uploaded: its row
      is added when the database accepts it, and counted as a failure
      otherwise. */
  lemma ImageStepEffect(prev: ImagePhase, eng: Engine, serviceId: int, providerId: int, u: Upload, n: nat)
    requires u.Success?
    ensures var p := ImageStep(prev, eng, serviceId, providerId, u, n);
      var st := ImageStmt(serviceId, providerId, u.value, n);
      && (eng(prev.db, st).None? ==> p.db == Apply(prev.db, st) && p.failures == prev.failures)
      && (eng(prev.db, st).Some? ==> p.db == prev.db && p.failures == prev.failures + 1)
  {
  }

  /** The image phase over the uploads in file order: a file that uploaded
      has its key put in its slot and its row inserted, primary exactly
      when it is the first file.  A failure of either is counted and the
      other files go on. */
  function Images(db: Db, eng: Engine, serviceId: int, providerId: int, uploads: seq<Upload>): (p: ImagePhase)
    ensures |p.slots| == |uploads|
    ensures forall i :: 0 <= i < |uploads| ==> p.slots[i] == Slot(uploads[i])
    ensures |p.trace| == |p.attempted|
    ensures forall k :: 0 <= k < |p.attempted| ==>
      p.attempted[k] < |uploads| && p.trace[k] == ImageStmt(serviceId, providerId, p.slots[p.attempted[k]], p.attempted[k])
    decreases |uploads|
  {
    if |uploads| == 0 then ImagePhase(db, [], [], [], 0)
    else
      var n := |uploads| - 1;
      var prev := Images(db, eng, serviceId, providerId, uploads[..n]);
      ImageStep(prev, eng, serviceId, providerId, uploads[n], n)
  }

  /** The last file of the phase is one step after the others. */
  lemma ImagesLast(db: Db, eng: Engine, serviceId: int, providerId: int, uploads: seq<Upload>)
    requires |uploads| > 0
    ensures Images(db, eng, serviceId, providerId, uploads) ==
      ImageStep(Images(db, eng, serviceId, providerId, uploads[..|uploads| - 1]), eng, serviceId, providerId,
                uploads[|uploads| - 1], |uploads| - 1)
  {
  }

  /** The indices of the uploads that succeeded, in order. */
  function Succeeded(uploads: seq<Upload>): (idx: seq<nat>)
    ensures forall k :: 0 <= k < |idx| ==> idx[k] < |uploads|
    decreases |uploads|
  {
    if |uploads| == 0 then []
    else
      var n := |uploads| - 1;
      Succeeded(uploads[..n]) + (if uploads[n].Success? then [n] else [])
  }

  /** The succeeded indices are increasing and are exactly the uploads
      that succeeded. */
  lemma {:induction false} SucceededIndices(uploads: seq<Upload>)
    ensures var idx := Succeeded(uploads);
      && (forall j, k :: 0 <= j < k < |idx| ==> idx[j] < idx[k])
      && (forall i: nat :: i < |uploads| ==> (i in idx <==> uploads[i].Success?))
    decreases |uploads|
  {
    if |uploads| > 0 {
      var n := |uploads| - 1;
      var prev := Succeeded(uploads[..n]);
      SucceededIndices(uploads[..n]);
      forall i: nat | i < n
        ensures i in Succeeded(uploads) <==> uploads[i].Success?
      {
        assert uploads[..n][i] == uploads[i];
        assert i in Succeeded(uploads) <==> i in prev;
      }
    }
  }

  /** The files whose row is inserted or tried are the uploaded ones. */
  lemma {:induction false} ImagesAttempted(db: Db, eng: Engine, serviceId: int, providerId: int, uploads: seq<Upload>)
    ensures Images(db, eng, serviceId, providerId, uploads).attempted == Succeeded(uploads)
    decreases |uploads|
  {
    if |uploads| > 0 {
      ImagesLast(db, eng, serviceId, providerId, uploads);
      ImagesAttempted(db, eng, serviceId, providerId, uploads[..|uploads| - 1]);
    }
  }

  /** The image phase writes image rows and nothing else. */
  lemma {:induction false} ImagesOnlyImages(db: Db, eng: Engine, serviceId: int, providerId: int, uploads: seq<Upload>)
    ensures var p := Images(db, eng, serviceId, providerId, uploads);
      p.db == db.(serviceImages := p.db.serviceImages)
    decreases |uploads|
  {
    if |uploads| > 0 {
      var n := |uploads| - 1;
      var prev := Images(db, eng, serviceId, providerId, uploads[..n]);
      ImagesLast(db, eng, serviceId, providerId, uploads);
      ImagesOnlyImages(db, eng, serviceId, providerId, uploads[..n]);
      ImageStepOnlyImages(prev, eng, serviceId, providerId, uploads[n], n);
    }
  }

  /** One file changes only the image rows. */
  lemma ImageStepOnlyImages(prev: ImagePhase, eng: Engine, serviceId: int, providerId: int, u: Upload, n: nat)
    ensures var p := ImageStep(prev, eng, serviceId, providerId, u, n);
      p.db == prev.db.(serviceImages := p.db.serviceImages)
  {
  }

  /** One step keeps the store equal to the accepted rows applied in order. */
  lemma AppliedStep(db: Db, prev: ImagePhase, eng: Engine, serviceId: int, providerId: int, u: Upload, n: nat)
    requires AllAccepted(db, eng, prev.trace) ==> prev.db == ApplyAll(db, prev.trace)
    ensures var p := ImageStep(prev, eng, serviceId, providerId, u, n);
      AllAccepted(db, eng, p.trace) ==> p.db == ApplyAll(db, p.trace)
  {
    if u.Success? {
      ImageStepEffect(prev, eng, serviceId, providerId, u, n);
      AcceptedExtend(db, eng, prev.trace, ImageStmt(serviceId, providerId, u.value, n));
    }
  }

  /** One step: no failure so far exactly when there was none before, the
      file uploaded and its row was accepted. */
  lemma FailuresStep(db: Db, prev: ImagePhase, eng: Engine, serviceId: int, providerId: int, u: Upload, n: nat)
    requires AllAccepted(db, eng, prev.trace) ==> prev.db == ApplyAll(db, prev.trace)
    requires prev.failures == 0 ==> AllAccepted(db, eng, prev.trace)
    ensures var p := ImageStep(prev, eng, serviceId, providerId, u, n);
      && (p.failures == 0 <==> prev.failures == 0 && u.Success? && AllAccepted(db, eng, p.trace))
      && (AllAccepted(db, eng, p.trace) ==> AllAccepted(db, eng, prev.trace))
  {
    if u.Success? {
      ImageStepEffect(prev, eng, serviceId, providerId, u, n);
      AcceptedExtend(db, eng, prev.trace, ImageStmt(serviceId, providerId, u.value, n));
    }
  }

  predicate AllUploaded(uploads: seq<Upload>) {
    forall i :: 0 <= i < |uploads| ==> uploads[i].Success?
  }

  lemma AllUploadedLast(uploads: seq<Upload>)
    requires |uploads| > 0
    ensures AllUploaded(uploads) <==> AllUploaded(uploads[..|uploads| - 1]) && uploads[|uploads| - 1].Success?
  {
    var n := |uploads| - 1;
    assert forall i :: 0 <= i < n ==> uploads[..n][i] == uploads[i];
  }

  /** What the image phase keeps: while the database accepts every row
      sent, the store is those rows applied in order, and nothing failed
      exactly when every file uploaded and every row was accepted. */
  predicate PhaseInvariant(db: Db, eng: Engine, uploads: seq<Upload>, p: ImagePhase) {
    && (AllAccepted(db, eng, p.trace) ==> p.db == ApplyAll(db, p.trace))
    && (p.failures == 0 <==> AllUploaded(uploads) && AllAccepted(db, eng, p.trace))
  }

  /** One more file keeps the invariant. */
  lemma InvariantOneStep(db: Db, eng: Engine, serviceId: int, providerId: int, uploads: seq<Upload>, prev: ImagePhase)
    requires |uploads| > 0
    requires PhaseInvariant(db, eng, uploads[..|uploads| - 1], prev)
    ensures var n := |uploads| - 1;
      PhaseInvariant(db, eng, uploads, ImageStep(prev, eng, serviceId, providerId, uploads[n], n))
  {
    var n := |uploads| - 1;
    AppliedStep(db, prev, eng, serviceId, providerId, uploads[n], n);
    FailuresStep(db, prev, eng, serviceId, providerId, uploads[n], n);
    AllUploadedLast(uploads);
  }

  /** Each file keeps the invariant. */
  lemma InvariantStep(db: Db, eng: Engine, serviceId: int, providerId: int, uploads: seq<Upload>)
    requires |uploads| > 0
    ensures var n := |uploads| - 1;
      PhaseInvariant(db, eng, uploads[..n], Images(db, eng, serviceId, providerId, uploads[..n])) ==>
      PhaseInvariant(db, eng, uploads, Images(db, eng, serviceId, providerId, uploads))
  {
    var n := |uploads| - 1;
    var prev := Images(db, eng, serviceId, providerId, uploads[..n]);
    ImagesLast(db, eng, serviceId, providerId, uploads);
    if PhaseInvariant(db, eng, uploads[..n], prev) {
      InvariantOneStep(db, eng, serviceId, providerId, uploads, prev);
    }
  }

  lemma {:induction false} ImagesInvariant(db: Db, eng: Engine, serviceId: int, providerId: int, uploads: seq<Upload>)
    ensures PhaseInvariant(db, eng, uploads, Images(db, eng, serviceId, providerId, uploads))
    decreases |uploads|
  {
    if |uploads| > 0 {
      ImagesInvariant(db, eng, serviceId, providerId, uploads[..|uploads| - 1]);
      InvariantStep(db, eng, serviceId, providerId, uploads);
    }
  }

  /** Nothing failed exactly when every file uploaded and the database
      accepted every row the phase sent. */
  lemma ImagesFailures(db: Db, eng: Engine, serviceId: int, providerId: int, uploads: seq<Upload>)
    ensures var p := Images(db, eng, serviceId, providerId, uploads);
      p.failures == 0 <==> AllUploaded(uploads) && AllAccepted(db, eng, p.trace)
  {
    ImagesInvariant(db, eng, serviceId, providerId, uploads);
  }

  /** What the image phase stores when nothing failed: one row per file,
      in file order, only the first primary. */
  predicate StoredRows(db: Db, serviceId: int, providerId: int, p: ImagePhase) {
    p.failures == 0 ==> p.db == db.(serviceImages := db.serviceImages + ImageRows(serviceId, providerId, p.slots))
  }

  /** Appending a key appends its row, primary exactly when it is the first. */
  lemma ImageRowsSnoc(serviceId: int, providerId: int, keys: seq<string>, key: string)
    ensures ImageRows(serviceId, providerId, keys + [key]) ==
      ImageRows(serviceId, providerId, keys) + [ServiceImageRow(serviceId, providerId, key, |keys| == 0)]
  {
    var a := ImageRows(serviceId, providerId, keys + [key]);
    var b := ImageRows(serviceId, providerId, keys) + [ServiceImageRow(serviceId, providerId, key, |keys| == 0)];
    assert forall i :: 0 <= i < |a| ==> a[i] == b[i];
  }

  /** One file that leaves nothing failed appends its row to the stored rows. */
  lemma StoredOneStep(db: Db, prev: ImagePhase, eng: Engine, serviceId: int, providerId: int, u: Upload, n: nat)
    requires |prev.slots| == n
    requires StoredRows(db, serviceId, providerId, prev)
    ensures StoredRows(db, serviceId, providerId, ImageStep(prev, eng, serviceId, providerId, u, n))
  {
    var p := ImageStep(prev, eng, serviceId, providerId, u, n);
    if p.failures == 0 {
      assert u.Success? && prev.failures == 0;
      ImageStepEffect(prev, eng, serviceId, providerId, u, n);
      ImageRowsSnoc(serviceId, providerId, prev.slots, u.value);
    }
  }

  /** Each file keeps the stored rows in step with the slots. */
  lemma StoredStep(db: Db, eng: Engine, serviceId: int, providerId: int, uploads: seq<Upload>)
    requires |uploads| > 0
    ensures var n := |uploads| - 1;
      StoredRows(db, serviceId, providerId, Images(db, eng, serviceId, providerId, uploads[..n])) ==>
      StoredRows(db, serviceId, providerId, Images(db, eng, serviceId, providerId, uploads))
  {
    var n := |uploads| - 1;
    var prev := Images(db, eng, serviceId, providerId, uploads[..n]);
    ImagesLast(db, eng, serviceId, providerId, uploads);
    if StoredRows(db, serviceId, providerId, prev) {
      StoredOneStep(db, prev, eng, serviceId, providerId, uploads[n], n);
    }
  }

  /** When nothing failed, every file has its row, in file order, and only
      the first is primary. */
  lemma {:induction false} ImagesStored(db: Db, eng: Engine, serviceId: int, providerId: int, uploads: seq<Upload>)
    ensures StoredRows(db, serviceId, providerId, Images(db, eng, serviceId, providerId, uploads))
    decreases |uploads|
  {
    if |uploads| > 0 {
      ImagesStored(db, eng, serviceId, providerId, uploads[..|uploads| - 1]);
      StoredStep(db, eng, serviceId, providerId, uploads);
    }
  }

  /** What a handler leaves: the store, the statements sent, the slots of
      the uploaded keys, the storage deletions asked for, and the response. */
  datatype Handled = Handled(db: Db, trace: seq<Stmt>, slots: seq<string>, deletedFiles: seq<seq<string>>, response: Response)

  /** The part of `createServiceHandler` after the service was inserted
      with id `id`: the image phase, then either the cleanup and a server
      error, or the created service carrying its keys in file order. */
  function FinishCreate(db: Db, eng: Engine, s: Services.Service, id: int, uploads: seq<Upload>): (h: Handled)
    ensures var p := Images(db, eng, id, s.providerId, uploads);
      && h.slots == p.slots
      && (h.response.Created? <==> p.failures == 0)
      && (p.failures == 0 ==>
            h == Handled(p.db, p.trace, p.slots, [], Created(s.(id := id, images := p.slots))))
      && (p.failures > 0 ==>
            && h.response == ServerError
            && h.trace == p.trace + [DeleteService(id, s.providerId)]
            && h.db == Services.Delete(p.db, eng, id, s.providerId).db
            && h.deletedFiles == (if |uploads| > 0 then [p.slots] else []))
  {
    var p := Images(db, eng, id, s.providerId, uploads);
    if p.failures > 0 then
      var c := Helpers.CleanupFailedServiceCreation(p.db, eng, id, s.providerId, p.slots);
      Handled(c.db, p.trace + c.trace, p.slots, c.deletedFiles, ServerError)
    else
      Handled(p.db, p.trace, p.slots, [], Created(s.(id := id, images := p.slots)))
  }

  /** The service is created exactly when every file uploaded and the
      database accepted every image row; it then carries the keys in file
      order, and the store holds one row per file, in file order, the
      first one primary. */
  lemma FinishCreated(db: Db, eng: Engine, s: Services.Service, id: int, uploads: seq<Upload>)
    ensures var h := FinishCreate(db, eng, s, id, uploads);
      h.response.Created? <==> AllUploaded(uploads) && AllAccepted(db, eng, Images(db, eng, id, s.providerId, uploads).trace)
    ensures var h := FinishCreate(db, eng, s, id, uploads);
      h.response.Created? ==>
        && h.response.service == s.(id := id, images := h.slots)
        && h.db == db.(serviceImages := db.serviceImages + ImageRows(id, s.providerId, h.slots))
        && (forall i :: 0 <= i < |uploads| ==> h.slots[i] == uploads[i].value)
  {
    var p := Images(db, eng, id, s.providerId, uploads);
    ImagesFailures(db, eng, id, s.providerId, uploads);
    if p.failures == 0 {
      ImagesStored(db, eng, id, s.providerId, uploads);
    }
  }

  /** The `k`-th image row sent belongs to the `k`-th file that uploaded,
      carries its key, and is primary exactly when that file is the first
      of the form, whichever files failed before it. */
  lemma FinishPositional(db: Db, eng: Engine, s: Services.Service, id: int, uploads: seq<Upload>, k: nat)
    requires k < |Succeeded(uploads)|
    ensures var h := FinishCreate(db, eng, s, id, uploads);
      var i := Succeeded(uploads)[k];
      && i < |uploads| && uploads[i].Success?
      && k < |h.trace|
      && h.trace[k] == InsertServiceImage(ServiceImageRow(id, s.providerId, uploads[i].value, i == 0))
  {
    var p := Images(db, eng, id, s.providerId, uploads);
    ImagesAttempted(db, eng, id, s.providerId, uploads);
    SucceededIndices(uploads);
    var i := Succeeded(uploads)[k];
    assert i in Succeeded(uploads);
    assert p.trace[k] == ImageStmt(id, s.providerId, p.slots[i], i);
  }

  /** `createServiceHandler`.  Nothing is written before the service passes
      validation; the service and its links are inserted in one
      transaction; then the images, with the cleanup after any failure. */
  function CreateService(db: Db, eng: Engine, env: Env, req: Request): (h: Handled)
    ensures Prepare(req, env.parsers, env.providerOf).Failure? ==> h == Handled(db, [], [], [], Prepare(req, env.parsers, env.providerOf).error)
    ensures Prepare(req, env.parsers, env.providerOf).Success? ==>
      var ins := Services.Insert(db, eng, Prepare(req, env.parsers, env.providerOf).value);
      && (ins.result.Failure? ==> h == Handled(db, ins.trace, [], [], InsertResponse(ins.result.error)))
      && (ins.result.Success? ==>
            var f := FinishCreate(ins.db, eng, Prepare(req, env.parsers, env.providerOf).value, ins.result.value, UploadAll(req.files, env.upload));
            h == f.(trace := ins.trace + f.trace))
  {
    match Prepare(req, env.parsers, env.providerOf)
    case Failure(resp) => Handled(db, [], [], [], resp)
    case Success(s) =>
      var ins := Services.Insert(db, eng, s);
      match ins.result
      case Failure(e) => Handled(db, ins.trace, [], [], InsertResponse(e))
      case Success(id) =>
        var f := FinishCreate(ins.db, eng, s, id, UploadAll(req.files, env.upload));
        f.(trace := ins.trace + f.trace)
  }

  /** A request that fails before validation passes ends with that
      response and nothing else: no statement is sent, no file is
      uploaded, and the answer does not depend on the store or the
      storage service. */
  lemma RejectedBeforeStore(db: Db, eng: Engine, env: Env, req: Request,
                            db2: Db, eng2: Engine, upload2: (string, string) -> Option<string>)
    requires Prepare(req, env.parsers, env.providerOf).Failure?
    ensures CreateService(db, eng, env, req) == Handled(db, [], [], [], Prepare(req, env.parsers, env.providerOf).error)
    ensures CreateService(db2, eng2, env.(upload := upload2), req) == CreateService(db, eng, env, req).(db := db2)
  {
  }

  /** A form that does not convert is answered before the caller is even
      looked up: the provider lookup does not matter. */
  lemma FormCheckedBeforeGate(db: Db, eng: Engine, env: Env, req: Request, providerOf2: int -> Result<int, Error>)
    requires ReadFields(req, env.parsers).Failure?
    ensures CreateService(db, eng, env.(providerOf := providerOf2), req) == CreateService(db, eng, env, req)
    ensures CreateService(db, eng, env, req).response == ReadFields(req, env.parsers).error
  {
  }

  /** Whether the request passes every check and its insert commits. */
  predicate Committed(db: Db, eng: Engine, env: Env, req: Request) {
    && Prepare(req, env.parsers, env.providerOf).Success?
    && Services.Insert(db, eng, Prepare(req, env.parsers, env.providerOf).value).result.Success?
  }

  /** No file is uploaded before the service and its links are committed:
      when the insert fails, the storage service plays no part, and
      otherwise the statements of the committed insert come first. */
  lemma InsertedBeforeUploads(db: Db, eng: Engine, env: Env, req: Request, upload2: (string, string) -> Option<string>)
    ensures !Committed(db, eng, env, req) ==>
      CreateService(db, eng, env.(upload := upload2), req) == CreateService(db, eng, env, req)
    ensures !Committed(db, eng, env, req) ==> CreateService(db, eng, env, req).slots == []
    ensures Committed(db, eng, env, req) ==>
      var ins := Services.Insert(db, eng, Prepare(req, env.parsers, env.providerOf).value);
      ins.trace <= CreateService(db, eng, env, req).trace
  {
  }

  /** The service a request that passes every check asks for. */
  function Requested(env: Env, req: Request): Services.Service
    requires Prepare(req, env.parsers, env.providerOf).Success?
  {
    Prepare(req, env.parsers, env.providerOf).value
  }

  /** A service is created exactly when the insert commits, every file
      uploads and every image row is accepted.  It is then the requested
      service with the new id and the keys of the files in form order, and
      the store holds it, its links, and one image row per file, the first
      one primary. */
  lemma CreatedIff(db: Db, eng: Engine, env: Env, req: Request)
    ensures var h := CreateService(db, eng, env, req);
      h.response.Created? <==>
        && Committed(db, eng, env, req)
        && AllUploaded(UploadAll(req.files, env.upload))
        && AllAccepted(Services.Inserted(db, Requested(env, req)), eng,
             Images(Services.Inserted(db, Requested(env, req)), eng, db.nextId, Requested(env, req).providerId,
                    UploadAll(req.files, env.upload)).trace)
  {
    if Committed(db, eng, env, req) {
      var s := Requested(env, req);
      var ins := Services.Insert(db, eng, s);
      assert ins.db == Services.Inserted(db, s) && ins.result.value == db.nextId;
      var f := FinishCreate(ins.db, eng, s, db.nextId, UploadAll(req.files, env.upload));
      assert CreateService(db, eng, env, req).response == f.response;
      FinishCreated(ins.db, eng, s, db.nextId, UploadAll(req.files, env.upload));
    }
  }

  /** Every file uploaded, and `keys` holds the key of each, in form order. */
  predicate KeysOfFiles(files: seq<FileInput>, upload: (string, string) -> Option<string>, keys: seq<string>) {
    && |keys| == |files|
    && forall i :: 0 <= i < |files| ==>
         Helpers.UploadImage(files[i].header, files[i].openError, files[i].nanos, upload) == Success(keys[i])
  }

  /** A created service is the requested one with the id the database
      gave it and, in form order, the key of every file; the store holds
      the service, its links, and one image row per file, the first one
      primary. */
  lemma CreatedStored(db: Db, eng: Engine, env: Env, req: Request)
    requires CreateService(db, eng, env, req).response.Created?
    ensures Committed(db, eng, env, req)
    ensures var h := CreateService(db, eng, env, req);
      && h.response.service == Requested(env, req).(id := db.nextId, images := h.slots)
      && KeysOfFiles(req.files, env.upload, h.slots)
      && h.db == Services.Inserted(db, Requested(env, req)).(serviceImages :=
            db.serviceImages + ImageRows(db.nextId, Requested(env, req).providerId, h.slots))
  {
    CreatedIff(db, eng, env, req);
    var s := Requested(env, req);
    var ins := Services.Insert(db, eng, s);
    assert ins.db == Services.Inserted(db, s) && ins.result.value == db.nextId;
    var uploads := UploadAll(req.files, env.upload);
    var f := FinishCreate(ins.db, eng, s, db.nextId, uploads);
    assert CreateService(db, eng, env, req) == f.(trace := ins.trace + f.trace);
    FinishCreated(ins.db, eng, s, db.nextId, uploads);
    assert AllUploaded(uploads);
  }

  /** After the committed insert, the `k`-th statement is the image row of
      the `k`-th file that uploaded: it carries that file's key and is
      primary exactly when the file is the first of the form, whatever
      happened to the files before it. */
  lemma PrimaryIsFirstFile(db: Db, eng: Engine, env: Env, req: Request, k: nat)
    requires Committed(db, eng, env, req)
    requires k < |Succeeded(UploadAll(req.files, env.upload))|
    ensures var i := Succeeded(UploadAll(req.files, env.upload))[k];
      var u := Helpers.UploadImage(req.files[i].header, req.files[i].openError, req.files[i].nanos, env.upload);
      var n := |Services.Insert(db, eng, Requested(env, req)).trace|;
      && i < |req.files| && u.Success?
      && n + k < |CreateService(db, eng, env, req).trace|
      && CreateService(db, eng, env, req).trace[n + k] ==
           InsertServiceImage(ServiceImageRow(db.nextId, Requested(env, req).providerId, u.value, i == 0))
  {
    var s := Requested(env, req);
    var ins := Services.Insert(db, eng, s);
    assert ins.db == Services.Inserted(db, s) && ins.result.value == db.nextId;
    var uploads := UploadAll(req.files, env.upload);
    var f := FinishCreate(ins.db, eng, s, db.nextId, uploads);
    assert CreateService(db, eng, env, req) == f.(trace := ins.trace + f.trace);
    FinishPositional(ins.db, eng, s, db.nextId, uploads, k);
  }

  /** When an upload or an image row fails after the commit, the response
      is a server error, the service is deleted last, and the storage
      deletion of the slots is asked for when the form had files. */
  lemma FailureCleansUp(db: Db, eng: Engine, env: Env, req: Request)
    requires Committed(db, eng, env, req)
    requires !CreateService(db, eng, env, req).response.Created?
    ensures var h := CreateService(db, eng, env, req);
      && h.response == ServerError
      && Services.Insert(db, eng, Requested(env, req)).trace <= h.trace
      && h.trace[|h.trace| - 1] == DeleteService(db.nextId, Requested(env, req).providerId)
      && h.deletedFiles == (if |req.files| > 0 then [h.slots] else [])
      && |h.slots| == |req.files|
    ensures var h := CreateService(db, eng, env, req);
      var s := Requested(env, req);
      var p := Images(Services.Inserted(db, s), eng, db.nextId, s.providerId, UploadAll(req.files, env.upload));
      && (eng(p.db, DeleteService(db.nextId, s.providerId)).None? ==>
            forall k :: 0 <= k < |h.db.services| ==> !Services.Matches(h.db.services[k], db.nextId, s.providerId))
      && (eng(p.db, DeleteService(db.nextId, s.providerId)).Some? ==> h.db == p.db)
  {
    var s := Requested(env, req);
    var ins := Services.Insert(db, eng, s);
    assert ins.db == Services.Inserted(db, s) && ins.result.value == db.nextId;
    var uploads := UploadAll(req.files, env.upload);
    var f := FinishCreate(ins.db, eng, s, db.nextId, uploads);
    assert CreateService(db, eng, env, req) == f.(trace := ins.trace + f.trace);
    var p := Images(ins.db, eng, db.nextId, s.providerId, uploads);
    assert p.failures > 0;
    var del := DeleteService(db.nextId, s.providerId);
    assert f.trace == p.trace + [del];
    assert f.db == Services.Delete(p.db, eng, db.nextId, s.providerId).db;
    AppendLast(ins.trace, p.trace, del);
  }

  /** A failed insert is answered from its error and leaves the store and
      the storage service alone. */
  lemma InsertFailureAnswered(db: Db, eng: Engine, env: Env, req: Request)
    requires Prepare(req, env.parsers, env.providerOf).Success? && !Committed(db, eng, env, req)
    ensures var ins := Services.Insert(db, eng, Requested(env, req));
      CreateService(db, eng, env, req) == Handled(db, ins.trace, [], [], InsertResponse(ins.result.error))
  {
  }

  /** Once the insert commits, the answer is the created service or a
      server error. */
  lemma CommittedAnswer(db: Db, eng: Engine, env: Env, req: Request)
    requires Committed(db, eng, env, req)
    ensures CreateService(db, eng, env, req).response.Created? || CreateService(db, eng, env, req).response == ServerError
  {
    var s := Requested(env, req);
    var ins := Services.Insert(db, eng, s);
    var f := FinishCreate(ins.db, eng, s, ins.result.value, UploadAll(req.files, env.upload));
    assert CreateService(db, eng, env, req).response == f.response;
  }

  /** After validation, each of the three validation answers of the
      insert comes exactly from its domain error. */
  lemma InsertErrorsAnswered(db: Db, eng: Engine, env: Env, req: Request)
    requires Prepare(req, env.parsers, env.providerOf).Success?
    ensures var o := Services.Insert(db, eng, Requested(env, req)).result;
      var r := CreateService(db, eng, env, req).response;
      && (r == OneError(ServiceField, DuplicateServiceMsg) <==> o == Failure(DuplicateRecord))
      && (r == OneError(CategoryField, MissingCategoryMsg) <==> o == Failure(CategoryNotFound))
      && (r == OneError(StaffField, MissingStaffMsg) <==> o == Failure(StaffNotFound))
  {
    if Committed(db, eng, env, req) {
      CommittedAnswer(db, eng, env, req);
    } else {
      InsertFailureAnswered(db, eng, env, req);
    }
  }

  /** After validation, the duplicate-name answer comes exactly from a
      unique violation on the service row, and the missing-category and
      missing-staff answers exactly from a foreign-key violation on a
      category link or a staff link. */
  lemma InsertRejections(db: Db, eng: Engine, env: Env, req: Request)
    requires Prepare(req, env.parsers, env.providerOf).Success?
    ensures var s := Requested(env, req);
      var r := CreateService(db, eng, env, req).response;
      && (r == OneError(ServiceField, DuplicateServiceMsg) <==> Services.RejectedWith(db, eng, s, 0, UniqueViolation))
      && (r == OneError(CategoryField, MissingCategoryMsg) <==>
            exists i: nat :: 1 <= i <= |s.categories| && Services.RejectedWith(db, eng, s, i, ForeignKeyViolation))
      && (r == OneError(StaffField, MissingStaffMsg) <==>
            exists i: nat :: |s.categories| < i && Services.RejectedWith(db, eng, s, i, ForeignKeyViolation))
  {
    InsertErrorsAnswered(db, eng, env, req);
    Services.InsertErrorMapping(db, eng, Requested(env, req));
  }

  /** The listing with the status it is sent with. */
  function Listing(user: Users.User, env: Env, status: int): (r: Response)
    ensures Authorize(user, env.providerOf).Failure? ==> r == Authorize(user, env.providerOf).error
    ensures r.ServiceList? <==>
      Authorize(user, env.providerOf).Success? && env.servicesOf(Authorize(user, env.providerOf).value).Success?
    ensures r.ServiceList? ==>
      && r.status == status
      && r.services == env.servicesOf(env.providerOf(user.id).value).value
    ensures (Authorize(user, env.providerOf).Success? &&
      env.servicesOf(Authorize(user, env.providerOf).value).Failure?) ==> r == ServerError
  {
    match Authorize(user, env.providerOf)
    case Failure(resp) => resp
    case Success(providerId) =>
      match env.servicesOf(providerId)
      case Failure(_) => ServerError
      case Success(services) => ServiceList(status, services)
  }

  /** `listServiceHandler` as written: the same gate as creation, then the
      provider's services, sent as `201 Created` although nothing is
      created. */
  function ListServicesAsWritten(user: Users.User, env: Env): (r: Response)
    ensures r.ServiceList? ==> r.status == StatusCreated
  {
    Listing(user, env, StatusCreated)
  }

  /** `listServiceHandler` with the status the category, provider-image and
      business-hour listings use: a listing is answered `200 OK`, and
      anything but the list is an error. */
  function ListServices(user: Users.User, env: Env): (r: Response)
    ensures r.ServiceList? ==> r.status == StatusOK
    ensures !r.ServiceList? ==> IsError(r)
  {
    Listing(user, env, StatusOK)
  }

  /** The two differ only in the status of a successful listing. */
  lemma ListingStatusDiffers(user: Users.User, env: Env)
    ensures var w := ListServicesAsWritten(user, env);
      var c := ListServices(user, env);
      && (w.ServiceList? <==> c.ServiceList?)
      && (w.ServiceList? ==> w == c.(status := StatusCreated) && w != c)
      && (!w.ServiceList? ==> w == c)
  {
  }

  /** The discrepancy on an input: a provider with a profile whose services
      can be listed gets `201 Created` from the code as written. */
  lemma ProviderListingAnsweredCreated(user: Users.User, env: Env)
    requires user.role == Users.RoleProvider && env.providerOf(user.id).Success?
    requires env.servicesOf(env.providerOf(user.id).value).Success?
    ensures ListServicesAsWritten(user, env).ServiceList?
    ensures ListServicesAsWritten(user, env).status == StatusCreated
    ensures ListServices(user, env).status == StatusOK
  {
  }
}

=== FILE: services.dfy ===
/** Services of a provider (`internal/data/services.go`): validation of a
    new service, the transactional insert of the service with its category
    and staff links, image rows and deletion. */
module Services {
  import opened Wrappers
  import opened Strs
  import opened Validation
  import opened Store
  import Sorting

  datatype Service = Service(
    id: int, providerId: int, typeId: int, categories: seq<int>, name: string,
    description: string, duration: string, price: real, staff: seq<int>, images: seq<string>)

  /** A string made only of white space, the strings `strings.TrimSpace`
      empties. */
  predicate Blank(s: string) {
    |s| == 0 || (IsSpace(s[0]) && Blank(s[1..]))
  }

  lemma {:induction false} BlankIffAll(s: string)
    ensures Blank(s) <==> All(s, IsSpace)
  {
    if |s| > 0 {
      BlankIffAll(s[1..]);
      assert forall i :: 1 <= i < |s| ==> s[i] == s[1..][i - 1];
    }
  }

  lemma BlankIffTrimmedEmpty(s: string)
    ensures TrimSpace(s) == "" <==> Blank(s)
  {
    TrimFuncEmptyIffAll(s, IsSpace);
    BlankIffAll(s);
  }

  const DurationMissing: string := "must be provided"
  const DurationMalformed: string := "must be a valid duration (e.g. '30m', '1h')"

  /** `validateDuration`; `parsesDuration` stands for `time.ParseDuration`
      succeeding.  An empty duration is reported as missing and is not
      parsed at all. */
  function ValidateDuration(v: Validator, duration: string, parsesDuration: string -> bool): (r: Validator)
    ensures Extends(v, r)
    ensures r.errors.Keys == v.errors.Keys + (if duration != "" && parsesDuration(duration) then {} else {"duration"})
    ensures "duration" !in v.errors && duration == "" ==> r.errors["duration"] == DurationMissing
    ensures "duration" !in v.errors && duration != "" && !parsesDuration(duration) ==>
      r.errors["duration"] == DurationMalformed
  {
    if duration == "" then AddError(v, "duration", DurationMissing)
    else if !parsesDuration(duration) then AddError(v, "duration", DurationMalformed)
    else v
  }

  predicate AllPositive(values: seq<int>) {
    forall i :: 0 <= i < |values| ==> values[i] > 0
  }

  /** The scan of `validateIDSlice` that stops at the first id `<= 0`. */
  function HasNonPositive(values: seq<int>): (r: bool)
    ensures r <==> !AllPositive(values)
  {
    if |values| == 0 then false
    else if values[0] <= 0 then true
    else
      assert forall i :: 1 <= i < |values| ==> values[i] == values[1..][i - 1];
      HasNonPositive(values[1..])
  }

  ghost predicate IdSliceOk(values: seq<int>) {
    |values| > 0 && !Repeats(values) && AllPositive(values)
  }

  /** `validateIDSlice`: an empty list, a repeated id or an id `<= 0` puts
      `field` in error; the first of these in that order supplies the
      message. */
  function ValidateIdSlice(v: Validator, values: seq<int>, field: string): (r: Validator)
    ensures Extends(v, r)
    ensures r.errors.Keys == v.errors.Keys + (if IdSliceOk(values) then {} else {field})
    ensures field !in v.errors && !IdSliceOk(values) ==>
      r.errors[field] ==
        (if |values| == 0 then "must include at least one " + field
         else if Repeats(values) then "must not contain duplicate values"
         else "contains invalid " + field + " ID")
  {
    var v := Check(v, |values| > 0, field, "must include at least one " + field);
    var v := if HasDuplicates(values) then AddError(v, field, "must not contain duplicate values") else v;
    if HasNonPositive(values) then AddError(v, field, "contains invalid " + field + " ID") else v
  }

  /** The text fields of a service a validator puts in error. */
  ghost function TextErrors(s: Service): set<string> {
    (if Blank(s.name) then {"name"} else {}) + (if Blank(s.description) then {"description"} else {})
  }

  /** The numeric fields of a service a validator puts in error. */
  ghost function NumberErrors(s: Service): set<string> {
    (if s.price <= 0.0 then {"price"} else {}) + (if s.typeId == 0 then {"type_id"} else {})
  }

  /** The scalar fields of a service a validator puts in error. */
  ghost function FieldErrors(s: Service): set<string> {
    TextErrors(s) + NumberErrors(s)
  }

  /** `v.Check(strings.TrimSpace(value) != "", key, "must be provided")`. */
  function CheckProvided(v: Validator, value: string, key: string): (r: Validator)
    ensures Extends(v, r)
    ensures r.errors.Keys == v.errors.Keys + (if Blank(value) then {key} else {})
    ensures key !in v.errors && Blank(value) ==> r.errors[key] == "must be provided"
  {
    BlankIffTrimmedEmpty(value);
    Check(v, TrimSpace(value) != "", key, "must be provided")
  }

  function ValidateText(v: Validator, s: Service): (r: Validator)
    ensures Extends(v, r)
    ensures r.errors.Keys == v.errors.Keys + TextErrors(s)
  {
    var v1 := CheckProvided(v, s.name, "name");
    var r := CheckProvided(v1, s.description, "description");
    ExtendsTransitive(v, v1, r);
    r
  }

  function ValidateNumbers(v: Validator, s: Service): (r: Validator)
    ensures Extends(v, r)
    ensures r.errors.Keys == v.errors.Keys + NumberErrors(s)
  {
    var v1 := Check(v, s.price > 0.0, "price", "must be greater than zero");
    var r := Check(v1, s.typeId != 0, "type_id", "must be provided");
    ExtendsTransitive(v, v1, r);
    r
  }

  /** The first four checks of `ValidateService`. */
  function ValidateFields(v: Validator, s: Service): (r: Validator)
    ensures Extends(v, r)
    ensures r.errors.Keys == v.errors.Keys + FieldErrors(s)
  {
    var v2 := ValidateText(v, s);
    var r := ValidateNumbers(v2, s);
    ExtendsTransitive(v, v2, r);
    r
  }

  /** The messages of the text checks. */
  lemma TextMessages(v: Validator, s: Service)
    ensures var r := ValidateText(v, s);
      && ("name" !in v.errors && Blank(s.name) ==> r.errors["name"] == "must be provided")
      && ("description" !in v.errors && Blank(s.description) ==> r.errors["description"] == "must be provided")
  {
    var v1 := CheckProvided(v, s.name, "name");
  }

  /** The messages of the numeric checks. */
  lemma NumberMessages(v: Validator, s: Service)
    ensures var r := ValidateNumbers(v, s);
      && ("price" !in v.errors && s.price <= 0.0 ==> r.errors["price"] == "must be greater than zero")
      && ("type_id" !in v.errors && s.typeId == 0 ==> r.errors["type_id"] == "must be provided")
  {
    var v1 := Check(v, s.price > 0.0, "price", "must be greater than zero");
  }

  /** The id lists a validator puts in error. */
  ghost function IdErrors(s: Service): set<string> {
    (if IdSliceOk(s.categories) then {} else {"categories"}) + (if IdSliceOk(s.staff) then {} else {"staff"})
  }

  function ValidateIds(v: Validator, s: Service): (r: Validator)
    ensures Extends(v, r)
    ensures r.errors.Keys == v.errors.Keys + IdErrors(s)
  {
    var v1 := ValidateIdSlice(v, s.categories, "categories");
    var r := ValidateIdSlice(v1, s.staff, "staff");
    ExtendsTransitive(v, v1, r);
    r
  }

  /** The list-shaped fields a validator puts in error. */
  ghost function ListErrors(s: Service, parsesDuration: string -> bool): set<string> {
    (if s.duration != "" && parsesDuration(s.duration) then {} else {"duration"}) + IdErrors(s)
  }

  /** The duration and id-list checks of `ValidateService`. */
  function ValidateLists(v: Validator, s: Service, parsesDuration: string -> bool): (r: Validator)
    ensures Extends(v, r)
    ensures r.errors.Keys == v.errors.Keys + ListErrors(s, parsesDuration)
  {
    var v1 := ValidateDuration(v, s.duration, parsesDuration);
    var r := ValidateIds(v1, s);
    ExtendsTransitive(v, v1, r);
    r
  }

  /** The fields `ValidateService` puts in error. */
  ghost function ServiceErrors(s: Service, parsesDuration: string -> bool): set<string> {
    FieldErrors(s) + ListErrors(s, parsesDuration)
  }

  /** `ValidateService`: a name and description that are not only
      white space, a positive price, a type, a duration, and non-empty
      duplicate-free lists of positive category and staff ids. */
  function ValidateService(v: Validator, s: Service, parsesDuration: string -> bool): (r: Validator)
    ensures Extends(v, r)
    ensures r.errors.Keys == v.errors.Keys + ServiceErrors(s, parsesDuration)
  {
    var v4 := ValidateFields(v, s);
    var r := ValidateLists(v4, s, parsesDuration);
    ExtendsTransitive(v, v4, r);
    r
  }

  /** The messages `ValidateService` records for the scalar fields. */
  lemma ServiceMessages(v: Validator, s: Service, parsesDuration: string -> bool)
    ensures var r := ValidateService(v, s, parsesDuration);
      && ("name" !in v.errors && Blank(s.name) ==> r.errors["name"] == "must be provided")
      && ("description" !in v.errors && Blank(s.description) ==> r.errors["description"] == "must be provided")
      && ("price" !in v.errors && s.price <= 0.0 ==> r.errors["price"] == "must be greater than zero")
      && ("type_id" !in v.errors && s.typeId == 0 ==> r.errors["type_id"] == "must be provided")
  {
    var v2 := ValidateText(v, s);
    var v4 := ValidateNumbers(v2, s);
    var r := ValidateLists(v4, s, parsesDuration);
    assert r == ValidateService(v, s, parsesDuration);
    TextMessages(v, s);
    NumberMessages(v2, s);
    ExtendsTransitive(v2, v4, r);
  }

  ghost predicate ServiceOk(s: Service, parsesDuration: string -> bool) {
    && !Blank(s.name) && !Blank(s.description) && s.price > 0.0 && s.typeId != 0
    && s.duration != "" && parsesDuration(s.duration)
    && IdSliceOk(s.categories) && IdSliceOk(s.staff)
  }

  /** A service passes validation exactly when every field is acceptable. */
  lemma ValidServiceIff(s: Service, parsesDuration: string -> bool)
    ensures Valid(ValidateService(New(), s, parsesDuration)) <==> ServiceOk(s, parsesDuration)
  {
    var r := ValidateService(New(), s, parsesDuration);
    assert Valid(r) <==> ServiceErrors(s, parsesDuration) == {};
    if !ServiceOk(s, parsesDuration) {
      assert ServiceErrors(s, parsesDuration) != {} by {
        if Blank(s.name) { assert "name" in ServiceErrors(s, parsesDuration); }
        else if Blank(s.description) { assert "description" in ServiceErrors(s, parsesDuration); }
        else if s.price <= 0.0 { assert "price" in ServiceErrors(s, parsesDuration); }
        else if s.typeId == 0 { assert "type_id" in ServiceErrors(s, parsesDuration); }
        else if !(s.duration != "" && parsesDuration(s.duration)) { assert "duration" in ServiceErrors(s, parsesDuration); }
        else if !IdSliceOk(s.categories) { assert "categories" in ServiceErrors(s, parsesDuration); }
        else { assert "staff" in ServiceErrors(s, parsesDuration); }
      }
    }
  }

  /** The price bound is strict: exactly the services priced at zero or
      less are rejected for their price. */
  lemma PriceKey(s: Service, parsesDuration: string -> bool)
    ensures "price" in ValidateService(New(), s, parsesDuration).errors <==> s.price <= 0.0
  {
    assert "price" !in TextErrors(s);
    assert "price" !in ListErrors(s, parsesDuration) by {
      assert "price"[0] != "staff"[0];
    }
  }

  /** The statement inserting the service row itself. */
  function ServiceStmt(s: Service): Stmt {
    InsertService(ServiceRow(0, s.providerId, s.typeId, s.name, s.description, s.duration, s.price))
  }

  /** One `service_categories` row per category, in input order. */
  function CategoryLinks(serviceId: int, s: Service): (links: seq<ServiceCategoryRow>)
    ensures |links| == |s.categories|
    ensures forall i :: 0 <= i < |links| ==>
      links[i] == ServiceCategoryRow(serviceId, s.categories[i], s.providerId)
  {
    seq(|s.categories|, i requires 0 <= i < |s.categories| =>
      ServiceCategoryRow(serviceId, s.categories[i], s.providerId))
  }

  /** One `staff_services` row per staff member, in input order. */
  function StaffLinks(serviceId: int, s: Service): (links: seq<StaffServiceRow>)
    ensures |links| == |s.staff|
    ensures forall i :: 0 <= i < |links| ==>
      links[i] == StaffServiceRow(s.staff[i], serviceId, s.providerId)
  {
    seq(|s.staff|, i requires 0 <= i < |s.staff| => StaffServiceRow(s.staff[i], serviceId, s.providerId))
  }

  function CategoryStmts(links: seq<ServiceCategoryRow>): (stmts: seq<Stmt>)
    ensures |stmts| == |links|
    ensures forall i :: 0 <= i < |links| ==> stmts[i] == InsertServiceCategory(links[i])
  {
    seq(|links|, i requires 0 <= i < |links| => InsertServiceCategory(links[i]))
  }

  function StaffStmts(links: seq<StaffServiceRow>): (stmts: seq<Stmt>)
    ensures |stmts| == |links|
    ensures forall i :: 0 <= i < |links| ==> stmts[i] == InsertStaffService(links[i])
  {
    seq(|links|, i requires 0 <= i < |links| => InsertStaffService(links[i]))
  }

  /** The statements `Insert` sends inside its transaction: the service row
      (whose id the database assigns as `db.nextId`), then the category
      links, then the staff links. */
  function InsertBody(db: Db, s: Service): (body: seq<Stmt>)
    ensures |body| == 1 + |s.categories| + |s.staff|
  {
    [ServiceStmt(s)] + CategoryStmts(CategoryLinks(db.nextId, s)) + StaffStmts(StaffLinks(db.nextId, s))
  }

  /** The state a committed insert leaves: one new service row with the
      next id and its links appended in input order. */
  function Inserted(db: Db, s: Service): Db {
    var id := db.nextId;
    db.(services := db.services + [ServiceRow(id, s.providerId, s.typeId, s.name, s.description, s.duration, s.price)],
        serviceCategories := db.serviceCategories + CategoryLinks(id, s),
        staffServices := db.staffServices + StaffLinks(id, s),
        nextId := id + 1)
  }

  lemma {:induction false} ApplyCategoryStmts(db: Db, links: seq<ServiceCategoryRow>)
    ensures ApplyAll(db, CategoryStmts(links)) == db.(serviceCategories := db.serviceCategories + links)
    decreases |links|
  {
    if |links| > 0 {
      var n := |links| - 1;
      assert CategoryStmts(links)[..n] == CategoryStmts(links[..n]);
      ApplyCategoryStmts(db, links[..n]);
      assert links == links[..n] + [links[n]];
    }
  }

  lemma {:induction false} ApplyStaffStmts(db: Db, links: seq<StaffServiceRow>)
    ensures ApplyAll(db, StaffStmts(links)) == db.(staffServices := db.staffServices + links)
    decreases |links|
  {
    if |links| > 0 {
      var n := |links| - 1;
      assert StaffStmts(links)[..n] == StaffStmts(links[..n]);
      ApplyStaffStmts(db, links[..n]);
      assert links == links[..n] + [links[n]];
    }
  }

  /** Applying the whole body gives the committed state. */
  lemma ApplyInsertBody(db: Db, s: Service)
    ensures ApplyAll(db, InsertBody(db, s)) == Inserted(db, s)
  {
    var id := db.nextId;
    var a := [ServiceStmt(s)];
    var b := CategoryStmts(CategoryLinks(id, s));
    var c := StaffStmts(StaffLinks(id, s));
    ApplyAllAppend(db, a + b, c);
    ApplyAllAppend(db, a, b);
    assert ApplyAll(db, a) == Apply(db, ServiceStmt(s)) by {
      assert a[..0] == [];
    }
    var d1 := Apply(db, ServiceStmt(s));
    ApplyCategoryStmts(d1, CategoryLinks(id, s));
    var d2 := ApplyAll(d1, b);
    ApplyStaffStmts(d2, StaffLinks(id, s));
  }

  /** The domain error for the first rejected statement at body index `i`:
      a unique violation on the service row is a duplicate service, a
      foreign-key violation on a link a missing category or staff member;
      any other error passes through. */
  function InsertError(i: nat, categoryCount: nat, e: DbError): Error {
    if i == 0 then (if IsPgCode(e, UniqueViolation) then DuplicateRecord else DbFailure(e))
    else if i <= categoryCount then (if IsPgCode(e, ForeignKeyViolation) then CategoryNotFound else DbFailure(e))
    else (if IsPgCode(e, ForeignKeyViolation) then StaffNotFound else DbFailure(e))
  }

  /** The body of `Insert` got past `BeginTx` and statement `i` was the first
      rejected, with SQLSTATE `code`. */
  predicate RejectedWith(db: Db, eng: Engine, s: Service, i: nat, code: string) {
    var body := InsertBody(db, s);
    && eng(db, Begin).None?
    && i < |body|
    && FirstRejectedAt(db, eng, body, i)
    && IsPgCode(RejectionAt(db, eng, body, i), code)
  }

  /** `ServiceModel.Insert`: all or nothing.  A failure leaves the state as
      it was; a success commits the service row and all its links, and
      returns the new id.  The first rejected body statement decides the
      error through `InsertError`. */
  function Insert(db: Db, eng: Engine, s: Service): (o: Outcome<int>)
    ensures o.result.Failure? ==> o.db == db
    ensures o.result.Success? ==> o.result.value == db.nextId && o.db == Inserted(db, s)
    ensures o.result.Success? <==>
      && eng(db, Begin).None?
      && AllAccepted(db, eng, InsertBody(db, s))
      && eng(Inserted(db, s), Commit).None?
    ensures forall i: nat :: i < |InsertBody(db, s)| && eng(db, Begin).None? && FirstRejectedAt(db, eng, InsertBody(db, s), i) ==>
      o.result == Failure(InsertError(i, |s.categories|, RejectionAt(db, eng, InsertBody(db, s), i)))
    ensures eng(db, Begin).None? && !AllAccepted(db, eng, InsertBody(db, s)) ==>
      exists i: nat :: i < |InsertBody(db, s)| && FirstRejectedAt(db, eng, InsertBody(db, s), i) && |o.trace| == i + 2
    ensures 1 <= |o.trace| <= |TxStatements(InsertBody(db, s))|
    ensures o.trace == TxStatements(InsertBody(db, s))[..|o.trace|]
  {
    var body := InsertBody(db, s);
    var t := Transaction(db, eng, body);
    ApplyInsertBody(db, s);
    TxShape(db, eng, body);
    match t.result
    case Committed => Outcome(t.db, t.trace, Success(db.nextId))
    case BeginFailed(e) => Outcome(db, t.trace, Failure(DbFailure(e)))
    case CommitFailed(e) => Outcome(db, t.trace, Failure(DbFailure(e)))
    case StmtFailed(i, e) => Outcome(db, t.trace, Failure(InsertError(i, |s.categories|, e)))
  }

  /** The error mapping of `Insert`: a duplicate service comes from a unique
      violation on the service row, a missing category from a foreign-key
      violation on a category link, a missing staff member from one on a
      staff link. */
  lemma InsertErrorMapping(db: Db, eng: Engine, s: Service)
    ensures Insert(db, eng, s).result == Failure(DuplicateRecord) <==> RejectedWith(db, eng, s, 0, UniqueViolation)
    ensures Insert(db, eng, s).result == Failure(CategoryNotFound) <==>
      exists i: nat :: 1 <= i <= |s.categories| && RejectedWith(db, eng, s, i, ForeignKeyViolation)
    ensures Insert(db, eng, s).result == Failure(StaffNotFound) <==>
      exists i: nat :: |s.categories| < i && RejectedWith(db, eng, s, i, ForeignKeyViolation)
  {
    var body := InsertBody(db, s);
    var o := Insert(db, eng, s);
    if eng(db, Begin).None? && !AllAccepted(db, eng, body) {
      var i: nat :| i < |body| && FirstRejectedAt(db, eng, body, i) && |o.trace| == i + 2;
      FirstRejectedOnly(db, eng, body, i);
      assert o.result == Failure(InsertError(i, |s.categories|, RejectionAt(db, eng, body, i)));
      assert 1 <= i <= |s.categories| && IsPgCode(RejectionAt(db, eng, body, i), ForeignKeyViolation) ==>
        RejectedWith(db, eng, s, i, ForeignKeyViolation);
      assert |s.categories| < i && IsPgCode(RejectionAt(db, eng, body, i), ForeignKeyViolation) ==>
        RejectedWith(db, eng, s, i, ForeignKeyViolation);
    } else {
      InsertOtherFailures(db, eng, s);
    }
  }

  /** No staff link is followed by a category link. */
  predicate LinksOrdered(t: seq<Stmt>) {
    forall i, j :: 0 <= i < j < |t| && t[i].InsertStaffService? ==> !t[j].InsertServiceCategory?
  }

  predicate NoStaffLink(t: seq<Stmt>) {
    forall k :: 0 <= k < |t| ==> !t[k].InsertStaffService?
  }

  /** The whole transaction of an insert sends its links in order. */
  lemma TxLinksOrdered(db: Db, s: Service)
    ensures LinksOrdered(TxStatements(InsertBody(db, s)))
  {
    var body := InsertBody(db, s);
    var all := TxStatements(body);
    InsertTraceOrder(db, s);
    TxStatementsIndex(body);
    forall i, j | 0 <= i < j < |all| && all[i].InsertStaffService?
      ensures !all[j].InsertServiceCategory?
    {
      assert 1 <= i <= |body|;
      assert all[(i - 1) + 1] == body[i - 1];
      if j <= |body| {
        assert all[(j - 1) + 1] == body[j - 1];
      }
    }
  }

  /** The statements up to the last category link include no staff link. */
  lemma TxNoStaffBefore(db: Db, s: Service, n: nat)
    requires n <= |s.categories| + 2
    ensures NoStaffLink(TxStatements(InsertBody(db, s))[..n])
  {
    var body := InsertBody(db, s);
    var all := TxStatements(body);
    InsertTraceOrder(db, s);
    TxStatementsIndex(body);
    forall k | 0 <= k < n
      ensures !all[k].InsertStaffService?
    {
      if k > 0 {
        assert all[(k - 1) + 1] == body[k - 1];
      }
    }
  }

  /** Every category link is sent before any staff link. */
  lemma InsertLinkOrder(db: Db, eng: Engine, s: Service)
    ensures LinksOrdered(Insert(db, eng, s).trace)
  {
    var o := Insert(db, eng, s);
    var all := TxStatements(InsertBody(db, s));
    TxLinksOrdered(db, s);
    assert forall k :: 0 <= k < |o.trace| ==> o.trace[k] == all[k];
  }

  /** A missing category stops the insert before any staff link is sent. */
  lemma MissingCategoryStopsStaff(db: Db, eng: Engine, s: Service)
    ensures var o := Insert(db, eng, s);
      o.result == Failure(CategoryNotFound) ==> NoStaffLink(o.trace)
  {
    var o := Insert(db, eng, s);
    if o.result == Failure(CategoryNotFound) {
      var j := CategoryRejectedAt(db, eng, s);
      NoStaffInPrefix(db, s, o.trace, j);
    }
  }

  /** A prefix of the insert that stops within the category links sends no staff link. */
  lemma NoStaffInPrefix(db: Db, s: Service, trace: seq<Stmt>, j: nat)
    requires j <= |s.categories| && |trace| == j + 2
    requires |trace| <= |TxStatements(InsertBody(db, s))| && trace == TxStatements(InsertBody(db, s))[..|trace|]
    ensures NoStaffLink(trace)
  {
    TxNoStaffBefore(db, s, j + 2);
  }

  /** `ErrCategoryNotFound` comes from a category link, so the statements
      sent stop within the category links. */
  lemma CategoryRejectedAt(db: Db, eng: Engine, s: Service) returns (j: nat)
    requires Insert(db, eng, s).result == Failure(CategoryNotFound)
    ensures j <= |s.categories| && |Insert(db, eng, s).trace| == j + 2
  {
    var body := InsertBody(db, s);
    InsertOtherFailures(db, eng, s);
    j :| j < |body| && FirstRejectedAt(db, eng, body, j) && |Insert(db, eng, s).trace| == j + 2;
    assert InsertError(j, |s.categories|, RejectionAt(db, eng, body, j)) == CategoryNotFound;
  }


  /** Unless a body statement is rejected, `Insert` either succeeds or
      reports the store's own error. */
  lemma InsertOtherFailures(db: Db, eng: Engine, s: Service)
    ensures var o := Insert(db, eng, s);
      !(eng(db, Begin).None? && !AllAccepted(db, eng, InsertBody(db, s))) ==>
        o.result.Success? || o.result.error.DbFailure?
  {
    if eng(db, Begin).None? {
      assert AllAccepted(db, eng, InsertBody(db, s)) || !AllAccepted(db, eng, InsertBody(db, s));
    }
  }

  /** Within the body, every category link precedes every staff link. */
  lemma InsertTraceOrder(db: Db, s: Service)
    ensures forall i :: 0 <= i < |InsertBody(db, s)| ==>
      (InsertBody(db, s)[i].InsertServiceCategory? <==> 1 <= i <= |s.categories|)
    ensures forall i :: 0 <= i < |InsertBody(db, s)| ==>
      (InsertBody(db, s)[i].InsertStaffService? <==> |s.categories| < i)
  {
    var body := InsertBody(db, s);
    var nc := |s.categories|;
    forall i | 0 <= i < |body|
      ensures body[i].InsertServiceCategory? <==> 1 <= i <= nc
      ensures body[i].InsertStaffService? <==> nc < i
    {
      if i == 0 {
      } else if i <= nc {
        assert body[i] == CategoryStmts(CategoryLinks(db.nextId, s))[i - 1];
      } else {
        assert body[i] == StaffStmts(StaffLinks(db.nextId, s))[i - 1 - nc];
      }
    }
  }

  /** `InsertImage`: one `service_images` row; a driver error is returned as is. */
  function InsertImage(db: Db, eng: Engine, serviceId: int, providerId: int, imageUrl: string, isPrimary: bool): (o: Outcome<()>)
    ensures o.result.Success? <==> eng(db, InsertServiceImage(ServiceImageRow(serviceId, providerId, imageUrl, isPrimary))).None?
    ensures o.result.Success? ==>
      o.db == db.(serviceImages := db.serviceImages + [ServiceImageRow(serviceId, providerId, imageUrl, isPrimary)])
    ensures o.result.Failure? ==> o.db == db && o.result.error.DbFailure?
  {
    var st := InsertServiceImage(ServiceImageRow(serviceId, providerId, imageUrl, isPrimary));
    var (db', err) := Single(db, eng, st);
    if err.Some? then Outcome(db, [st], Failure(DbFailure(err.value))) else Outcome(db', [st], Success(()))
  }

  predicate Matches(row: ServiceRow, serviceId: int, providerId: int) {
    row.id == serviceId && row.providerId == providerId
  }

  /** `Delete`: removes the service rows with this id and provider and
      succeeds exactly when the database accepts the statement and one
      matched; when none matched the result is `ErrRecordNotFound`; a
      failure leaves the store unchanged. */
  function Delete(db: Db, eng: Engine, serviceId: int, providerId: int): (o: Outcome<()>)
    ensures o.result.Success? ==>
      && (exists k :: 0 <= k < |db.services| && Matches(db.services[k], serviceId, providerId))
      && o.db == db.(services := o.db.services)
      && (forall k :: 0 <= k < |o.db.services| ==> !Matches(o.db.services[k], serviceId, providerId))
      && (forall k :: 0 <= k < |db.services| && !Matches(db.services[k], serviceId, providerId) ==>
            db.services[k] in o.db.services)
      && (forall k :: 0 <= k < |o.db.services| ==> o.db.services[k] in db.services)
    ensures o.result.Success? <==>
      eng(db, DeleteService(serviceId, providerId)).None?
      && exists k :: 0 <= k < |db.services| && Matches(db.services[k], serviceId, providerId)
    ensures o.result == Failure(RecordNotFound) <==>
      eng(db, DeleteService(serviceId, providerId)).None?
      && forall k :: 0 <= k < |db.services| ==> !Matches(db.services[k], serviceId, providerId)
    ensures eng(db, DeleteService(serviceId, providerId)).Some? ==>
      o.result == Failure(DbFailure(eng(db, DeleteService(serviceId, providerId)).value))
    ensures o.result.Failure? ==> o.db == db
  {
    var st := DeleteService(serviceId, providerId);
    var (db', err) := Single(db, eng, st);
    NothingDeleted(db, serviceId, providerId);
    if err.Some? then Outcome(db, [st], Failure(DbFailure(err.value)))
    else if |db'.services| == |db.services| then
      Outcome(db', [st], Failure(RecordNotFound))
    else
      Outcome(db', [st], Success(()))
  }

  /** The number of rows affected is zero exactly when no row matches. */
  lemma NothingDeleted(db: Db, serviceId: int, providerId: int)
    ensures var after := Apply(db, DeleteService(serviceId, providerId)).services;
      |after| == |db.services| <==>
        forall k :: 0 <= k < |db.services| ==> !Matches(db.services[k], serviceId, providerId)
    ensures var after := Apply(db, DeleteService(serviceId, providerId)).services;
      |after| == |db.services| ==> after == db.services
  {
    var keep := (r: ServiceRow) => !(r.id == serviceId && r.providerId == providerId);
    Sorting.FilterKeepsAllIff(db.services, keep);
  }
}

=== FILE: sorting.dfy ===
/** `ORDER BY` as the model sees it: the rows of a query come back as a
    permutation of the matching rows, sorted by a total preorder (the
    column's comparison, or the database collation for text).  Rows that
    compare equal may come back in any order; the model keeps them in table
    order. */
module Sorting {
  import opened Wrappers

  ghost predicate TotalPreorder<T(!new)>(le: (T, T) -> bool) {
    && (forall a, b :: le(a, b) || le(b, a))
    && (forall a, b, c :: le(a, b) && le(b, c) ==> le(a, c))
  }

  predicate Sorted<T>(s: seq<T>, le: (T, T) -> bool) {
    forall i, j :: 0 <= i < j < |s| ==> le(s[i], s[j])
  }

  /** Inserts `x` before the first element it precedes. */
  function InsertSorted<T(!new)>(x: T, s: seq<T>, le: (T, T) -> bool): (r: seq<T>)
    requires TotalPreorder(le)
    requires Sorted(s, le)
    ensures Sorted(r, le)
    ensures multiset(r) == multiset(s) + multiset{x}
  {
    if |s| == 0 then [x]
    else if le(x, s[0]) then
      [x] + s
    else
      var t := InsertSorted(x, s[1..], le);
      assert s == [s[0]] + s[1..];
      assert forall k :: 0 <= k < |t| ==> le(s[0], t[k]) by {
        forall k | 0 <= k < |t|
          ensures le(s[0], t[k])
        {
          assert t[k] in multiset(t);
          assert t[k] == x || t[k] in multiset(s[1..]);
          if t[k] != x {
            var m :| 0 <= m < |s[1..]| && s[1..][m] == t[k];
            assert s[m + 1] == t[k];
          }
        }
      }
      [s[0]] + t
  }

  /** Insertion sort: a sorted permutation of `s`. */
  function Sort<T(!new)>(s: seq<T>, le: (T, T) -> bool): (r: seq<T>)
    requires TotalPreorder(le)
    ensures Sorted(r, le)
    ensures multiset(r) == multiset(s)
    ensures |r| == |s|
  {
    if |s| == 0 then []
    else
      assert s == [s[0]] + s[1..];
      var r := InsertSorted(s[0], Sort(s[1..], le), le);
      assert |r| == |multiset(r)|;
      r
  }

  /** The rows of `s` that satisfy `keep`, in table order (`WHERE`). */
  function Filter<T>(s: seq<T>, keep: T -> bool): (r: seq<T>)
    ensures |r| <= |s|
    ensures forall i :: 0 <= i < |r| ==> keep(r[i]) && r[i] in s
    ensures forall i :: 0 <= i < |s| && keep(s[i]) ==> s[i] in r
  {
    if |s| == 0 then []
    else
      var rest := Filter(s[1..], keep);
      assert forall i :: 1 <= i < |s| ==> s[i] == s[1..][i - 1];
      if keep(s[0]) then [s[0]] + rest else rest
  }

  /** Filtering counts each row as often as it occurs among the kept rows. */
  lemma {:induction false} FilterMultiset<T>(s: seq<T>, keep: T -> bool, x: T)
    ensures multiset(Filter(s, keep))[x] == (if keep(x) then multiset(s)[x] else 0)
  {
    if |s| > 0 {
      FilterMultiset(s[1..], keep, x);
      assert s == [s[0]] + s[1..];
    }
  }

  /** Filtering keeps the length exactly when every row is kept, and then
      the rows are unchanged. */
  lemma {:induction false} FilterKeepsAllIff<T>(s: seq<T>, keep: T -> bool)
    ensures |Filter(s, keep)| == |s| <==> forall k :: 0 <= k < |s| ==> keep(s[k])
    ensures |Filter(s, keep)| == |s| ==> Filter(s, keep) == s
  {
    if |s| > 0 {
      FilterKeepsAllIff(s[1..], keep);
      assert forall k :: 1 <= k < |s| ==> s[k] == s[1..][k - 1];
      assert s == [s[0]] + s[1..];
    }
  }

  /** Rows compared by one column. */
  function ByKey<T, K>(key: T -> K, le: (K, K) -> bool): (T, T) -> bool {
    (a: T, b: T) => le(key(a), key(b))
  }

  /** Comparing rows by a column ordered by a total preorder is again a
      total preorder. */
  lemma ByKeyPreorder<T(!new), K(!new)>(key: T -> K, le: (K, K) -> bool)
    requires TotalPreorder(le)
    ensures TotalPreorder(ByKey(key, le))
  {
  }

  /** `r` is what `SELECT ... WHERE keep ORDER BY le` returns over `s`: the
      rows that satisfy `keep`, each as often as it occurs, sorted. */
  ghost predicate IsQueryResult<T>(r: seq<T>, s: seq<T>, keep: T -> bool, le: (T, T) -> bool) {
    Sorted(r, le) && multiset(r) == multiset(Filter(s, keep))
  }

  /** One answer to such a query: the matching rows in table order, sorted. */
  function Query<T(!new)>(s: seq<T>, keep: T -> bool, le: (T, T) -> bool): (r: seq<T>)
    requires TotalPreorder(le)
    ensures IsQueryResult(r, s, keep, le)
    ensures |r| == |Filter(s, keep)|
    ensures forall x :: x in r <==> x in s && keep(x)
  {
    var r := Sort(Filter(s, keep), le);
    assert forall x :: x in r <==> x in Filter(s, keep) by {
      forall x
        ensures x in r <==> x in Filter(s, keep)
      {
        assert x in r <==> x in multiset(r);
      }
    }
    r
  }

  /** A query result is empty exactly when no row matches. */
  lemma QueryEmptyIff<T>(r: seq<T>, s: seq<T>, keep: T -> bool, le: (T, T) -> bool)
    requires IsQueryResult(r, s, keep, le)
    ensures |r| == 0 <==> forall k :: 0 <= k < |s| ==> !keep(s[k])
  {
    assert |r| == |multiset(r)|;
    var f := Filter(s, keep);
    assert |f| == |multiset(f)|;
    if |f| > 0 {
      assert keep(f[0]) && f[0] in s;
    }
  }

  /** The position of the first row satisfying `p`: the row `QueryRow`
      scans when the rows come back in table order. */
  function FirstWhere<T>(s: seq<T>, p: T -> bool): (r: Option<nat>)
    ensures r.None? <==> forall k :: 0 <= k < |s| ==> !p(s[k])
    ensures r.Some? ==> r.value < |s| && p(s[r.value]) && forall k :: 0 <= k < r.value ==> !p(s[k])
  {
    if |s| == 0 then None
    else if p(s[0]) then Some(0)
    else
      var rest := FirstWhere(s[1..], p);
      assert forall k :: 1 <= k < |s| ==> s[k] == s[1..][k - 1];
      if rest.None? then None else Some(rest.value + 1)
  }
}

=== FILE: staff.dfy ===
/** Staff members of a provider (`internal/data/staff.go`): validation, the
    transactional insert of a member together with the services they offer,
    and the listing by provider. */
module StaffMembers {
  import opened Wrappers
  import opened Decimal
  import opened Validation
  import opened Store
  import Sorting

  datatype Staff = Staff(
    id: int, providerId: int, name: string, phone: string, email: string,
    profilePicture: string, isOwner: bool, services: seq<int>)

  /** The key of the check on position `i` of the service list,
      `fmt.Sprintf("services[%d]", i)`. */
  function ServiceKey(i: nat): (k: string)
    ensures |k| >= 11
    ensures k[..9] == "services[" && k[|k| - 1] == ']'
  {
    "services[" + FormatNat(i) + "]"
  }

  /** Different positions report under different keys. */
  lemma ServiceKeyInjective(i: nat, j: nat)
    ensures ServiceKey(i) == ServiceKey(j) <==> i == j
  {
    var a := ServiceKey(i);
    var b := ServiceKey(j);
    assert a[9..|a| - 1] == FormatNat(i);
    assert b[9..|b| - 1] == FormatNat(j);
    FormatNatInjective(i, j);
  }

  /** No position key collides with a field key. */
  lemma ServiceKeyFresh(i: nat)
    ensures ServiceKey(i) !in {"name", "phone", "email", "services"}
  {
  }

  const InvalidServiceId: string := "must be a valid service ID"

  /** The keys of the positions holding an id `<= 0`. */
  ghost function BadIdKeys(ids: seq<int>): set<string> {
    set i | 0 <= i < |ids| && ids[i] <= 0 :: ServiceKey(i)
  }

  /** The loop over the service list: one check per position, in order. */
  function CheckServiceIds(v: Validator, ids: seq<int>): (r: Validator)
    ensures Extends(v, r)
    ensures r.errors.Keys == v.errors.Keys + BadIdKeys(ids)
    decreases |ids|
  {
    if |ids| == 0 then v
    else
      var n := |ids| - 1;
      var v1 := CheckServiceIds(v, ids[..n]);
      BadIdKeysSnoc(ids);
      var r := Check(v1, ids[n] > 0, ServiceKey(n), InvalidServiceId);
      ExtendsTransitive(v, v1, r);
      r
  }

  lemma BadIdKeysSnoc(ids: seq<int>)
    requires |ids| > 0
    ensures var n := |ids| - 1;
      BadIdKeys(ids) == BadIdKeys(ids[..n]) + (if ids[n] <= 0 then {ServiceKey(n)} else {})
  {
    var n := |ids| - 1;
    assert forall i :: 0 <= i < n ==> ids[..n][i] == ids[i];
  }

  /** Every position with an id `<= 0` carries the invalid-id message. */
  lemma {:induction false} ServiceIdMessages(v: Validator, ids: seq<int>)
    ensures forall i :: 0 <= i < |ids| && ids[i] <= 0 && ServiceKey(i) !in v.errors ==>
      CheckServiceIds(v, ids).errors[ServiceKey(i)] == InvalidServiceId
    decreases |ids|
  {
    if |ids| > 0 {
      var n := |ids| - 1;
      var v1 := CheckServiceIds(v, ids[..n]);
      ServiceIdMessages(v, ids[..n]);
      assert forall i :: 0 <= i < n ==> ids[..n][i] == ids[i];
      forall i | 0 <= i < n && ids[i] <= 0
        ensures ServiceKey(i) != ServiceKey(n)
      {
        ServiceKeyInjective(i, n);
      }
      assert ServiceKey(n) !in BadIdKeys(ids[..n]);
    }
  }

  /** `ServiceKey(i)` is in error exactly when position `i` holds an id `<= 0`. */
  lemma BadIdKeyIff(ids: seq<int>, i: nat)
    ensures ServiceKey(i) in BadIdKeys(ids) <==> i < |ids| && ids[i] <= 0
  {
    if ServiceKey(i) in BadIdKeys(ids) {
      var j :| 0 <= j < |ids| && ids[j] <= 0 && ServiceKey(j) == ServiceKey(i);
      ServiceKeyInjective(i, j);
    }
  }

  predicate NameOk(name: string) {
    name != "" && |name| <= 100
  }

  predicate PhoneOk(phone: string) {
    phone != "" && MatchesPhone(phone)
  }

  /** `matchesEmail` stands for `validator.Matches(email, EmailRX)`. */
  predicate EmailOk(email: string, matchesEmail: string -> bool) {
    email != "" && matchesEmail(email)
  }

  ghost function ContactErrors(s: Staff, matchesEmail: string -> bool): set<string> {
    (if PhoneOk(s.phone) then {} else {"phone"}) + (if EmailOk(s.email, matchesEmail) then {} else {"email"})
  }

  ghost function PersonErrors(s: Staff, matchesEmail: string -> bool): set<string> {
    (if NameOk(s.name) then {} else {"name"}) + ContactErrors(s, matchesEmail)
  }

  ghost function ServicesErrors(ids: seq<int>): set<string> {
    (if |ids| > 0 then {} else {"services"}) + BadIdKeys(ids)
  }

  ghost function StaffErrors(s: Staff, matchesEmail: string -> bool): set<string> {
    PersonErrors(s, matchesEmail) + ServicesErrors(s.services)
  }

  function ValidateContact(v: Validator, s: Staff, matchesEmail: string -> bool): (r: Validator)
    ensures Extends(v, r)
    ensures r.errors.Keys == v.errors.Keys + ContactErrors(s, matchesEmail)
  {
    var v1 := CheckBoth(v, s.phone != "", MatchesPhone(s.phone), "phone",
                        "must be provided", "must be a valid phone number");
    var r := CheckBoth(v1, s.email != "", matchesEmail(s.email), "email",
                       "must be provided", "must be a valid email address");
    ExtendsTransitive(v, v1, r);
    r
  }

  /** The name, phone and email checks. */
  function ValidatePerson(v: Validator, s: Staff, matchesEmail: string -> bool): (r: Validator)
    ensures Extends(v, r)
    ensures r.errors.Keys == v.errors.Keys + PersonErrors(s, matchesEmail)
  {
    var v1 := CheckBoth(v, s.name != "", |s.name| <= 100, "name",
                        "must be provided", "must not be more than 100 characters");
    var r := ValidateContact(v1, s, matchesEmail);
    ExtendsTransitive(v, v1, r);
    r
  }

  /** The service list must be non-empty and every id positive. */
  function ValidateServiceIds(v: Validator, ids: seq<int>): (r: Validator)
    ensures Extends(v, r)
    ensures r.errors.Keys == v.errors.Keys + ServicesErrors(ids)
  {
    var v1 := Check(v, |ids| > 0, "services", "at least one service must be provided");
    var r := CheckServiceIds(v1, ids);
    ExtendsTransitive(v, v1, r);
    r
  }

  /** `ValidateStaff`. */
  function ValidateStaff(v: Validator, s: Staff, matchesEmail: string -> bool): (r: Validator)
    ensures Extends(v, r)
    ensures r.errors.Keys == v.errors.Keys + StaffErrors(s, matchesEmail)
  {
    var v1 := ValidatePerson(v, s, matchesEmail);
    var r := ValidateServiceIds(v1, s.services);
    ExtendsTransitive(v, v1, r);
    r
  }

  ghost predicate StaffOk(s: Staff, matchesEmail: string -> bool) {
    && NameOk(s.name) && PhoneOk(s.phone) && EmailOk(s.email, matchesEmail)
    && |s.services| > 0
    && forall i :: 0 <= i < |s.services| ==> s.services[i] > 0
  }

  /** A staff member passes validation exactly when every field is acceptable. */
  lemma ValidStaffIff(s: Staff, matchesEmail: string -> bool)
    ensures Valid(ValidateStaff(New(), s, matchesEmail)) <==> StaffOk(s, matchesEmail)
  {
    var errs := StaffErrors(s, matchesEmail);
    assert Valid(ValidateStaff(New(), s, matchesEmail)) <==> errs == {};
    if !StaffOk(s, matchesEmail) {
      if !NameOk(s.name) { assert "name" in errs; }
      else if !PhoneOk(s.phone) { assert "phone" in errs; }
      else if !EmailOk(s.email, matchesEmail) { assert "email" in errs; }
      else if |s.services| == 0 { assert "services" in errs; }
      else {
        var i :| 0 <= i < |s.services| && s.services[i] <= 0;
        assert ServiceKey(i) in BadIdKeys(s.services);
      }
    } else {
      assert BadIdKeys(s.services) == {};
    }
  }

  /** Each position is reported under its own key: `services[i]` is in error
      exactly when position `i` holds an id `<= 0`. */
  lemma ServiceKeyIff(s: Staff, matchesEmail: string -> bool, i: nat)
    ensures ServiceKey(i) in ValidateStaff(New(), s, matchesEmail).errors <==>
      i < |s.services| && s.services[i] <= 0
  {
    ServiceKeyFresh(i);
    assert ServiceKey(i) !in PersonErrors(s, matchesEmail);
    BadIdKeyIff(s.services, i);
  }

  /** The messages of the phone and email checks. */
  lemma ContactMessages(v: Validator, s: Staff, matchesEmail: string -> bool)
    ensures var r := ValidateContact(v, s, matchesEmail);
      && ("phone" !in v.errors && !PhoneOk(s.phone) ==>
            r.errors["phone"] == (if s.phone == "" then "must be provided" else "must be a valid phone number"))
      && ("email" !in v.errors && !EmailOk(s.email, matchesEmail) ==>
            r.errors["email"] == (if s.email == "" then "must be provided" else "must be a valid email address"))
  {
    var v1 := CheckBoth(v, s.phone != "", MatchesPhone(s.phone), "phone",
                        "must be provided", "must be a valid phone number");
  }

  /** The messages of the name, phone and email checks. */
  lemma PersonMessages(v: Validator, s: Staff, matchesEmail: string -> bool)
    ensures var r := ValidatePerson(v, s, matchesEmail);
      && ("name" !in v.errors && !NameOk(s.name) ==>
            r.errors["name"] == (if s.name == "" then "must be provided" else "must not be more than 100 characters"))
      && ("phone" !in v.errors && !PhoneOk(s.phone) ==>
            r.errors["phone"] == (if s.phone == "" then "must be provided" else "must be a valid phone number"))
      && ("email" !in v.errors && !EmailOk(s.email, matchesEmail) ==>
            r.errors["email"] == (if s.email == "" then "must be provided" else "must be a valid email address"))
  {
    var v1 := CheckBoth(v, s.name != "", |s.name| <= 100, "name",
                        "must be provided", "must not be more than 100 characters");
    ContactMessages(v1, s, matchesEmail);
  }

  /** The messages of the service list checks. */
  lemma ServicesMessages(v: Validator, ids: seq<int>)
    ensures var r := ValidateServiceIds(v, ids);
      && ("services" !in v.errors && |ids| == 0 ==> r.errors["services"] == "at least one service must be provided")
      && (forall i :: 0 <= i < |ids| && ids[i] <= 0 && ServiceKey(i) !in v.errors ==>
            r.errors[ServiceKey(i)] == InvalidServiceId)
  {
    var v1 := Check(v, |ids| > 0, "services", "at least one service must be provided");
    ServiceIdMessages(v1, ids);
    forall i | 0 <= i < |ids| && ids[i] <= 0
      ensures ServiceKey(i) != "services"
    {
      ServiceKeyFresh(i);
    }
  }

  /** The messages `ValidateStaff` records for the name, phone and email
      when they are not yet in error. */
  lemma StaffFieldMessages(v: Validator, s: Staff, matchesEmail: string -> bool)
    ensures var r := ValidateStaff(v, s, matchesEmail);
      && ("name" !in v.errors && !NameOk(s.name) ==>
            r.errors["name"] == (if s.name == "" then "must be provided" else "must not be more than 100 characters"))
      && ("phone" !in v.errors && !PhoneOk(s.phone) ==>
            r.errors["phone"] == (if s.phone == "" then "must be provided" else "must be a valid phone number"))
      && ("email" !in v.errors && !EmailOk(s.email, matchesEmail) ==>
            r.errors["email"] == (if s.email == "" then "must be provided" else "must be a valid email address"))
  {
    PersonMessages(v, s, matchesEmail);
  }

  /** The messages `ValidateStaff` records for the service list when its
      keys are not yet in error. */
  lemma StaffServiceMessages(v: Validator, s: Staff, matchesEmail: string -> bool)
    ensures var r := ValidateStaff(v, s, matchesEmail);
      && ("services" !in v.errors && |s.services| == 0 ==>
            r.errors["services"] == "at least one service must be provided")
      && (forall i :: 0 <= i < |s.services| && s.services[i] <= 0 && ServiceKey(i) !in v.errors ==>
            r.errors[ServiceKey(i)] == InvalidServiceId)
  {
    var v1 := ValidatePerson(v, s, matchesEmail);
    assert "services" !in PersonErrors(s, matchesEmail);
    forall i | 0 <= i < |s.services| && s.services[i] <= 0 && ServiceKey(i) !in v.errors
      ensures ServiceKey(i) !in v1.errors
    {
      ServiceKeyFresh(i);
    }
    ServicesMessages(v1, s.services);
  }

  /** One tuple of the multi-row `VALUES` list; `$k` names argument `k`. */
  datatype Placeholder = Placeholder(staffParam: nat, serviceParam: nat, providerParam: nat)

  /** Tuple `i` is `($1, $(i+3), $2)`. */
  function Placeholders(n: nat): (ps: seq<Placeholder>)
    ensures |ps| == n
  {
    seq(n, i requires 0 <= i < n => Placeholder(1, i + 3, 2))
  }

  /** `fmt.Sprintf("($1, $%d, $2)", i+3)`. */
  function PlaceholderText(i: nat): (t: string)
    ensures |t| >= 12
  {
    "($1, $" + FormatNat(i + 3) + ", $2)"
  }

  /** Different positions get different tuple texts. */
  lemma PlaceholderTextInjective(i: nat, j: nat)
    ensures PlaceholderText(i) == PlaceholderText(j) <==> i == j
  {
    var a := PlaceholderText(i);
    var b := PlaceholderText(j);
    assert a[6..|a| - 5] == FormatNat(i + 3);
    assert b[6..|b| - 5] == FormatNat(j + 3);
    FormatNatInjective(i + 3, j + 3);
  }

  /** The arguments: staff id, provider id, then the service ids in order. */
  function Args(staffId: int, providerId: int, services: seq<int>): (args: seq<int>)
    ensures |args| == |services| + 2
  {
    [staffId, providerId] + services
  }

  predicate InRange(p: Placeholder, n: nat) {
    1 <= p.staffParam <= n && 1 <= p.serviceParam <= n && 1 <= p.providerParam <= n
  }

  /** The row a tuple denotes once `$k` is replaced by `args[k - 1]`. */
  function Resolve(p: Placeholder, args: seq<int>): StaffServiceRow
    requires InRange(p, |args|)
  {
    StaffServiceRow(args[p.staffParam - 1], args[p.serviceParam - 1], args[p.providerParam - 1])
  }

  /** One `staff_services` row per service, in input order. */
  function StaffLinks(staffId: int, providerId: int, services: seq<int>): (links: seq<StaffServiceRow>)
    ensures |links| == |services|
  {
    seq(|services|, i requires 0 <= i < |services| => StaffServiceRow(staffId, services[i], providerId))
  }

  /** The argument numbers the tuples name for the service id. */
  function ServiceParams(ps: seq<Placeholder>): (params: seq<nat>)
    ensures |params| == |ps|
  {
    seq(|ps|, i requires 0 <= i < |ps| => ps[i].serviceParam)
  }

  /** The placeholders and arguments fit together: every parameter a tuple
      names exists, tuple `i` denotes the link of service `i`, and every
      argument is named by some tuple. */
  lemma PlaceholdersResolve(staffId: int, providerId: int, services: seq<int>)
    ensures var ps := Placeholders(|services|);
      var args := Args(staffId, providerId, services);
      forall i :: 0 <= i < |ps| ==>
        InRange(ps[i], |args|) && Resolve(ps[i], args) == StaffServiceRow(staffId, services[i], providerId)
    ensures forall k :: 3 <= k <= |services| + 2 ==> k in ServiceParams(Placeholders(|services|))
    ensures var ps := Placeholders(|services|);
      |services| > 0 ==> ps[0].staffParam == 1 && ps[0].providerParam == 2
  {
    var ps := Placeholders(|services|);
    forall k | 3 <= k <= |services| + 2
      ensures k in ServiceParams(ps)
    {
      assert ServiceParams(ps)[k - 3] == k;
    }
  }

  /** The staff row as inserted; the database assigns the id. */
  function StaffRowOf(s: Staff): StaffRow {
    StaffRow(0, s.providerId, s.name, s.phone, s.email, s.profilePicture, s.isOwner)
  }

  /** The statements inside the transaction: the staff row, then the links
      in one statement when there are services to link. */
  function InsertBody(db: Db, s: Staff): (body: seq<Stmt>)
    ensures |body| == if |s.services| > 0 then 2 else 1
  {
    [InsertStaff(StaffRowOf(s))]
      + (if |s.services| > 0 then [InsertStaffServices(StaffLinks(db.nextId, s.providerId, s.services))] else [])
  }

  /** The state a committed insert leaves. */
  function Inserted(db: Db, s: Staff): Db {
    db.(staff := db.staff + [StaffRowOf(s).(id := db.nextId)],
        staffServices := db.staffServices + StaffLinks(db.nextId, s.providerId, s.services),
        nextId := db.nextId + 1)
  }

  lemma ApplyInsertBody(db: Db, s: Staff)
    ensures ApplyAll(db, InsertBody(db, s)) == Inserted(db, s)
  {
    var body := InsertBody(db, s);
    var first := Apply(db, InsertStaff(StaffRowOf(s)));
    assert ApplyAll(db, body[..1]) == first by {
      assert body[..1][..0] == [];
    }
    if |s.services| == 0 {
      assert body == body[..1];
      assert StaffLinks(db.nextId, s.providerId, s.services) == [];
      assert db.staffServices + [] == db.staffServices;
    } else {
      assert body[..|body| - 1] == body[..1];
    }
  }

  /** The link statement failing on a foreign key means an unknown service;
      every other error is returned as the driver reported it. */
  function InsertError(i: nat, e: DbError): Error {
    if i == 1 && IsPgCode(e, ForeignKeyViolation) then ServiceNotFound else DbFailure(e)
  }

  /** `StaffModel.Insert` as written.  The deferred function assigns the
      error of `Commit` to the local `err`, but the function's result is not
      named, so the value already returned (`nil`) stands: a failed commit is
      reported as success, with the new id, although nothing was stored. */
  function InsertAsWritten(db: Db, eng: Engine, s: Staff): (o: Outcome<int>)
    ensures o.result.Success? <==> eng(db, Begin).None? && AllAccepted(db, eng, InsertBody(db, s))
    ensures o.result.Success? ==> o.result.value == db.nextId
    ensures o.db == db || o.db == Inserted(db, s)
    ensures o.db == Inserted(db, s) && Inserted(db, s) != db ==> o.result.Success?
    ensures o.result.Success? && eng(Inserted(db, s), Commit).Some? ==> o.db == db
  {
    var body := InsertBody(db, s);
    var t := Transaction(db, eng, body);
    ApplyInsertBody(db, s);
    match t.result
    case Committed => Outcome(t.db, t.trace, Success(db.nextId))
    case BeginFailed(e) => Outcome(db, t.trace, Failure(DbFailure(e)))
    case StmtFailed(i, e) => Outcome(db, t.trace, Failure(InsertError(i, e)))
    case CommitFailed(_) => Outcome(db, t.trace, Success(db.nextId))
  }

  /** `StaffModel.Insert` with the commit error returned, as a named result
      would do: all or nothing, and success only when the commit went
      through. */
  function Insert(db: Db, eng: Engine, s: Staff): (o: Outcome<int>)
    ensures o.result.Failure? ==> o.db == db
    ensures o.result.Success? ==> o.result.value == db.nextId && o.db == Inserted(db, s)
    ensures o.result.Success? <==>
      && eng(db, Begin).None?
      && AllAccepted(db, eng, InsertBody(db, s))
      && eng(Inserted(db, s), Commit).None?
    ensures o.result == Failure(ServiceNotFound) <==>
      && eng(db, Begin).None?
      && |s.services| > 0
      && FirstRejectedAt(db, eng, InsertBody(db, s), 1)
      && IsPgCode(RejectionAt(db, eng, InsertBody(db, s), 1), ForeignKeyViolation)
    ensures 1 <= |o.trace| <= |TxStatements(InsertBody(db, s))|
    ensures o.trace == TxStatements(InsertBody(db, s))[..|o.trace|]
  {
    var body := InsertBody(db, s);
    var t := Transaction(db, eng, body);
    ApplyInsertBody(db, s);
    match t.result
    case Committed => Outcome(t.db, t.trace, Success(db.nextId))
    case BeginFailed(e) => Outcome(db, t.trace, Failure(DbFailure(e)))
    case CommitFailed(e) => Outcome(db, t.trace, Failure(DbFailure(e)))
    case StmtFailed(i, e) =>
      TxPrefix(body, i + 1);
      FirstRejectedOnly(db, eng, body, i);
      Outcome(db, t.trace, Failure(InsertError(i, e)))
  }

  /** The two versions differ only when the commit fails after every
      statement was accepted. */
  lemma AsWrittenAgrees(db: Db, eng: Engine, s: Staff)
    ensures InsertAsWritten(db, eng, s) != Insert(db, eng, s) <==>
      && eng(db, Begin).None?
      && AllAccepted(db, eng, InsertBody(db, s))
      && eng(Inserted(db, s), Commit).Some?
  {
    ApplyInsertBody(db, s);
  }

  /** A database that accepts every statement but the commit. */
  function RejectCommit(e: DbError): Engine {
    (d: Db, st: Stmt) => if st == Commit then Some(e) else None
  }

  /** The input that shows the lost commit error: any staff member, any
      state, and a commit that fails.  As written, the insert reports
      success with a new id while the state is unchanged; the corrected
      insert reports the failure. */
  lemma CommitFailureReportedAsSuccess(db: Db, s: Staff, e: DbError)
    ensures var o := InsertAsWritten(db, RejectCommit(e), s);
      o.result == Success(db.nextId) && o.db == db
    ensures Insert(db, RejectCommit(e), s).result == Failure(DbFailure(e))
  {
    var eng := RejectCommit(e);
    var body := InsertBody(db, s);
    assert AllAccepted(db, eng, body) by {
      forall j | 0 <= j < |body|
        ensures AcceptedAt(db, eng, body, j)
      {
        assert body[j] != Commit;
      }
    }
    ApplyInsertBody(db, s);
  }

  /** The staff row is the first statement after `BeginTx`, and no link is
      sent for an empty service list. */
  lemma StaffRowFirst(db: Db, eng: Engine, s: Staff)
    ensures var o := Insert(db, eng, s);
      && o.trace[0] == Begin
      && (|o.trace| > 1 ==> o.trace[1] == InsertStaff(StaffRowOf(s)))
      && (|s.services| == 0 ==> forall k :: 0 <= k < |o.trace| ==> !o.trace[k].InsertStaffServices?)
  {
    var o := Insert(db, eng, s);
    TxTraceAt(o.trace, InsertBody(db, s));
  }


  /** A staff member as listed: the query reads neither the provider nor the
      services, so those keep their zero values. */
  function Listed(row: StaffRow): Staff {
    Staff(row.id, 0, row.name, row.phone, row.email, row.profilePicture, row.isOwner, [])
  }

  function ListedAll(rows: seq<StaffRow>): (r: seq<Staff>)
    ensures |r| == |rows|
  {
    seq(|rows|, i requires 0 <= i < |rows| => Listed(rows[i]))
  }

  function OfProvider(providerId: int): StaffRow -> bool {
    (row: StaffRow) => row.providerId == providerId
  }

  function ByName(nameLe: (string, string) -> bool): (StaffRow, StaffRow) -> bool {
    Sorting.ByKey((row: StaffRow) => row.name, nameLe)
  }

  /** The listing of a provider's staff: a sorted permutation of their rows,
      read back, empty exactly when the provider has no staff. */
  function Listing(db: Db, providerId: int, nameLe: (string, string) -> bool): (items: seq<Staff>)
    requires Sorting.TotalPreorder(nameLe)
    ensures exists rows ::
      Sorting.IsQueryResult(rows, db.staff, OfProvider(providerId), ByName(nameLe)) && items == ListedAll(rows)
    ensures |items| == 0 <==> forall k :: 0 <= k < |db.staff| ==> db.staff[k].providerId != providerId
    ensures forall i, j :: 0 <= i < j < |items| ==> nameLe(items[i].name, items[j].name)
  {
    Sorting.ByKeyPreorder((row: StaffRow) => row.name, nameLe);
    var rows := Sorting.Query(db.staff, OfProvider(providerId), ByName(nameLe));
    Sorting.QueryEmptyIff(rows, db.staff, OfProvider(providerId), ByName(nameLe));
    var items := ListedAll(rows);
    assert forall i, j :: 0 <= i < j < |items| ==> ByName(nameLe)(rows[i], rows[j]);
    items
  }

  /** `GetAllByProviderID`: the provider's staff ordered by name under the
      database collation `nameLe`; `nil` when there is none. */
  function GetAllByProviderID(db: Db, eng: Engine, providerId: int, nameLe: (string, string) -> bool)
    : (o: Outcome<GoSlice<Staff>>)
    requires Sorting.TotalPreorder(nameLe)
    ensures o.db == db && o.trace == [SelectStaff(providerId)]
    ensures o.result.Failure? <==> eng(db, SelectStaff(providerId)).Some?
    ensures o.result.Failure? ==> o.result.error == DbFailure(eng(db, SelectStaff(providerId)).value)
    ensures o.result.Success? ==> Elems(o.result.value) == Listing(db, providerId, nameLe)
    ensures o.result.Success? ==>
      (o.result.value.Nil? <==> forall k :: 0 <= k < |db.staff| ==> db.staff[k].providerId != providerId)
  {
    var st := SelectStaff(providerId);
    match eng(db, st)
    case Some(e) => Outcome(db, [st], Failure(DbFailure(e)))
    case None => Outcome(db, [st], Success(Appended(Listing(db, providerId, nameLe))))
  }
}

=== FILE: store.dfy ===
/** The relational state behind the `internal/data` models, as a value.

    Every table is a sequence of rows in insertion order.  A statement's
    effect on the state is fixed (`Apply`); whether the database rejects it
    (a unique or foreign-key violation, a lost connection, a timeout) is
    decided by an `Engine`, a parameter the model never inspects.  Ids handed
    out by `RETURNING id` come from one counter and `now()` is a field of the
    state.  A transaction either applies all its statements or leaves the
    state exactly as it was. */
module Store {
  import opened Wrappers
  import LocalTimes
  import Base32
  import Sorting

  type Bytes = seq<Base32.byte>

  /** The errors the database driver reports.  `PgError` is the pgx
      `*pgconn.PgError` with its SQLSTATE code and constraint name. */
  datatype DbError =
    | PgError(code: string, constraintName: string)
    | DriverError(message: string)

  const UniqueViolation: string := "23505"
  const ForeignKeyViolation: string := "23503"

  predicate IsPgCode(e: DbError, code: string) {
    e.PgError? && e.code == code
  }

  /** The errors of the data package: the sentinel errors of
      `internal/data/models.go` and the per-model ones, a driver error passed
      through unchanged, one wrapped with `fmt.Errorf("...: %w", err)`, or
      the error of the operating system's random source. */
  datatype Error =
    | RecordNotFound
    | DuplicateRecord
    | DuplicateEmail
    | DuplicateCategory
    | CategoryNotFound
    | StaffNotFound
    | ServiceNotFound
    | DbFailure(cause: DbError)
    | Wrapped(context: string, cause: DbError)
    | RandomFailure

  datatype ServiceRow = ServiceRow(
    id: int, providerId: int, typeId: int, name: string, description: string,
    duration: string, price: real)
  datatype ServiceCategoryRow = ServiceCategoryRow(serviceId: int, categoryId: int, providerId: int)
  datatype StaffServiceRow = StaffServiceRow(staffId: int, serviceId: int, providerId: int)
  datatype ServiceImageRow = ServiceImageRow(serviceId: int, providerId: int, imageUrl: string, isPrimary: bool)
  datatype StaffRow = StaffRow(
    id: int, providerId: int, name: string, phone: string, email: string,
    profilePicture: string, isOwner: bool)
  datatype CategoryRow = CategoryRow(id: int, providerId: int, name: string)
  datatype BusinessHourRow = BusinessHourRow(
    id: int, providerId: int, dayOfWeek: int, isClosed: bool,
    openTime: Option<LocalTimes.LocalTime>, closeTime: Option<LocalTimes.LocalTime>)
  datatype UserRow = UserRow(
    id: int, email: string, firstName: string, lastName: string, phoneNumber: string,
    passwordHash: Option<Bytes>, activated: bool, role: string)
  datatype TokenRow = TokenRow(hash: Bytes, userId: int, expiry: int, scope: string)
  datatype EmailVerificationRow = EmailVerificationRow(hash: Bytes, email: string, expiry: int)
  datatype ProviderImageRow = ProviderImageRow(id: int, providerId: int, imageUrl: string, uploadedAt: int)

  datatype Db = Db(
    services: seq<ServiceRow>,
    serviceCategories: seq<ServiceCategoryRow>,
    staffServices: seq<StaffServiceRow>,
    serviceImages: seq<ServiceImageRow>,
    staff: seq<StaffRow>,
    categories: seq<CategoryRow>,
    businessHours: seq<BusinessHourRow>,
    users: seq<UserRow>,
    tokens: seq<TokenRow>,
    emailVerifications: seq<EmailVerificationRow>,
    providerImages: seq<ProviderImageRow>,
    nextId: int,
    now: int)

  /** The statements the models send.  An insert with `RETURNING id` carries
      its row with a placeholder id; the database assigns `nextId`. */
  datatype Stmt =
    | Begin
    | Commit
    | Prepare
    | InsertService(service: ServiceRow)
    | InsertServiceCategory(categoryLink: ServiceCategoryRow)
    | InsertStaffService(staffLink: StaffServiceRow)
    | InsertStaffServices(staffLinks: seq<StaffServiceRow>)
    | InsertServiceImage(image: ServiceImageRow)
    | DeleteService(serviceId: int, serviceProvider: int)
    | InsertStaff(member: StaffRow)
    | SelectStaff(staffProvider: int)
    | InsertCategory(category: CategoryRow)
    | SelectCategories(categoryProvider: int)
    | InsertBusinessHour(hour: BusinessHourRow)
    | SelectBusinessHours(hourProvider: int)
    | UpdateBusinessHour(hourId: int, isClosed: bool,
                         openTime: Option<LocalTimes.LocalTime>, closeTime: Option<LocalTimes.LocalTime>)
    | InsertUser(user: UserRow)
    | SelectUserForToken(tokenHash: Bytes, tokenScope: string, at: int)
    | SelectUserByEmail(userEmail: string)
    | InsertToken(token: TokenRow)
    | DeleteTokens(deleteScope: string, deleteUser: int)
    | InsertEmailVerification(verification: EmailVerificationRow)
    | SelectEmailVerification(verificationHash: Bytes, verifyAt: int)
    | DeleteEmailVerifications(verificationEmail: string)
    | InsertProviderImage(providerId: int, imageUrl: string)
    | SelectProviderImages(imageProvider: int)

  /** Decides whether the database rejects a statement in a given state. */
  type Engine = (Db, Stmt) -> Option<DbError>

  /** The new row a business-hour update leaves. */
  function UpdatedHour(h: BusinessHourRow, id: int, isClosed: bool,
                       openTime: Option<LocalTimes.LocalTime>, closeTime: Option<LocalTimes.LocalTime>): BusinessHourRow
  {
    if h.id == id then h.(isClosed := isClosed, openTime := openTime, closeTime := closeTime) else h
  }

  /** The effect of a statement the database accepted. */
  function Apply(db: Db, st: Stmt): Db {
    match st
    case InsertService(row) =>
      db.(services := db.services + [row.(id := db.nextId)], nextId := db.nextId + 1)
    case InsertServiceCategory(link) => db.(serviceCategories := db.serviceCategories + [link])
    case InsertStaffService(link) => db.(staffServices := db.staffServices + [link])
    case InsertStaffServices(links) => db.(staffServices := db.staffServices + links)
    case InsertServiceImage(image) => db.(serviceImages := db.serviceImages + [image])
    case DeleteService(id, providerId) =>
      db.(services := Sorting.Filter(db.services, (s: ServiceRow) => !(s.id == id && s.providerId == providerId)))
    case InsertStaff(row) =>
      db.(staff := db.staff + [row.(id := db.nextId)], nextId := db.nextId + 1)
    case InsertCategory(row) =>
      db.(categories := db.categories + [row.(id := db.nextId)], nextId := db.nextId + 1)
    case InsertBusinessHour(row) =>
      db.(businessHours := db.businessHours + [row.(id := db.nextId)], nextId := db.nextId + 1)
    case UpdateBusinessHour(id, isClosed, openTime, closeTime) =>
      db.(businessHours := seq(|db.businessHours|, i requires 0 <= i < |db.businessHours| =>
        UpdatedHour(db.businessHours[i], id, isClosed, openTime, closeTime)))
    case InsertUser(row) =>
      db.(users := db.users + [row.(id := db.nextId)], nextId := db.nextId + 1)
    case InsertToken(row) => db.(tokens := db.tokens + [row])
    case DeleteTokens(scope, userId) =>
      db.(tokens := Sorting.Filter(db.tokens, (t: TokenRow) => !(t.scope == scope && t.userId == userId)))
    case InsertEmailVerification(row) => db.(emailVerifications := db.emailVerifications + [row])
    case DeleteEmailVerifications(email) =>
      db.(emailVerifications := Sorting.Filter(db.emailVerifications, (e: EmailVerificationRow) => e.email != email))
    case InsertProviderImage(providerId, url) =>
      db.(providerImages := db.providerImages + [ProviderImageRow(db.nextId, providerId, url, db.now)],
          nextId := db.nextId + 1)
    case _ => db
  }

  /** The state after applying every statement in order, none rejected. */
  function ApplyAll(db: Db, stmts: seq<Stmt>): Db {
    if |stmts| == 0 then db else Apply(ApplyAll(db, stmts[..|stmts| - 1]), stmts[|stmts| - 1])
  }

  lemma {:induction false} ApplyAllAppend(db: Db, a: seq<Stmt>, b: seq<Stmt>)
    ensures ApplyAll(db, a + b) == ApplyAll(ApplyAll(db, a), b)
    decreases |b|
  {
    if |b| > 0 {
      var ab := a + b;
      assert ab[..|ab| - 1] == a + b[..|b| - 1];
      ApplyAllAppend(db, a, b[..|b| - 1]);
    } else {
      assert a + b == a;
    }
  }

  /** Statement `i` of `stmts` is accepted in the state its predecessors leave. */
  predicate AcceptedAt(db: Db, eng: Engine, stmts: seq<Stmt>, i: nat)
    requires i < |stmts|
  {
    eng(ApplyAll(db, stmts[..i]), stmts[i]).None?
  }

  /** Statement `i` is the first one the database rejects. */
  predicate FirstRejectedAt(db: Db, eng: Engine, stmts: seq<Stmt>, i: nat)
    requires i < |stmts|
  {
    && (forall j :: 0 <= j < i ==> AcceptedAt(db, eng, stmts, j))
    && !AcceptedAt(db, eng, stmts, i)
  }

  predicate AllAccepted(db: Db, eng: Engine, stmts: seq<Stmt>) {
    forall j :: 0 <= j < |stmts| ==> AcceptedAt(db, eng, stmts, j)
  }

  /** The error the database reports for statement `i`. */
  function RejectionAt(db: Db, eng: Engine, stmts: seq<Stmt>, i: nat): DbError
    requires i < |stmts| && !AcceptedAt(db, eng, stmts, i)
  {
    eng(ApplyAll(db, stmts[..i]), stmts[i]).value
  }

  /** Whether a statement is accepted depends only on the statements before it. */
  lemma PrefixAcceptedAt(db: Db, eng: Engine, stmts: seq<Stmt>, k: nat, j: nat)
    requires j < k <= |stmts|
    ensures AcceptedAt(db, eng, stmts[..k], j) == AcceptedAt(db, eng, stmts, j)
    ensures !AcceptedAt(db, eng, stmts, j) ==> RejectionAt(db, eng, stmts[..k], j) == RejectionAt(db, eng, stmts, j)
  {
    assert stmts[..k][..j] == stmts[..j];
  }

  datatype StmtError = StmtError(index: nat, error: DbError)

  /** Running statements one after the other, stopping at the first error. */
  datatype Run = Run(state: Db, trace: seq<Stmt>, failure: Option<StmtError>)

  function Exec(db: Db, eng: Engine, stmts: seq<Stmt>): (r: Run)
    ensures r.failure.None? <==> AllAccepted(db, eng, stmts)
    ensures r.failure.None? ==> r.state == ApplyAll(db, stmts) && r.trace == stmts
    ensures r.failure.Some? ==>
      && r.failure.value.index < |stmts|
      && FirstRejectedAt(db, eng, stmts, r.failure.value.index)
      && r.failure.value.error == RejectionAt(db, eng, stmts, r.failure.value.index)
      && r.trace == stmts[..r.failure.value.index + 1]
  {
    if |stmts| == 0 then Run(db, [], None)
    else
      var n := |stmts| - 1;
      var r := Exec(db, eng, stmts[..n]);
      AllAcceptedSnoc(db, eng, stmts);
      if r.failure.Some? then
        var i := r.failure.value.index;
        FirstRejectedPrefix(db, eng, stmts, n, i);
        assert stmts[..n][..i + 1] == stmts[..i + 1];
        r
      else
        match eng(r.state, stmts[n])
        case None => Run(Apply(r.state, stmts[n]), stmts, None)
        case Some(e) =>
          FirstRejectedLast(db, eng, stmts);
          Run(r.state, stmts, Some(StmtError(n, e)))
  }

  lemma AllAcceptedSnoc(db: Db, eng: Engine, stmts: seq<Stmt>)
    requires |stmts| > 0
    ensures AllAccepted(db, eng, stmts) <==>
      AllAccepted(db, eng, stmts[..|stmts| - 1]) && AcceptedAt(db, eng, stmts, |stmts| - 1)
  {
    var n := |stmts| - 1;
    forall j | 0 <= j < n
      ensures AcceptedAt(db, eng, stmts[..n], j) == AcceptedAt(db, eng, stmts, j)
    {
      PrefixAcceptedAt(db, eng, stmts, n, j);
    }
  }

  /** Extending an accepted run by one statement: the run stays accepted
      exactly when the state the run leaves accepts the statement. */
  lemma AcceptedExtend(db: Db, eng: Engine, stmts: seq<Stmt>, st: Stmt)
    ensures ApplyAll(db, stmts + [st]) == Apply(ApplyAll(db, stmts), st)
    ensures AllAccepted(db, eng, stmts + [st]) <==> AllAccepted(db, eng, stmts) && eng(ApplyAll(db, stmts), st).None?
  {
    var all := stmts + [st];
    assert all[..|all| - 1] == stmts;
    AllAcceptedSnoc(db, eng, all);
  }

  lemma FirstRejectedPrefix(db: Db, eng: Engine, stmts: seq<Stmt>, k: nat, i: nat)
    requires i < k <= |stmts|
    requires FirstRejectedAt(db, eng, stmts[..k], i)
    ensures FirstRejectedAt(db, eng, stmts, i)
    ensures RejectionAt(db, eng, stmts[..k], i) == RejectionAt(db, eng, stmts, i)
  {
    forall j | 0 <= j <= i
      ensures AcceptedAt(db, eng, stmts[..k], j) == AcceptedAt(db, eng, stmts, j)
    {
      PrefixAcceptedAt(db, eng, stmts, k, j);
    }
    PrefixAcceptedAt(db, eng, stmts, k, i);
  }

  lemma FirstRejectedLast(db: Db, eng: Engine, stmts: seq<Stmt>)
    requires |stmts| > 0
    requires AllAccepted(db, eng, stmts[..|stmts| - 1])
    requires !AcceptedAt(db, eng, stmts, |stmts| - 1)
    ensures FirstRejectedAt(db, eng, stmts, |stmts| - 1)
  {
    var n := |stmts| - 1;
    forall j | 0 <= j < n
      ensures AcceptedAt(db, eng, stmts, j)
    {
      PrefixAcceptedAt(db, eng, stmts, n, j);
    }
  }

  /** At most one statement is the first rejected one. */
  lemma FirstRejectedUnique(db: Db, eng: Engine, stmts: seq<Stmt>, i: nat, j: nat)
    requires i < |stmts| && j < |stmts|
    requires FirstRejectedAt(db, eng, stmts, i) && FirstRejectedAt(db, eng, stmts, j)
    ensures i == j
  {
  }

  /** The first rejected statement, once known, is the only one. */
  lemma FirstRejectedOnly(db: Db, eng: Engine, body: seq<Stmt>, i: nat)
    requires i < |body| && FirstRejectedAt(db, eng, body, i)
    ensures forall k: nat :: k < |body| && FirstRejectedAt(db, eng, body, k) ==> k == i
  {
    forall k: nat | k < |body| && FirstRejectedAt(db, eng, body, k)
      ensures k == i
    {
      FirstRejectedUnique(db, eng, body, i, k);
    }
  }

  /** How a transaction ended. */
  datatype TxResult =
    | Committed
    | BeginFailed(beginError: DbError)
    | StmtFailed(index: nat, stmtError: DbError)
    | CommitFailed(commitError: DbError)

  datatype TxRun = TxRun(db: Db, trace: seq<Stmt>, result: TxResult)

  /** `BeginTx`, the body statement by statement, and `Commit` on success or
      `Rollback` on the first error: the state changes only when the commit
      goes through, and then by the whole body. */
  function Transaction(db: Db, eng: Engine, body: seq<Stmt>): (t: TxRun)
    ensures t.result.Committed? ==> t.db == ApplyAll(db, body)
    ensures !t.result.Committed? ==> t.db == db
    ensures t.result.Committed? <==>
      eng(db, Begin).None? && AllAccepted(db, eng, body) && eng(ApplyAll(db, body), Commit).None?
    ensures t.result.BeginFailed? <==> eng(db, Begin).Some?
    ensures t.result.BeginFailed? ==> t.trace == [Begin] && t.result.beginError == eng(db, Begin).value
    ensures t.result.StmtFailed? <==> eng(db, Begin).None? && !AllAccepted(db, eng, body)
    ensures t.result.StmtFailed? ==>
      && t.result.index < |body|
      && FirstRejectedAt(db, eng, body, t.result.index)
      && t.result.stmtError == RejectionAt(db, eng, body, t.result.index)
      && t.trace == [Begin] + body[..t.result.index + 1]
    ensures t.result.CommitFailed? ==> t.trace == [Begin] + body + [Commit]
    ensures t.result.Committed? ==> t.trace == [Begin] + body + [Commit]
  {
    match eng(db, Begin)
    case Some(e) => TxRun(db, [Begin], BeginFailed(e))
    case None =>
      var r := Exec(db, eng, body);
      if r.failure.Some? then
        TxRun(db, [Begin] + r.trace, StmtFailed(r.failure.value.index, r.failure.value.error))
      else
        match eng(r.state, Commit)
        case Some(e) => TxRun(db, [Begin] + body + [Commit], CommitFailed(e))
        case None => TxRun(r.state, [Begin] + body + [Commit], Committed)
  }

  /** The statements a transaction around `body` can send, in order. */
  function TxStatements(body: seq<Stmt>): seq<Stmt> {
    [Begin] + body + [Commit]
  }

  /** Position `k` of the body is position `k + 1` of the transaction. */
  lemma TxStatementsIndex(body: seq<Stmt>)
    ensures |TxStatements(body)| == |body| + 2
    ensures TxStatements(body)[0] == Begin && TxStatements(body)[|body| + 1] == Commit
    ensures forall k :: 0 <= k < |body| ==> TxStatements(body)[k + 1] == body[k]
  {
  }

  /** A trace `a` followed by `b` and `x` starts with `a` and ends with `x`. */
  lemma AppendLast<T>(a: seq<T>, b: seq<T>, x: T)
    ensures var t := a + (b + [x]); |t| > 0 && t[|t| - 1] == x && a <= t
  {
    var t := a + (b + [x]);
    assert t[..|a|] == a;
  }

  /** Each position of a prefix of a transaction: begin, then the body in
      order, then the commit. */
  lemma TxTraceAt(trace: seq<Stmt>, body: seq<Stmt>)
    requires 1 <= |trace| <= |TxStatements(body)|
    requires trace == TxStatements(body)[..|trace|]
    ensures trace[0] == Begin
    ensures forall k :: 1 <= k < |trace| ==> trace[k] == (if k <= |body| then body[k - 1] else Commit)
  {
    TxStatementsIndex(body);
    forall k | 1 <= k < |trace|
      ensures trace[k] == (if k <= |body| then body[k - 1] else Commit)
    {
      if k <= |body| {
        assert TxStatements(body)[(k - 1) + 1] == body[k - 1];
      }
    }
  }

  /** The statements sent up to a rejected body statement are a prefix of
      the whole transaction. */
  lemma TxPrefix(body: seq<Stmt>, n: nat)
    requires n <= |body|
    ensures [Begin] + body[..n] == TxStatements(body)[..n + 1]
  {
    var all := TxStatements(body);
    assert all == [Begin] + (body + [Commit]);
    assert (body + [Commit])[..n] == body[..n];
  }

  /** What a transaction sends is a prefix of the statements it can send:
      up to the failing statement when one fails, and that statement is the
      first one the engine rejects. */
  lemma TxShape(db: Db, eng: Engine, body: seq<Stmt>)
    ensures var t := Transaction(db, eng, body);
      && 1 <= |t.trace| <= |TxStatements(body)|
      && t.trace == TxStatements(body)[..|t.trace|]
      && (t.result.StmtFailed? ==> |t.trace| == t.result.index + 2)
      && (forall i: nat :: i < |body| && eng(db, Begin).None? && FirstRejectedAt(db, eng, body, i) ==>
            t.result == StmtFailed(i, RejectionAt(db, eng, body, i)))
  {
    var t := Transaction(db, eng, body);
    if t.result.StmtFailed? {
      FirstRejectedOnly(db, eng, body, t.result.index);
      TxPrefix(body, t.result.index + 1);
    } else if t.result.BeginFailed? {
      assert TxStatements(body)[..1] == [Begin];
    } else {
      assert TxStatements(body)[..|t.trace|] == TxStatements(body);
    }
  }

  /** What a model operation leaves: the new state, the statements it sent
      in order, and its result. */
  datatype Outcome<T> = Outcome(db: Db, trace: seq<Stmt>, result: Result<T, Error>)

  /** A single statement outside any transaction. */
  function Single(db: Db, eng: Engine, st: Stmt): (r: (Db, Option<DbError>))
    ensures r.1 == eng(db, st)
    ensures r.1.None? ==> r.0 == Apply(db, st)
    ensures r.1.Some? ==> r.0 == db
  {
    match eng(db, st)
    case None => (Apply(db, st), None)
    case Some(e) => (db, Some(e))
  }

  /** A Go slice as JSON sees it: `nil` is written `null`, an empty non-nil
      slice `[]`.  A slice built by `append` onto a `nil` declaration stays
      `nil` when nothing is appended. */
  datatype GoSlice<T> = Nil | Items(elems: seq<T>)

  function Elems<T>(s: GoSlice<T>): seq<T> {
    if s.Nil? then [] else s.elems
  }

  /** `var xs []T` followed by one `append` per row. */
  function Appended<T>(rows: seq<T>): (s: GoSlice<T>)
    ensures s.Nil? <==> |rows| == 0
    ensures Elems(s) == rows
  {
    if |rows| == 0 then Nil else Items(rows)
  }
}

=== FILE: strs.dfy ===
/** The handful of Go `strings` operations the core relies on.  A Go string
    is modelled as a `seq<char>` holding one character per byte, so `len`
    agrees with `|s|` for ASCII text; `TrimSpace` alone looks at characters
    as Unicode code points, as the Go function decodes runes. */
module Strs {

  /** True when every character of `s` satisfies `f`. */
  predicate All(s: string, f: char -> bool) {
    forall i :: 0 <= i < |s| ==> f(s[i])
  }

  /** Go's `unicode.IsSpace`: the ASCII white space characters, U+0085,
      U+00A0 and the other code points of the Unicode White_Space property. */
  const SpaceChars: set<char> := {
    ' ', '\t', '\n', '\r', '\U{000B}', '\U{000C}', '\U{0085}', '\U{00A0}', '\U{1680}',
    '\U{2000}', '\U{2001}', '\U{2002}', '\U{2003}', '\U{2004}', '\U{2005}', '\U{2006}',
    '\U{2007}', '\U{2008}', '\U{2009}', '\U{200A}',
    '\U{2028}', '\U{2029}', '\U{202F}', '\U{205F}', '\U{3000}'}

  predicate IsSpace(c: char) {
    c in SpaceChars
  }

  /** `strings.TrimLeftFunc`: drops the longest prefix whose characters satisfy `f`. */
  function TrimLeftFunc(s: string, f: char -> bool): (r: string)
    ensures |r| <= |s| && r == s[|s| - |r|..]
    ensures All(s[..|s| - |r|], f)
    ensures r == [] || !f(r[0])
  {
    if |s| > 0 && f(s[0]) then
      var r := TrimLeftFunc(s[1..], f);
      assert s[1..][..|s[1..]| - |r|] == s[1..|s| - |r|];
      r
    else
      s
  }

  /** `strings.TrimRightFunc`: drops the longest suffix whose characters satisfy `f`. */
  function TrimRightFunc(s: string, f: char -> bool): (r: string)
    ensures |r| <= |s| && r == s[..|r|]
    ensures All(s[|r|..], f)
    ensures r == [] || !f(r[|r| - 1])
  {
    if |s| > 0 && f(s[|s| - 1]) then
      var r := TrimRightFunc(s[..|s| - 1], f);
      assert s[..|s| - 1][|r|..] + [s[|s| - 1]] == s[|r|..];
      r
    else
      s
  }

  /** `strings.TrimFunc`: both ends. */
  function TrimFunc(s: string, f: char -> bool): string {
    TrimRightFunc(TrimLeftFunc(s, f), f)
  }

  /** `strings.TrimSpace`. */
  function TrimSpace(s: string): string {
    TrimFunc(s, IsSpace)
  }

  /** `strings.Trim(s, cutset)` for a one-character cutset. */
  function TrimChar(s: string, c: char): string {
    TrimFunc(s, x => x == c)
  }

  /** The trimmed string is the infix `s[i..i + |r|]` of the input; what was
      removed on either side satisfies `f`, and the ends that remain do not. */
  lemma TrimFuncInfix(s: string, f: char -> bool) returns (i: nat)
    ensures var r := TrimFunc(s, f);
      && i + |r| <= |s| && r == s[i..i + |r|]
      && All(s[..i], f) && All(s[i + |r|..], f)
      && (r == [] || (!f(r[0]) && !f(r[|r| - 1])))
  {
    var l := TrimLeftFunc(s, f);
    var r := TrimRightFunc(l, f);
    i := |s| - |l|;
    InfixOfSuffix(s, i, |r|);
  }

  /** A prefix of a suffix is an infix, and what follows it is the rest of the suffix. */
  lemma InfixOfSuffix<T>(s: seq<T>, i: nat, n: nat)
    requires i + n <= |s|
    ensures s[i..][..n] == s[i..i + n]
    ensures s[i..][n..] == s[i + n..]
  {
  }

  /** The trimmed string is empty exactly when every character satisfies `f`. */
  lemma TrimFuncEmptyIffAll(s: string, f: char -> bool)
    ensures TrimFunc(s, f) == [] <==> All(s, f)
  {
    var l := TrimLeftFunc(s, f);
    if l != [] {
      assert s[|s| - |l|] == l[0];
      assert !All(s, f);
    }
    if TrimFunc(s, f) == [] {
      assert All(l, f);
      assert s == s[..|s| - |l|] + l;
    }
  }

  predicate HasPrefix(s: string, prefix: string) {
    |prefix| <= |s| && s[..|prefix|] == prefix
  }

  predicate HasSuffix(s: string, suffix: string) {
    |suffix| <= |s| && s[|s| - |suffix|..] == suffix
  }

  /** `strings.TrimPrefix`: removes one occurrence of `prefix` when present. */
  function TrimPrefix(s: string, prefix: string): (r: string)
    ensures HasPrefix(s, prefix) ==> prefix + r == s
    ensures !HasPrefix(s, prefix) ==> r == s
  {
    if HasPrefix(s, prefix) then s[|prefix|..] else s
  }

  /** `strings.Split(s, sep)` for a one-character separator: the pieces
      between separators, so `n` separators give `n + 1` pieces and the empty
      string gives one empty piece. */
  function Split(s: string, sep: char): (parts: seq<string>)
    ensures |parts| >= 1
    ensures forall i :: 0 <= i < |parts| ==> sep !in parts[i]
  {
    if |s| == 0 then [""]
    else
      var rest := Split(s[1..], sep);
      if s[0] == sep then [""] + rest
      else [[s[0]] + rest[0]] + rest[1..]
  }

  /** `strings.Join(parts, sep)`. */
  function Join(parts: seq<string>, sep: char): string
    requires |parts| >= 1
  {
    if |parts| == 1 then parts[0] else parts[0] + [sep] + Join(parts[1..], sep)
  }

  /** Joining the pieces of a split gives back the original string. */
  lemma {:induction false} JoinSplit(s: string, sep: char)
    ensures Join(Split(s, sep), sep) == s
  {
    if |s| > 0 {
      JoinSplit(s[1..], sep);
      var rest := Split(s[1..], sep);
      if s[0] != sep {
        var parts := Split(s, sep);
        if |rest| == 1 {
          assert parts == [[s[0]] + rest[0]];
        } else {
          assert parts[1..] == rest[1..];
          assert Join(parts, sep) == [s[0]] + rest[0] + [sep] + Join(rest[1..], sep);
        }
      }
    }
  }

  /** Splitting a join of separator-free pieces gives back the pieces. */
  lemma {:induction false} SplitJoin(parts: seq<string>, sep: char)
    requires |parts| >= 1
    requires forall i :: 0 <= i < |parts| ==> sep !in parts[i]
    ensures Split(Join(parts, sep), sep) == parts
  {
    if |parts| == 1 {
      SplitNoSep(parts[0], sep);
    } else {
      SplitJoin(parts[1..], sep);
      SplitPrefix(parts[0], Join(parts[1..], sep), sep);
      assert Join(parts, sep) == parts[0] + ([sep] + Join(parts[1..], sep));
      assert [parts[0]] + parts[1..] == parts;
    }
  }

  lemma {:induction false} SplitNoSep(s: string, sep: char)
    requires sep !in s
    ensures Split(s, sep) == [s]
  {
    if |s| > 0 {
      SplitNoSep(s[1..], sep);
      assert [s[0]] + s[1..] == s;
    }
  }

  lemma {:induction false} SplitPrefix(a: string, b: string, sep: char)
    requires sep !in a
    ensures Split(a + [sep] + b, sep) == [a] + Split(b, sep)
  {
    if |a| == 0 {
      assert a + [sep] + b == [sep] + b;
      assert ([sep] + b)[1..] == b;
    } else {
      SplitPrefix(a[1..], b, sep);
      assert (a + [sep] + b)[1..] == a[1..] + [sep] + b;
      assert [a[0]] + a[1..] == a;
    }
  }

  /** `strings.ReplaceAll(s, from, to)` for one-character `from` and `to`. */
  function ReplaceChar(s: string, from: char, to: char): (r: string)
    ensures |r| == |s|
    ensures forall i :: 0 <= i < |s| ==> r[i] == (if s[i] == from then to else s[i])
  {
    if |s| == 0 then "" else [if s[0] == from then to else s[0]] + ReplaceChar(s[1..], from, to)
  }

  /** ASCII case folding as done by `strings.ToLower` on ASCII text. */
  function ToLowerChar(c: char): char {
    if 'A' <= c <= 'Z' then (c as int + 32) as char else c
  }

  function ToLower(s: string): (r: string)
    ensures |r| == |s|
    ensures forall i :: 0 <= i < |s| ==> r[i] == ToLowerChar(s[i])
  {
    if |s| == 0 then "" else [ToLowerChar(s[0])] + ToLower(s[1..])
  }

  /** Lower-casing twice is lower-casing once. */
  lemma ToLowerIdempotent(s: string)
    ensures ToLower(ToLower(s)) == ToLower(s)
  {
    assert forall i :: 0 <= i < |s| ==> ToLowerChar(ToLowerChar(s[i])) == ToLowerChar(s[i]);
  }

  /** Lower-casing commutes with taking a suffix. */
  lemma ToLowerSuffix(s: string, k: nat)
    requires k <= |s|
    ensures ToLower(s[k..]) == ToLower(s)[k..]
  {
  }
}

=== FILE: tokens.dfy ===
/** Stateful tokens (`internal/data/tokens.go`): generation of a random
    plaintext whose length depends on the scope, its format check, and the
    rows of the `tokens` table.  The random source and SHA-256 are
    parameters: the model fixes what is done with their results, not the
    results themselves. */
module Tokens {
  import opened Wrappers
  import opened Validation
  import opened Store
  import Base32
  import Sorting

  const ScopeActivation: string := "activation"
  const ScopeAuthentication: string := "authentication"
  const ScopePasswordReset: string := "password-reset"

  datatype Token = Token(plaintext: string, hash: Bytes, userId: int, expiry: int, scope: string)

  /** `crypto/rand.Read` into a buffer of `n` bytes: the bytes read, or
      `None` when the operating system's source fails. */
  type RandomSource = nat -> Option<Bytes>

  /** A successful read fills the whole buffer. */
  ghost predicate FillsBuffer(random: RandomSource) {
    forall n: nat :: random(n).Some? ==> |random(n).value| == n
  }

  /** SHA-256 of the plaintext's bytes. */
  type Hasher = string -> Bytes

  /** How many random bytes a token of the scope is made from. */
  function RandomLength(scope: string): nat {
    if scope == ScopeAuthentication then 16 else 4
  }

  /** How many characters the plaintext of a token of the scope has. */
  function PlaintextLength(scope: string): nat {
    if scope == ScopeAuthentication then 26 else 6
  }

  /** `generateToken`: the random bytes are base32-encoded without padding;
      an authentication token keeps the whole encoding, any other scope its
      first six characters.  The hash is taken of the plaintext and the
      expiry is `ttl` after `now`. */
  function GenerateToken(userId: int, ttl: int, scope: string, now: int, random: RandomSource, sha: Hasher)
    : (r: Result<Token, Error>)
    requires FillsBuffer(random)
    ensures r.Failure? <==> random(RandomLength(scope)).None?
    ensures r.Failure? ==> r.error == RandomFailure
    ensures r.Success? ==>
      && |r.value.plaintext| == PlaintextLength(scope)
      && (forall i :: 0 <= i < |r.value.plaintext| ==> Base32.IsBase32Char(r.value.plaintext[i]))
      && r.value.plaintext <= Base32.Encode(random(RandomLength(scope)).value)
      && r.value.hash == sha(r.value.plaintext)
      && r.value.expiry == now + ttl
      && r.value.userId == userId
      && r.value.scope == scope
  {
    match random(RandomLength(scope))
    case None => Failure(RandomFailure)
    case Some(bytes) =>
      var encoded := Base32.Encode(bytes);
      Base32.EncodedLengths(bytes);
      var plaintext := if scope == ScopeAuthentication then encoded else encoded[..6];
      Success(Token(plaintext, sha(plaintext), userId, now + ttl, scope))
  }

  /** An authentication token carries all its random bytes: decoding the
      plaintext gives them back. */
  lemma AuthenticationTokenDecodes(userId: int, ttl: int, now: int, random: RandomSource, sha: Hasher)
    requires FillsBuffer(random)
    requires GenerateToken(userId, ttl, ScopeAuthentication, now, random, sha).Success?
    ensures Base32.Decode(GenerateToken(userId, ttl, ScopeAuthentication, now, random, sha).value.plaintext)
         == random(16).value
  {
    Base32.DecodeEncode(random(16).value);
  }

  /** `ValidateTokenPlaintext`: a plaintext passes exactly when it has 26
      characters; an empty one is reported as missing. */
  function ValidateTokenPlaintext(v: Validator, plaintext: string): (r: Validator)
    ensures Extends(v, r)
    ensures r.errors.Keys == v.errors.Keys + (if |plaintext| == 26 then {} else {"token"})
    ensures "token" !in v.errors && |plaintext| != 26 ==>
      r.errors["token"] == (if plaintext == "" then "must be provided" else "must be 26 bytes long")
  {
    CheckBoth(v, plaintext != "", |plaintext| == 26, "token", "must be provided", "must be 26 bytes long")
  }

  /** A freshly generated token passes the format check exactly when it is
      an authentication token: the six-character tokens of the other scopes
      never do. */
  lemma GeneratedTokenValidity(userId: int, ttl: int, scope: string, now: int, random: RandomSource, sha: Hasher)
    requires FillsBuffer(random)
    requires GenerateToken(userId, ttl, scope, now, random, sha).Success?
    ensures Valid(ValidateTokenPlaintext(New(), GenerateToken(userId, ttl, scope, now, random, sha).value.plaintext))
       <==> scope == ScopeAuthentication
  {
    var t := GenerateToken(userId, ttl, scope, now, random, sha).value;
    var r := ValidateTokenPlaintext(New(), t.plaintext);
    if scope != ScopeAuthentication {
      assert "token" in r.errors;
    }
  }

  /** The row `Insert` writes for a token. */
  function TokenRowOf(t: Token): TokenRow {
    TokenRow(t.hash, t.userId, t.expiry, t.scope)
  }

  /** `TokenModel.Insert`: one row; a database error is returned as is. */
  function Insert(db: Db, eng: Engine, t: Token): (o: Outcome<()>)
    ensures o.trace == [InsertToken(TokenRowOf(t))]
    ensures o.result.Success? <==> eng(db, InsertToken(TokenRowOf(t))).None?
    ensures o.result.Success? ==> o.db == db.(tokens := db.tokens + [TokenRowOf(t)])
    ensures o.result.Failure? ==>
      o.db == db && o.result.error == DbFailure(eng(db, InsertToken(TokenRowOf(t))).value)
  {
    var st := InsertToken(TokenRowOf(t));
    var (db', err) := Single(db, eng, st);
    if err.None? then Outcome(db', [st], Success(())) else Outcome(db, [st], Failure(DbFailure(err.value)))
  }

  /** What `TokenModel.New` hands back: the token, when one was generated,
      and the error, separately. */
  datatype Issued = Issued(db: Db, trace: seq<Stmt>, token: Option<Token>, err: Option<Error>)

  /** `TokenModel.New`: generate, then insert.  A token that was generated
      is returned even when its insert fails, together with that error. */
  function NewToken(db: Db, eng: Engine, userId: int, ttl: int, scope: string, now: int,
                    random: RandomSource, sha: Hasher): (o: Issued)
    requires FillsBuffer(random)
    ensures o.token.None? <==> random(RandomLength(scope)).None?
    ensures o.token.None? ==> o.db == db && o.trace == [] && o.err == Some(RandomFailure)
    ensures o.token.Some? ==>
      && Success(o.token.value) == GenerateToken(userId, ttl, scope, now, random, sha)
      && o.trace == [InsertToken(TokenRowOf(o.token.value))]
      && (o.err.None? <==> eng(db, InsertToken(TokenRowOf(o.token.value))).None?)
    ensures o.token.Some? && o.err.None? ==> o.db == db.(tokens := db.tokens + [TokenRowOf(o.token.value)])
    ensures o.err.Some? ==> o.db == db
  {
    match GenerateToken(userId, ttl, scope, now, random, sha)
    case Failure(e) => Issued(db, [], None, Some(e))
    case Success(t) =>
      var ins := Insert(db, eng, t);
      Issued(ins.db, ins.trace, Some(t), if ins.result.Success? then None else Some(ins.result.error))
  }

  /** `DeleteAllForUser`: exactly the user's tokens of the scope go; every
      other row and every other table stays. */
  function DeleteAllForUser(db: Db, eng: Engine, scope: string, userId: int): (o: Outcome<()>)
    ensures o.trace == [DeleteTokens(scope, userId)]
    ensures o.result.Success? <==> eng(db, DeleteTokens(scope, userId)).None?
    ensures o.result.Failure? ==>
      o.db == db && o.result.error == DbFailure(eng(db, DeleteTokens(scope, userId)).value)
    ensures o.result.Success? ==> o.db == db.(tokens := o.db.tokens)
    ensures o.result.Success? ==>
      forall t :: t in o.db.tokens <==> t in db.tokens && !(t.scope == scope && t.userId == userId)
  {
    var st := DeleteTokens(scope, userId);
    var (db', err) := Single(db, eng, st);
    if err.None? then
      assert db'.tokens == Sorting.Filter(db.tokens, (t: TokenRow) => !(t.scope == scope && t.userId == userId));
      Outcome(db', [st], Success(()))
    else Outcome(db, [st], Failure(DbFailure(err.value)))
  }
}

=== FILE: users.dfy ===
/** Users (`internal/data/users.go`): the validation of a sign-up, the
    insert with its duplicate-email mapping, and the two lookups, by token
    and by email.  Bcrypt and the email pattern are parameters. */
module Users {
  import opened Wrappers
  import opened Validation
  import opened Store
  import Sorting
  import Tokens

  const RoleClient: string := "client"
  const RoleProvider: string := "provider"

  /** A password as the model holds it: the plaintext, when it was set in
      this request, and the bcrypt hash, when there is one (`nil` otherwise). */
  datatype Password = Password(plaintext: Option<string>, hash: Option<Bytes>)

  datatype User = User(
    id: int, email: string, firstName: string, lastName: string, phoneNumber: string,
    password: Password, activated: bool, role: string)

  predicate NameOk(name: string) {
    name != "" && |name| <= 500
  }

  predicate EmailOk(email: string, matchesEmail: string -> bool) {
    email != "" && matchesEmail(email)
  }

  predicate PasswordOk(plaintext: string) {
    8 <= |plaintext| <= 72
  }

  predicate RoleOk(role: string) {
    role != "" && In(role, [RoleClient, RoleProvider])
  }

  /** `ValidateEmail`; `matchesEmail` is the `EmailRX` pattern. */
  function ValidateEmail(v: Validator, email: string, matchesEmail: string -> bool): (r: Validator)
    ensures Extends(v, r)
    ensures r.errors.Keys == v.errors.Keys + (if EmailOk(email, matchesEmail) then {} else {"email"})
    ensures "email" !in v.errors && !EmailOk(email, matchesEmail) ==>
      r.errors["email"] == (if email == "" then "must be provided" else "must be a valid email address")
  {
    CheckBoth(v, email != "", matchesEmail(email), "email", "must be provided", "must be a valid email address")
  }

  /** `ValidatePasswordPlaintext`: 8 to 72 bytes; the first failing check
      supplies the message. */
  function ValidatePasswordPlaintext(v: Validator, plaintext: string): (r: Validator)
    ensures Extends(v, r)
    ensures r.errors.Keys == v.errors.Keys + (if PasswordOk(plaintext) then {} else {"password"})
    ensures "password" !in v.errors && !PasswordOk(plaintext) ==>
      r.errors["password"] ==
        (if plaintext == "" then "must be provided"
         else if |plaintext| < 8 then "must be at least 8 bytes long"
         else "must not be more than 72 bytes long")
  {
    var v1 := Check(v, plaintext != "", "password", "must be provided");
    var r := CheckBoth(v1, |plaintext| >= 8, |plaintext| <= 72, "password",
                       "must be at least 8 bytes long", "must not be more than 72 bytes long");
    ExtendsTransitive(v, v1, r);
    r
  }

  /** The presence and length checks of one name field. */
  function CheckName(v: Validator, name: string, key: string): (r: Validator)
    ensures Extends(v, r)
    ensures r.errors.Keys == v.errors.Keys + (if NameOk(name) then {} else {key})
    ensures key !in v.errors && !NameOk(name) ==>
      r.errors[key] == (if name == "" then "must be provided" else "must not be more than 500 bytes long")
  {
    CheckBoth(v, name != "", |name| <= 500, key, "must be provided", "must not be more than 500 bytes long")
  }

  /** The password is checked only when a plaintext was set. */
  function CheckPassword(v: Validator, p: Password): (r: Validator)
    ensures Extends(v, r)
    ensures r.errors.Keys == v.errors.Keys +
      (if p.plaintext.None? || PasswordOk(p.plaintext.value) then {} else {"password"})
  {
    if p.plaintext.Some? then ValidatePasswordPlaintext(v, p.plaintext.value) else v
  }

  function CheckRole(v: Validator, role: string): (r: Validator)
    ensures Extends(v, r)
    ensures r.errors.Keys == v.errors.Keys + (if RoleOk(role) then {} else {"role"})
    ensures "role" !in v.errors && !RoleOk(role) ==>
      r.errors["role"] == (if role == "" then "must be provided" else "invalid role value")
  {
    CheckBoth(v, role != "", In(role, [RoleClient, RoleProvider]), "role", "must be provided", "invalid role value")
  }

  /** The keys of a user's errors are distinct strings. */
  lemma KeysDistinct()
    ensures "first_name" != "last_name" && "first_name" != "email" && "first_name" != "password"
    ensures "first_name" != "role" && "last_name" != "email" && "last_name" != "password"
    ensures "last_name" != "role" && "email" != "password" && "email" != "role" && "password" != "role"
  {
    assert |"first_name"| == 10 && |"last_name"| == 9 && |"password"| == 8;
    assert |"email"| == 5 && |"role"| == 4;
  }

  ghost function NameErrors(u: User): set<string> {
    (if NameOk(u.firstName) then {} else {"first_name"}) + (if NameOk(u.lastName) then {} else {"last_name"})
  }

  ghost function CredentialErrors(u: User, matchesEmail: string -> bool): set<string> {
    (if EmailOk(u.email, matchesEmail) then {} else {"email"})
    + (if u.password.plaintext.None? || PasswordOk(u.password.plaintext.value) then {} else {"password"})
  }

  ghost function AccountErrors(u: User, matchesEmail: string -> bool): set<string> {
    CredentialErrors(u, matchesEmail) + (if RoleOk(u.role) then {} else {"role"})
  }

  ghost function UserErrors(u: User, matchesEmail: string -> bool): set<string> {
    NameErrors(u) + AccountErrors(u, matchesEmail)
  }

  function ValidateNames(v: Validator, u: User): (r: Validator)
    ensures Extends(v, r)
    ensures r.errors.Keys == v.errors.Keys + NameErrors(u)
  {
    var v1 := CheckName(v, u.firstName, "first_name");
    var r := CheckName(v1, u.lastName, "last_name");
    ExtendsTransitive(v, v1, r);
    r
  }

  function ValidateCredentials(v: Validator, u: User, matchesEmail: string -> bool): (r: Validator)
    ensures Extends(v, r)
    ensures r.errors.Keys == v.errors.Keys + CredentialErrors(u, matchesEmail)
  {
    var v1 := ValidateEmail(v, u.email, matchesEmail);
    var r := CheckPassword(v1, u.password);
    ExtendsTransitive(v, v1, r);
    r
  }

  lemma RoleNotCredential(u: User, matchesEmail: string -> bool)
    ensures "role" !in CredentialErrors(u, matchesEmail)
  {
    KeysDistinct();
  }

  function ValidateAccount(v: Validator, u: User, matchesEmail: string -> bool): (r: Validator)
    ensures Extends(v, r)
    ensures r.errors.Keys == v.errors.Keys + AccountErrors(u, matchesEmail)
    ensures "role" !in v.errors && !RoleOk(u.role) ==>
      r.errors["role"] == (if u.role == "" then "must be provided" else "invalid role value")
  {
    RoleNotCredential(u, matchesEmail);
    var v1 := ValidateCredentials(v, u, matchesEmail);
    assert "role" in v1.errors <==> "role" in v.errors;
    var r := CheckRole(v1, u.role);
    ExtendsTransitive(v, v1, r);
    r
  }

  /** `ValidateUser`.  The source panics when the user has no password
      hash; here that is the caller's obligation. */
  function ValidateUser(v: Validator, u: User, matchesEmail: string -> bool): (r: Validator)
    requires u.password.hash.Some?
    ensures Extends(v, r)
    ensures r.errors.Keys == v.errors.Keys + UserErrors(u, matchesEmail)
  {
    var v1 := ValidateNames(v, u);
    var r := ValidateAccount(v1, u, matchesEmail);
    ExtendsTransitive(v, v1, r);
    r
  }

  /** A user passes validation exactly when both names have 1 to 500
      bytes, the email is present and matches the pattern, the password has
      8 to 72 bytes if one was set, and the role is client or provider. */
  lemma ValidUserIff(u: User, matchesEmail: string -> bool)
    requires u.password.hash.Some?
    ensures Valid(ValidateUser(New(), u, matchesEmail)) <==>
      && 1 <= |u.firstName| <= 500 && 1 <= |u.lastName| <= 500
      && u.email != "" && matchesEmail(u.email)
      && (u.password.plaintext.Some? ==> 8 <= |u.password.plaintext.value| <= 72)
      && (u.role == RoleClient || u.role == RoleProvider)
  {
    var errs := UserErrors(u, matchesEmail);
    assert Valid(ValidateUser(New(), u, matchesEmail)) <==> errs == {};
    if !NameOk(u.firstName) { assert "first_name" in errs; }
    else if !NameOk(u.lastName) { assert "last_name" in errs; }
    else if !EmailOk(u.email, matchesEmail) { assert "email" in errs; }
    else if !(u.password.plaintext.None? || PasswordOk(u.password.plaintext.value)) { assert "password" in errs; }
    else if !RoleOk(u.role) { assert "role" in errs; }
  }

  /** The password key gets an error exactly when a plaintext was set and
      its length is out of range: a user without a plaintext (one being
      updated, say) is never asked for one. */
  lemma PasswordCheckedOnlyWhenSet(u: User, matchesEmail: string -> bool)
    requires u.password.hash.Some?
    ensures "password" in ValidateUser(New(), u, matchesEmail).errors <==>
      u.password.plaintext.Some? && !(8 <= |u.password.plaintext.value| <= 72)
  {
    var r := ValidateUser(New(), u, matchesEmail);
    PasswordErrorIff(u, matchesEmail);
    if "password" in r.errors {
      assert "password" in UserErrors(u, matchesEmail);
    } else {
      assert "password" !in UserErrors(u, matchesEmail);
    }
  }

  lemma PasswordErrorIff(u: User, matchesEmail: string -> bool)
    ensures "password" in UserErrors(u, matchesEmail) <==>
      u.password.plaintext.Some? && !PasswordOk(u.password.plaintext.value)
  {
    KeysDistinct();
  }

  /** The name messages a fresh validator ends with: an empty name is
      reported as missing, a long one as too long. */
  lemma NameMessages(u: User, matchesEmail: string -> bool)
    requires u.password.hash.Some?
    ensures var r := ValidateUser(New(), u, matchesEmail);
      && (!NameOk(u.firstName) ==>
            r.errors["first_name"] == (if u.firstName == "" then "must be provided" else "must not be more than 500 bytes long"))
      && (!NameOk(u.lastName) ==>
            r.errors["last_name"] == (if u.lastName == "" then "must be provided" else "must not be more than 500 bytes long"))
  {
    KeysDistinct();
    var v1 := CheckName(New(), u.firstName, "first_name");
    assert "last_name" !in v1.errors;
  }

  /** The password message a fresh validator ends with, when a plaintext
      was set: the first of the three checks that fails. */
  lemma PasswordMessage(u: User, matchesEmail: string -> bool)
    requires u.password.hash.Some? && u.password.plaintext.Some?
    ensures var p := u.password.plaintext.value;
      !PasswordOk(p) ==>
        ValidateUser(New(), u, matchesEmail).errors["password"] ==
          (if p == "" then "must be provided"
           else if |p| < 8 then "must be at least 8 bytes long"
           else "must not be more than 72 bytes long")
  {
    KeysDistinct();
    var v1 := ValidateNames(New(), u);
    var v2 := ValidateEmail(v1, u.email, matchesEmail);
    assert "password" !in v2.errors;
  }

  /** The role message a fresh validator ends with. */
  lemma RoleMessage(u: User, matchesEmail: string -> bool)
    requires u.password.hash.Some?
    ensures !RoleOk(u.role) ==>
      ValidateUser(New(), u, matchesEmail).errors["role"] ==
        (if u.role == "" then "must be provided" else "invalid role value")
  {
    KeysDistinct();
    var v1 := ValidateNames(New(), u);
    assert "role" !in v1.errors;
  }

  /** The row `Insert` sends; the database assigns the id. */
  function UserStmt(u: User): Stmt {
    InsertUser(UserRow(0, u.email, u.firstName, u.lastName, u.phoneNumber, u.password.hash, u.activated, u.role))
  }

  /** The violation `Insert` reports as a duplicate email: a unique
      violation on the email's own constraint. */
  predicate IsEmailConflict(e: DbError) {
    IsPgCode(e, UniqueViolation) && e.constraintName == "users_email_key"
  }

  /** `UserModel.Insert`: a unique violation on `users_email_key` is a
      duplicate email; any other error, a unique violation on another
      constraint included, is wrapped as "inserting user". */
  function Insert(db: Db, eng: Engine, u: User): (o: Outcome<int>)
    ensures o.trace == [UserStmt(u)]
    ensures o.result.Success? <==> eng(db, UserStmt(u)).None?
    ensures o.result.Success? ==>
      && o.result.value == db.nextId
      && o.db == db.(users := db.users + [UserStmt(u).user.(id := db.nextId)], nextId := db.nextId + 1)
    ensures o.result.Failure? ==> o.db == db
    ensures o.result == Failure(DuplicateEmail) <==>
      eng(db, UserStmt(u)).Some? && IsEmailConflict(eng(db, UserStmt(u)).value)
    ensures o.result.Failure? && o.result != Failure(DuplicateEmail) ==>
      o.result == Failure(Wrapped("inserting user", eng(db, UserStmt(u)).value))
  {
    var st := UserStmt(u);
    var (db', err) := Single(db, eng, st);
    match err
    case None => Outcome(db', [st], Success(db.nextId))
    case Some(e) => Outcome(db, [st], Failure(if IsEmailConflict(e) then DuplicateEmail else Wrapped("inserting user", e)))
  }

  /** A token row that authenticates `hash` in `scope` at time `now`. */
  predicate LiveToken(t: TokenRow, hash: Bytes, scope: string, now: int) {
    t.hash == hash && t.scope == scope && t.expiry > now
  }

  /** The users the join of `GetForToken` keeps: those holding a live token. */
  function HoldsToken(tokens: seq<TokenRow>, hash: Bytes, scope: string, now: int): UserRow -> bool {
    (u: UserRow) => exists k :: 0 <= k < |tokens| && tokens[k].userId == u.id && LiveToken(tokens[k], hash, scope, now)
  }

  /** The columns `GetForToken` reads: no phone number, and the hash only. */
  function ForToken(row: UserRow): User {
    User(row.id, row.email, row.firstName, row.lastName, "", Password(None, row.passwordHash), row.activated, row.role)
  }

  /** `GetForToken`: the user joined to a token whose hash is that of the
      plaintext, of the scope, and not yet expired at `now`.  No such user
      is `ErrRecordNotFound`; a database error is returned as is.  The rows
      of a join come back in no fixed order; the model reads users in table
      order. */
  function GetForToken(db: Db, eng: Engine, scope: string, plaintext: string, sha: Tokens.Hasher, now: int)
    : (o: Outcome<User>)
    ensures o.db == db && o.trace == [SelectUserForToken(sha(plaintext), scope, now)]
    ensures eng(db, SelectUserForToken(sha(plaintext), scope, now)).Some? ==>
      o.result == Failure(DbFailure(eng(db, SelectUserForToken(sha(plaintext), scope, now)).value))
    ensures eng(db, SelectUserForToken(sha(plaintext), scope, now)).None? ==>
      (o.result == Failure(RecordNotFound) <==>
        forall i, k :: 0 <= i < |db.users| && 0 <= k < |db.tokens| && db.tokens[k].userId == db.users[i].id
          ==> !LiveToken(db.tokens[k], sha(plaintext), scope, now))
    ensures eng(db, SelectUserForToken(sha(plaintext), scope, now)).None? ==>
      (o.result.Success? <==>
        exists i, k :: 0 <= i < |db.users| && 0 <= k < |db.tokens| && db.tokens[k].userId == db.users[i].id &&
          LiveToken(db.tokens[k], sha(plaintext), scope, now))
    ensures o.result.Success? ==>
      exists i, k :: 0 <= i < |db.users| && 0 <= k < |db.tokens| && db.tokens[k].userId == db.users[i].id &&
        LiveToken(db.tokens[k], sha(plaintext), scope, now) && o.result.value == ForToken(db.users[i])
  {
    var st := SelectUserForToken(sha(plaintext), scope, now);
    match eng(db, st)
    case Some(e) => Outcome(db, [st], Failure(DbFailure(e)))
    case None =>
      var holds := HoldsToken(db.tokens, sha(plaintext), scope, now);
      match Sorting.FirstWhere(db.users, holds)
      case None =>
        Outcome(db, [st], Failure(RecordNotFound))
      case Some(i) =>
        Outcome(db, [st], Success(ForToken(db.users[i])))
  }

  /** Round trip: once `TokenModel.New` has stored a token for an existing
      user, `GetForToken` with its plaintext and scope finds a user until
      the token expires, unless the database fails the query. */
  lemma NewTokenAuthenticates(db: Db, eng: Engine, userId: int, ttl: int, scope: string, now: int,
                              random: Tokens.RandomSource, sha: Tokens.Hasher, eng2: Engine, later: int)
    requires Tokens.FillsBuffer(random)
    requires exists i :: 0 <= i < |db.users| && db.users[i].id == userId
    requires var o := Tokens.NewToken(db, eng, userId, ttl, scope, now, random, sha);
      o.token.Some? && o.err.None? && later < now + ttl &&
      eng2(o.db, SelectUserForToken(sha(o.token.value.plaintext), scope, later)).None?
    ensures var o := Tokens.NewToken(db, eng, userId, ttl, scope, now, random, sha);
      GetForToken(o.db, eng2, scope, o.token.value.plaintext, sha, later).result.Success?
  {
    var o := Tokens.NewToken(db, eng, userId, ttl, scope, now, random, sha);
    var t := o.token.value;
    var i :| 0 <= i < |db.users| && db.users[i].id == userId;
    var k := |db.tokens|;
    assert o.db.tokens[k] == Tokens.TokenRowOf(t);
    assert o.db.users[i].id == userId && o.db.tokens[k].userId == userId;
    assert LiveToken(o.db.tokens[k], sha(t.plaintext), scope, later);
  }

  /** The columns `GetByEmail` reads: no role and no phone number. */
  function ByEmail(row: UserRow): User {
    User(row.id, row.email, row.firstName, row.lastName, "", Password(None, row.passwordHash), row.activated, "")
  }

  /** `GetByEmail`: the user with that email, or `ErrRecordNotFound`; a
      database error is returned as is. */
  function GetByEmail(db: Db, eng: Engine, email: string): (o: Outcome<User>)
    ensures o.db == db && o.trace == [SelectUserByEmail(email)]
    ensures eng(db, SelectUserByEmail(email)).Some? ==>
      o.result == Failure(DbFailure(eng(db, SelectUserByEmail(email)).value))
    ensures eng(db, SelectUserByEmail(email)).None? ==>
      (o.result == Failure(RecordNotFound) <==> forall i :: 0 <= i < |db.users| ==> db.users[i].email != email)
    ensures eng(db, SelectUserByEmail(email)).None? ==>
      (o.result.Success? <==> exists i :: 0 <= i < |db.users| && db.users[i].email == email)
    ensures o.result.Success? ==>
      exists i :: 0 <= i < |db.users| && db.users[i].email == email && o.result.value == ByEmail(db.users[i])
  {
    var st := SelectUserByEmail(email);
    match eng(db, st)
    case Some(e) => Outcome(db, [st], Failure(DbFailure(e)))
    case None =>
      match Sorting.FirstWhere(db.users, (u: UserRow) => u.email == email)
      case None => Outcome(db, [st], Failure(RecordNotFound))
      case Some(i) => Outcome(db, [st], Success(ByEmail(db.users[i])))
  }

  /** Round trip: a user inserted with a fresh email is found by it, with
      the fields `GetByEmail` reads. */
  lemma InsertThenGetByEmail(db: Db, eng: Engine, u: User, eng2: Engine)
    requires forall i :: 0 <= i < |db.users| ==> db.users[i].email != u.email
    requires Insert(db, eng, u).result.Success?
    requires eng2(Insert(db, eng, u).db, SelectUserByEmail(u.email)).None?
    ensures var o := Insert(db, eng, u);
      GetByEmail(o.db, eng2, u.email).result ==
        Success(User(o.result.value, u.email, u.firstName, u.lastName, "", Password(None, u.password.hash), u.activated, ""))
  {
    var o := Insert(db, eng, u);
    var n := |db.users|;
    assert o.db.users[n].email == u.email;
    assert forall i :: 0 <= i < n ==> o.db.users[i] == db.users[i];
  }
}

=== FILE: validation.dfy ===
/** The error accumulator of `internal/validator/validator.go` and its
    sequence helpers.  A validator is a value: every operation returns the
    updated validator instead of mutating a shared map. */
module Validation {
  import opened Decimal
  import Regexp

  /** Field name to the first message recorded for it. */
  datatype Validator = Validator(errors: map<string, string>)

  /** A fresh validator records no error. */
  function New(): (v: Validator)
    ensures Valid(v)
    ensures forall k :: k !in v.errors
  {
    Validator(map[])
  }

  predicate Valid(v: Validator) {
    |v.errors| == 0
  }

  /** `Valid` holds exactly when no field carries an error. */
  lemma ValidIffNoErrors(v: Validator)
    ensures Valid(v) <==> (forall k :: k !in v.errors)
  {
    if !Valid(v) {
      var k :| k in v.errors;
    }
  }

  /** `r` keeps every error of `v` with its message: errors are never
      removed or overwritten. */
  predicate Extends(v: Validator, r: Validator) {
    forall k :: k in v.errors ==> k in r.errors && r.errors[k] == v.errors[k]
  }

  /** Records `msg` under `key` unless the key already has a message: the
      first error recorded for a key wins. */
  function AddError(v: Validator, key: string, msg: string): (r: Validator)
    ensures r.errors.Keys == v.errors.Keys + {key}
    ensures key !in v.errors ==> r.errors[key] == msg
    ensures Extends(v, r)
  {
    if key in v.errors then v else Validator(v.errors[key := msg])
  }

  /** Records `msg` under `key` when `ok` is false. */
  function Check(v: Validator, ok: bool, key: string, msg: string): (r: Validator)
    ensures r.errors.Keys == v.errors.Keys + (if ok then {} else {key})
    ensures !ok && key !in v.errors ==> r.errors[key] == msg
    ensures Extends(v, r)
  {
    if ok then v else AddError(v, key, msg)
  }

  /** Two checks on the same key, in order: the first failing one supplies
      the message. */
  function CheckBoth(v: Validator, ok1: bool, ok2: bool, key: string, msg1: string, msg2: string): (r: Validator)
    ensures r.errors.Keys == v.errors.Keys + (if ok1 && ok2 then {} else {key})
    ensures key !in v.errors && !(ok1 && ok2) ==> r.errors[key] == (if ok1 then msg2 else msg1)
    ensures Extends(v, r)
  {
    Check(Check(v, ok1, key, msg1), ok2, key, msg2)
  }

  /** A second message for a key already in error is ignored. */
  lemma FirstErrorWins(v: Validator, key: string, first: string, second: string)
    ensures AddError(AddError(v, key, first), key, second) == AddError(v, key, first)
    ensures key !in v.errors ==> AddError(AddError(v, key, first), key, second).errors[key] == first
  {
  }

  lemma ExtendsTransitive(a: Validator, b: Validator, c: Validator)
    requires Extends(a, b) && Extends(b, c)
    ensures Extends(a, c)
  {
  }

  /** Once invalid, a validator stays invalid whatever is checked next. */
  lemma InvalidStaysInvalid(v: Validator, r: Validator)
    requires Extends(v, r)
    requires !Valid(v)
    ensures !Valid(r)
  {
    var k :| k in v.errors;
    assert k in r.errors;
  }

  /** `validator.In(value, list...)`: membership by a left-to-right scan. */
  function In(value: string, list: seq<string>): (r: bool)
    ensures r <==> value in list
  {
    if |list| == 0 then false
    else if list[0] == value then true
    else
      assert list == [list[0]] + list[1..];
      In(value, list[1..])
  }

  /** Some value occurs at two different positions. */
  ghost predicate Repeats<T>(s: seq<T>) {
    exists i, j :: 0 <= i < j < |s| && s[i] == s[j]
  }

  /** The set of values occurring in `s`. */
  function Elements<T>(s: seq<T>): set<T> {
    set x | x in s
  }

  /** `validator.HasDuplicates`: scanning left to right, a value already
      seen reports a duplicate. */
  function HasDuplicates<T(==)>(s: seq<T>): (r: bool)
    ensures r <==> Repeats(s)
  {
    if |s| == 0 then false
    else
      var init := s[..|s| - 1];
      var r := HasDuplicates(init) || s[|s| - 1] in init;
      assert Repeats(init) ==> Repeats(s) by {
        if Repeats(init) {
          var i, j :| 0 <= i < j < |init| && init[i] == init[j];
          assert s[i] == s[j];
        }
      }
      assert s[|s| - 1] in init ==> Repeats(s) by {
        if s[|s| - 1] in init {
          var i :| 0 <= i < |init| && init[i] == s[|s| - 1];
          assert s[i] == s[|s| - 1];
        }
      }
      assert Repeats(s) ==> Repeats(init) || s[|s| - 1] in init by {
        if Repeats(s) {
          var i, j :| 0 <= i < j < |s| && s[i] == s[j];
          if j < |s| - 1 {
            assert init[i] == init[j];
          } else {
            assert init[i] == s[|s| - 1];
          }
        }
      }
      r
  }

  /** A sequence without repeats has as many distinct values as positions;
      one with a repeat has fewer. */
  lemma {:induction false} ElementsCardinality<T>(s: seq<T>)
    ensures |Elements(s)| <= |s|
    ensures |Elements(s)| == |s| <==> !Repeats(s)
  {
    if |s| > 0 {
      var init := s[..|s| - 1];
      var last := s[|s| - 1];
      ElementsCardinality(init);
      assert Elements(s) == Elements(init) + {last} by {
        assert s == init + [last];
      }
      assert HasDuplicates(s) == (HasDuplicates(init) || last in init);
      if last in init {
        assert Elements(s) == Elements(init);
      } else {
        assert last !in Elements(init);
        assert |Elements(s)| == |Elements(init)| + 1;
      }
    }
  }

  /** `validator.Unique`: the number of distinct values equals the length. */
  function Unique(values: seq<string>): (r: bool)
    ensures r <==> !HasDuplicates(values)
  {
    ElementsCardinality(values);
    |values| == |Elements(values)|
  }

  /** The position where `x` first occurs in `s`. */
  function FirstIndex<T(==)>(s: seq<T>, x: T): (i: nat)
    requires x in s
    ensures i < |s| && s[i] == x && x !in s[..i]
  {
    if s[0] == x then 0
    else
      var i := FirstIndex(s[1..], x);
      assert s[1..][..i] == s[1..i + 1];
      i + 1
  }

  /** `r` lists the distinct values of `s`, each once, in the order of
      their first occurrence in `s`. */
  ghost predicate FirstOccurrences<T>(s: seq<T>, r: seq<T>) {
    && !Repeats(r)
    && (forall i :: 0 <= i < |r| ==> r[i] in s)
    && (forall i :: 0 <= i < |s| ==> s[i] in r)
    && (forall i, j :: 0 <= i < j < |r| ==> FirstIndex(s, r[i]) < FirstIndex(s, r[j]))
  }

  /** `validator.Dedupe`: keeps the first occurrence of every value. The
      result has no repeats, holds exactly the values of `s`, and lists
      them in the order of their first occurrence in `s`. */
  function Dedupe<T(==)>(s: seq<T>): (r: seq<T>)
    ensures FirstOccurrences(s, r)
  {
    if |s| == 0 then []
    else
      var last := s[|s| - 1];
      var p := Dedupe(s[..|s| - 1]);
      DedupeStep(s, p);
      if last in p then p else p + [last]
  }

  /** One step of `Dedupe`: from the first occurrences of all but the last
      value to those of the whole sequence. */
  lemma DedupeStep<T>(s: seq<T>, p: seq<T>)
    requires |s| > 0 && FirstOccurrences(s[..|s| - 1], p)
    ensures FirstOccurrences(s, if s[|s| - 1] in p then p else p + [s[|s| - 1]])
  {
    if s[|s| - 1] in p {
      DedupeSeen(s[..|s| - 1], s[|s| - 1], p);
    } else {
      DedupeNew(s[..|s| - 1], s[|s| - 1], p);
    }
    assert s == s[..|s| - 1] + [s[|s| - 1]];
  }

  /** A value seen before adds nothing. */
  lemma DedupeSeen<T>(init: seq<T>, last: T, p: seq<T>)
    requires last in p && FirstOccurrences(init, p)
    ensures FirstOccurrences(init + [last], p)
  {
    var s := init + [last];
    FirstIndexExtend(init, last);
    forall i | 0 <= i < |s| ensures s[i] in p {
      if i < |init| { assert s[i] == init[i]; }
    }
    forall i, j | 0 <= i < j < |p| ensures FirstIndex(s, p[i]) < FirstIndex(s, p[j]) {
      assert p[i] in init && p[j] in init;
    }
  }

  /** A new value goes last. */
  lemma DedupeNew<T>(init: seq<T>, last: T, p: seq<T>)
    requires last !in p && FirstOccurrences(init, p)
    ensures FirstOccurrences(init + [last], p + [last])
  {
    var s := init + [last];
    var r := p + [last];
    forall i | 0 <= i < |r| ensures r[i] in s {
      if i < |p| { assert r[i] == p[i] && p[i] in init; }
    }
    forall i | 0 <= i < |s| ensures s[i] in r {
      if i < |init| { assert s[i] == init[i] && init[i] in p; }
    }
    assert r[..|r| - 1] == p;
    assert HasDuplicates(r) == (HasDuplicates(p) || last in p);
    FirstOrderAppend(init, last, p);
  }

  /** A value new to `init` goes after every earlier one in first-occurrence
      order. */
  lemma FirstOrderAppend<T>(init: seq<T>, last: T, p: seq<T>)
    requires last !in p
    requires forall i :: 0 <= i < |p| ==> p[i] in init
    requires forall i :: 0 <= i < |init| ==> init[i] in p
    requires forall i, j :: 0 <= i < j < |p| ==> FirstIndex(init, p[i]) < FirstIndex(init, p[j])
    ensures forall i, j :: 0 <= i < j < |p| + 1 ==>
      FirstIndex(init + [last], (p + [last])[i]) < FirstIndex(init + [last], (p + [last])[j])
  {
    var s := init + [last];
    var r := p + [last];
    assert last !in init;
    FirstIndexExtend(init, last);
    forall i, j | 0 <= i < j < |r|
      ensures FirstIndex(s, r[i]) < FirstIndex(s, r[j])
    {
      assert r[i] in init;
      if j == |r| - 1 {
        assert FirstIndex(s, r[j]) == |init|;
      } else {
        assert r[j] in init;
      }
    }
  }

  /** Appending a value does not move the first occurrence of earlier values. */
  lemma FirstIndexExtend<T>(s: seq<T>, y: T)
    ensures forall x :: x in s ==> FirstIndex(s + [y], x) == FirstIndex(s, x)
    ensures y !in s ==> FirstIndex(s + [y], y) == |s|
  {
    forall x | x in s
      ensures FirstIndex(s + [y], x) == FirstIndex(s, x)
    {
      var i := FirstIndex(s, x);
      var k := FirstIndex(s + [y], x);
      assert (s + [y])[..i] == s[..i];
      assert k <= i;
      assert (s + [y])[..k] == s[..k];
    }
    if y !in s {
      assert (s + [y])[..|s|] == s;
    }
  }

  /** Deduplicating a sequence without repeats returns it unchanged, so
      `Dedupe` is idempotent. */
  lemma {:induction false} DedupeDistinct<T>(s: seq<T>)
    requires !Repeats(s)
    ensures Dedupe(s) == s
  {
    if |s| > 0 {
      var init := s[..|s| - 1];
      DistinctInit(s);
      DedupeDistinct(init);
      assert Dedupe(s) == Dedupe(init) + [s[|s| - 1]];
      assert s == init + [s[|s| - 1]];
    }
  }

  /** Without repeats, the prefix has none and the last value is new to it. */
  lemma DistinctInit<T>(s: seq<T>)
    requires |s| > 0 && !Repeats(s)
    ensures !Repeats(s[..|s| - 1]) && s[|s| - 1] !in s[..|s| - 1]
  {
  }

  lemma DedupeIdempotent<T>(s: seq<T>)
    ensures Dedupe(Dedupe(s)) == Dedupe(s)
  {
    DedupeDistinct(Dedupe(s));
  }

  /** `validator.PhoneRX`, `^[0-9]{10}$`, as a pattern. */
  const PhoneRX: Regexp.Re := Regexp.Times(Regexp.Class([Regexp.Range('0', '9')]), 10)

  /** `validator.Matches(s, PhoneRX)`: ten decimal digits. */
  predicate MatchesPhone(s: string) {
    |s| == 10 && AllDigits(s)
  }

  /** `MatchesPhone` accepts exactly the texts `PhoneRX` matches. */
  lemma PhoneRXIff(s: string)
    ensures MatchesPhone(s) <==> Regexp.Match(PhoneRX, s)
  {
    Regexp.TimesClass([Regexp.Range('0', '9')], 10, s);
    forall i | 0 <= i < |s|
      ensures IsDigit(s[i]) <==> Regexp.InClass([Regexp.Range('0', '9')], s[i])
    {
      OneRange(Regexp.Range('0', '9'), s[i]);
    }
  }

  predicate IsCategoryChar(c: char) {
    ('a' <= c <= 'z') || ('A' <= c <= 'Z') || IsDigit(c) || c == ' '
  }

  /** `validator.CategoryRX`, `^[a-zA-Z0-9 ]+$`, as a pattern. */
  const CategoryRX: Regexp.Re :=
    Regexp.Plus(Regexp.Class([Regexp.Range('a', 'z'), Regexp.Range('A', 'Z'), Regexp.Range('0', '9'), Regexp.Range(' ', ' ')]))

  /** `validator.Matches(s, CategoryRX)`: one or more letters, digits and spaces. */
  predicate MatchesCategory(s: string) {
    |s| >= 1 && forall i :: 0 <= i < |s| ==> IsCategoryChar(s[i])
  }

  /** `MatchesCategory` accepts exactly the texts `CategoryRX` matches. */
  lemma CategoryRXIff(s: string)
    ensures MatchesCategory(s) <==> Regexp.Match(CategoryRX, s)
  {
    var rs := [Regexp.Range('a', 'z'), Regexp.Range('A', 'Z'), Regexp.Range('0', '9'), Regexp.Range(' ', ' ')];
    Regexp.PlusClass(rs, s);
    forall i | 0 <= i < |s| ensures IsCategoryChar(s[i]) <==> Regexp.InClass(rs, s[i]) {
      CategoryClass(s[i]);
    }
  }

  /** A class of one range holds exactly the characters of the range. */
  lemma OneRange(r: Regexp.Range, c: char)
    ensures Regexp.InClass([r], c) <==> r.lo <= c <= r.hi
  {
    if r.lo <= c <= r.hi {
      assert [r][0] == r;
    }
  }

  /** The class of `CategoryRX` holds exactly the category characters. */
  lemma CategoryClass(c: char)
    ensures IsCategoryChar(c) <==>
      Regexp.InClass([Regexp.Range('a', 'z'), Regexp.Range('A', 'Z'), Regexp.Range('0', '9'), Regexp.Range(' ', ' ')], c)
  {
    var rs := [Regexp.Range('a', 'z'), Regexp.Range('A', 'Z'), Regexp.Range('0', '9'), Regexp.Range(' ', ' ')];
    if 'a' <= c <= 'z' { assert rs[0].lo <= c <= rs[0].hi; }
    else if 'A' <= c <= 'Z' { assert rs[1].lo <= c <= rs[1].hi; }
    else if IsDigit(c) { assert rs[2].lo <= c <= rs[2].hi; }
    else if c == ' ' { assert rs[3].lo <= c <= rs[3].hi; }
  }
}

=== FILE: wrappers.dfy ===
/** Failure-compatible wrappers shared by every module of the model:
    `Option` stands for a nilable Go value, `Result` for a
    Go `(value, error)` pair. */
module Wrappers {

  datatype Option<+T> = None | Some(value: T) {
    predicate IsFailure() {
      None?
    }

    function PropagateFailure<U>(): Option<U>
      requires None?
    {
      None
    }

    function Extract(): T
      requires Some?
    {
      value
    }

    function GetOr(default: T): T {
      match this
      case Some(v) => v
      case None => default
    }
  }

  datatype Result<+R, +E> = Success(value: R) | Failure(error: E) {
    predicate IsFailure() {
      Failure?
    }

    function PropagateFailure<U>(): Result<U, E>
      requires Failure?
    {
      Failure(this.error)
    }

    function Extract(): R
      requires Success?
    {
      value
    }
  }
}
